=== FILE: README.md ===
# Claude Code trace analysers, modelled in Dafny

The repository holds offline tools that read captured Claude Code API traces: one JSON
object per line, each a request (`url`, `method`, `body`) and a response (`body_raw`).
This project models their core:

- **Content extraction** (`Extract`): the primary user text of a request, skipping
  `<system-reminder>` texts; all user texts; the conversation chain of
  (role, text) pairs; and the tool calls and text of a decoded response.
- **Message display** (`Format`): `format_message_with_indent`, which re-indents a
  message under a prefix and truncates long ones.
- **Endpoint classification** (`Endpoint`): the ordered first-match table of URL
  patterns, with the UNKNOWN fallback, for both flow scripts.
- **Message-purpose classification** (`Purpose`): Haiku rules first, then Sonnet
  rules, then the unknown-model label.
- **The two stream passes** (`RequestFlow`, `DetailedFlow`). Each is a fold over the
  entries. It carries the turn counter (or the health-check phase counter), the
  lists of unknown endpoints and unknown messages, and the report lines. `Report`
  holds the parts both reports share.
- **The two extractor scripts** (`ExtractTools`, `ExtractSystemPrompts`). Each selects
  the first qualifying entry of a trace. `ExtractTools` also filters out MCP tools.
  `Versions` holds the shared machinery:
  - the version taken from a file's stem;
  - the first-file-per-version loop of `main`;
  - the `metadata.json` records.

  `Sorting` is Python's string order and `sorted()`. `Selection` is the scan shared by
  both extractors.

Supporting modules:

- `Wrappers` holds `Option`.
- `Text` holds the slice of Python's `str` API the scripts use.
- `Trace` holds the parsed shape of a trace line.
- `Seqs` holds filter, map, fold and first-index laws.

Inputs are already-parsed values. A trace line is a `Trace.Entry`. The response body is
`Option<Response>`, where `None` stands for a missing or undecodable `body_raw`. A
trace file is its name, its stem and its entries. Missing JSON keys are folded into
the `dict.get` defaults the code uses.

## Model

| member | source | states |
|---|---|---|
| Extract.FirstText | src/request_flow.py:39-44 | the first text block that is not a reminder, skipping non-objects and other block types; None exactly when there is none |
| Extract.UserTextOf | src/request_flow.py:32-44 | a message yields user text only if its role is "user", and the text is never a reminder |
| Extract.ExtractUserMessage | src/request_flow.py:28-46 | the text of the first message that has user text, returned unstripped; "" when no message has any; never a reminder |
| Extract.ExtractAllUserMessages | src/request_flow.py:49-69 | the user text of each message that has one, in message order, and none of them a reminder |
| Extract.UserMessageIsFirstOfAll | src/request_flow.py:28-69 | the single extraction is the head of the all-messages extraction, and "" when that list is empty |
| Extract.AllUserMessagesConcat | src/request_flow.py:54-67 | the all-messages extraction works message by message: concatenating inputs concatenates outputs |
| Extract.ReminderNeverPrimary | src/request_flow.py:37-43 | a reminder is never returned, whether as string content or as the only text block |
| Extract.ToolUseNamesEmptyIff | src/request_flow.py:145-150 | no tool names exactly when no block is a tool_use |
| Extract.BlockTextsEmptyIff | src/request_flow.py:145-148 | no texts exactly when no block is a text block |
| Extract.ToolUseNamesConcat | src/request_flow.py:145-150 | tool names are collected block by block, in encounter order |
| Extract.ExtractToolCalls | src/request_flow.py:164-175 | an undecodable response gives no tool calls; otherwise the name of every tool_use block, "unknown" when it has none, in block order |
| Extract.ToolUseNamesAreNames | src/request_flow.py:169-173 | the collected names are exactly the tool_use blocks' names, block by block |
| Extract.ExtractResponseText | src/request_flow.py:178-189 | an undecodable response gives ""; otherwise the text of every text block, in block order, joined by single spaces |
| Extract.BlockTextsAreTexts | src/request_flow.py:183-187 | the collected texts are exactly the text blocks' texts, block by block |
| Extract.ExtractConversationChain | src/request_flow.py:103-161 | at most one entry per message, each with role user, tool_result or assistant |
| Extract.ChainConcat | src/request_flow.py:109-159 | the chain is built message by message: concatenating inputs concatenates chains |
| Extract.ChainRolesSubsequence | src/request_flow.py:103-161 | order is kept: the chain's roles, mapped back to input roles, are a subsequence of the input roles |
| Extract.ChainIgnoresOtherRoles | src/request_flow.py:113-137 | messages whose role is neither user nor assistant contribute nothing |
| Extract.UserBlocksEntry | src/request_flow.py:118-135 | a user block list yields its first non-reminder text; otherwise the tool-result marker when k >= 1 tool results; otherwise nothing |
| Extract.ThreeToolResults | src/request_flow.py:133-135 | three tool results and no text give exactly "[Tool results received: 3 result(s)]" |
| Extract.AssistantOmittedIff | src/request_flow.py:141-159 | an assistant block list is dropped exactly when it has neither text nor tool_use blocks |
| Extract.AssistantBlocksText | src/request_flow.py:152-159 | a kept assistant entry is the texts joined by single spaces, then the note naming the tools in encounter order |
| Extract.AssistantStringEntry | src/request_flow.py:139-140 | plain-string assistant content is always emitted verbatim |
| Extract.ReadThenBash | src/request_flow.py:164-173 | a response calling Read then Bash yields ["Read", "Bash"] |
| Format.FormatMessageWithIndent | src/request_flow.py:72-100 | the result starts with the prefix; every newline is followed by len(prefix) spaces; below max_length, dedenting gives the message back; otherwise the kept body is msg[:100], followed by "... [N chars]" |
| Format.ReindentIsIndentLines | src/request_flow.py:88-98 | the split-and-join loop inserts the indent after each newline, character by character |
| Format.DedentIndentLines | src/request_flow.py:95-98 | indenting by n spaces and then removing n characters after each newline is the identity |
| Format.IndentLinesIndented | src/request_flow.py:95-98 | every newline of an indented text is followed by the n-space indent |
| Endpoint.FirstMatch | src/request_flow.py:207-209 | the index of the first table rule whose pattern occurs in the URL; None exactly when no pattern occurs |
| Endpoint.EndpointName | src/request_flow.py:213-214 | the URL's last two slash-separated pieces: a suffix of the URL with at most one slash, preceded by a slash unless it is the whole URL |
| Endpoint.Classify | src/request_flow.py:207-215 | the tag and description of the first matching rule; otherwise UNKNOWN, with a description that names the method and ends with the endpoint name |
| Endpoint.ClassifyRequestFlow | src/request_flow.py:192-215 | the tag is always one of the five; UNKNOWN exactly when no pattern occurs in the URL |
| Endpoint.ClassifyDetailedFlow | src/detailed_flow.py:77-100 | the same for the detailed-flow table |
| Endpoint.ClassifiersAgree | src/detailed_flow.py:77-100 | the two scripts agree on the tag, and on the description of every matched rule except HEALTH |
| Endpoint.EndpointNameOfTwoPieces | src/request_flow.py:213-214 | for a URL ending in two slash-free pieces, the name is exactly those pieces joined by "/" |
| Endpoint.NoRuleMatches | src/request_flow.py:199-205 | a URL without u, g, i or v matches no rule of either table |
| Endpoint.UnknownTwoPieces | src/request_flow.py:211-215 | such a URL is UNKNOWN under both scripts' tables, and its description names the method and ends with the two pieces |
| Purpose.SystemText | src/request_flow.py:226-237 | a string prompt lower-cased; a block prompt's text-block texts joined by single spaces, then lower-cased; otherwise ""; never an ASCII capital |
| Purpose.Firing | src/request_flow.py:256-260 | the first rule that fires, tested against user text or system text as the rule says; None exactly when none fires |
| Purpose.ClassifyMessagePurpose | src/request_flow.py:218-279 | never empty; a Haiku model always gets a Haiku outcome; a Sonnet model gets the warmup label or a calling/turn label; any other model gets a label ending in its name |
| Purpose.HaikuPosition | src/request_flow.py:255-262 | a Haiku label is the first firing rule's label, or the fallback when none fires |
| Purpose.HaikuTurnMarkerIff | src/request_flow.py:241-262 | a Haiku label contains "Detect if new topic" exactly when the topic-detection rule fires first; the isnewtopic label does not |
| Purpose.HaikuReportsUnknownIff | src/detailed_flow.py:140-220 | a Haiku label is reported as unknown exactly when no rule fires |
| Purpose.UnknownModelReported | src/detailed_flow.py:164-220 | a model that is neither Haiku nor Sonnet is always reported as unknown |
| Purpose.SonnetQuietLabels | src/request_flow.py:264-276 | a Sonnet warmup or generic-turn label neither starts a turn nor is reported as unknown |
| Purpose.QuotaTakesPrecedence | src/detailed_flow.py:126-144 | a Haiku user text mentioning "quota" gets the quota label whatever else it or the system prompt holds |
| Purpose.SonnetWarmupWins | src/request_flow.py:264-272 | "warmup" in a Sonnet request's user text gives the Sonnet warmup label, whatever tools the reply calls |
| Purpose.SonnetCallingLists | src/request_flow.py:264-272 | a Sonnet request without "warmup" whose reply calls tools is labelled with all of their names joined by ", " |
| Purpose.SonnetCallingReadBash | src/request_flow.py:270-272 | a Sonnet reply calling Read then Bash is labelled "Sonnet calling: Read, Bash" |
| Purpose.SonnetTurnFormat | src/request_flow.py:273-276 | a Sonnet request with no warmup and no tool call is labelled with its message count and True/False for its system prompt |
| Report.PadLeft | src/request_flow.py:399 | right-justified: ends with the text, padded with spaces to the width |
| Report.PadRight | src/request_flow.py:399 | left-justified: starts with the text, padded with spaces to the width |
| Report.HeaderLine | src/request_flow.py:399 | the header line starts with "  [" and ends with " \| " and the purpose |
| Report.DetailLines | src/request_flow.py:400-401 | one line per detail, each indented by seven spaces, none a header line |
| Report.ToolsLines | src/request_flow.py:390-391 | a "Tools called" line exactly when the response called a tool, listing every call joined by ", " and ending with the last |
| Report.ResponseLines | src/request_flow.py:393-396 | no line for an empty response; below 150 characters the whole text; otherwise the first 100, then the truncation marker |
| Report.Summary | src/request_flow.py:404-432 | names the totals; lists every unknown endpoint; lists the unknown messages as one run in the order recorded, repeats included, right after their heading; has the all-clear line exactly when both lists are empty |
| Report.Assemble | src/request_flow.py:285-434 | a report's header lines are those of the pass; it keeps every summary fact, including the unknown messages as one run in the order recorded, repeats included |
| RequestFlow.TurnPrompt | src/request_flow.py:337-338 | the prompt has no newline or carriage return, is at most 80 characters, and is the flattened message or its first 77 characters plus "..." |
| RequestFlow.ChainLines | src/request_flow.py:357-388 | a lone chain entry is shown inline under its role (cut at 200); several are numbered from 1 (cut at 150); every continuation line is indented by the length of its prefix; each message below its cut can be read back; a longer one shows its first 100 characters followed by the marker with its length |
| RequestFlow.StepTurn | src/request_flow.py:333-335 | one iteration raises the turn counter by one exactly when the entry's purpose contains "Detect if new topic" |
| RequestFlow.StepEndpoints | src/request_flow.py:319-320 | an iteration appends (method, url) exactly for an UNKNOWN entry |
| RequestFlow.StepMessages | src/request_flow.py:345-347 | an iteration appends (model, user_msg[:50]) exactly when the purpose reports an unknown pattern or model |
| RequestFlow.StepLines | src/request_flow.py:398-402 | an iteration only appends lines, and the lines it adds hold exactly one header, its own |
| RequestFlow.StepShowsTurn | src/request_flow.py:339-343 | an entry that opens a turn prints the banner line of the new turn number with its prompt |
| RequestFlow.TurnCount | src/request_flow.py:296-335 | the turn counter equals the number of entries that open a turn |
| RequestFlow.TurnsMonotone | src/request_flow.py:296-335 | the turn counter never decreases along the stream, and the later entries raise it by at most their number |
| RequestFlow.FlowKeepsLines | src/request_flow.py:307-402 | the lines printed for a prefix of the stream begin the lines printed for the whole stream |
| RequestFlow.UnknownEndpointsInOrder | src/request_flow.py:297-320 | the unknown endpoints are exactly the UNKNOWN entries' pairs, in stream order, not deduplicated |
| RequestFlow.UnknownMessagesInOrder | src/request_flow.py:298-347 | the unknown messages are exactly those entries' pairs, in stream order |
| RequestFlow.FlowHeaders | src/request_flow.py:307-399 | the pass prints exactly one header per entry, numbered in stream order |
| RequestFlow.ReportLines | src/request_flow.py:282-434 | the report states len(entries) and the turn count; has one header per entry in order; lists every unknown; lists the unknown messages as one run in stream order, repeats included; has the all-clear line exactly when there is none |
| DetailedFlow.UserLines | src/detailed_flow.py:230-233 | below 200 characters a non-blank message is shown as a prefix of at most 150 characters; from 200 on, the first 100 plus the marker; a blank short message adds no line |
| DetailedFlow.HealthEntryLines | src/detailed_flow.py:200-247 | a health check prints its phase banner and its header, and no MESSAGE details |
| DetailedFlow.MessageEntryLines | src/detailed_flow.py:209-247 | a message entry prints no banner: its header first, then one line per detail |
| DetailedFlow.HealthNotMessage | src/detailed_flow.py:201-210 | the if/elif never lets a health check reach the MESSAGE branch |
| DetailedFlow.StepPhase | src/detailed_flow.py:201-202 | one iteration raises the phase counter by one exactly for a HEALTH entry |
| DetailedFlow.StepEndpoints | src/detailed_flow.py:197-198 | an iteration appends (method, url) exactly for an UNKNOWN entry |
| DetailedFlow.StepMessages | src/detailed_flow.py:219-221 | an iteration appends (model, user_msg[:50]) exactly when the purpose reports an unknown pattern or model |
| DetailedFlow.StepShowsPhase | src/detailed_flow.py:203-207 | a health check prints the banner line of the phase it completes |
| DetailedFlow.PhaseCount | src/detailed_flow.py:181-254 | the reported phase count equals the number of HEALTH entries |
| DetailedFlow.PhasesMonotone | src/detailed_flow.py:181-202 | the phase counter never decreases, and the later entries raise it by at most their number |
| DetailedFlow.FlowKeepsLines | src/detailed_flow.py:185-247 | the lines printed for a prefix of the stream begin the lines printed for the whole stream |
| DetailedFlow.UnknownEndpointsInOrder | src/detailed_flow.py:182-198 | the unknown endpoints are exactly the UNKNOWN entries' pairs, in stream order |
| DetailedFlow.UnknownMessagesInOrder | src/detailed_flow.py:183-221 | the unknown messages are exactly those entries' pairs, in stream order |
| DetailedFlow.FlowHeaders | src/detailed_flow.py:185-244 | exactly one header per entry, numbered in stream order |
| DetailedFlow.ReportLines | src/detailed_flow.py:167-279 | the report states len(entries) and the phase count; has one header per entry in order; lists every unknown; lists the unknown messages as one run in stream order, repeats included; has the all-clear line exactly when there is none |
| Sorting.Sort | src/extract_tools.py:246 | sorted() gives an ordered permutation of its input |
| Sorting.SortedUnique | src/extract_system_prompts.py:140 | two ordered permutations of the same strings are equal, so the sorted order is unique |
| Sorting.SortKeepsDistinct | src/extract_system_prompts.py:140 | sorting keeps exactly the same strings and introduces no repeat |
| Versions.VersionOf | src/extract_tools.py:317 | the version has no "_", is a suffix of the stem, is the whole stem when it has no "_", and otherwise follows an "_" |
| Versions.VersionAfterLastUnderscore | src/extract_tools.py:317 | whatever precedes the last "_", the version is what follows it |
| Versions.CollectMatchesFirsts | src/extract_tools.py:315-350 | the loop completes exactly when no file it reads raises; it then builds, for each version, the record of its first file that has one |
| Versions.FirstsKeys | src/extract_tools.py:320-344 | a version is stored exactly when some file of that version yields a record |
| Versions.FirstsAreFirstOccurrences | src/extract_tools.py:320-322 | every stored record comes from a file that no earlier file of its version shadows |
| Versions.FirstsHoldFirstOccurrences | src/extract_tools.py:320-344 | every such file's record is stored |
| Versions.FirstsDistinct | src/extract_system_prompts.py:208-213 | no version is stored twice |
| Versions.FreshMetadata | src/extract_tools.py:239-254 | extraction_order is sorted, duplicate-free and a permutation of the stored versions, and each version maps to its own record |
| Versions.AppendMissing | src/extract_system_prompts.py:136-137 | the order gains exactly the missing versions, keeps its old prefix and gets no duplicate |
| Versions.MergeMetadata | src/extract_system_prompts.py:115-140 | the merged order is sorted and holds exactly the old versions plus this run's, with no repeat when the old order had none; the stored keys are exactly the old ones plus this run's; this run's records overwrite and other stored records are kept |
| Versions.MergedOrder | src/extract_system_prompts.py:136-140 | the sorted merged order holds exactly the old versions and the new ones, and has no repeat when the old order had none |
| Selection.FirstUserMessage | src/extract_tools.py:64-66 | the first message whose role is "user"; None exactly when there is none |
| Selection.FirstDecided | src/extract_tools.py:50-91 | the loop returns the verdict of the first entry it decides on, or None when it decides on none |
| Selection.FirstDecidedAt | src/extract_tools.py:51-89 | a returned record carries the index of the first entry decided on, and every earlier entry passes |
| ExtractTools.PromptText | src/extract_tools.py:70-77 | from a block list, the first text block mentioning "what is your name" in any case; "" when there is none; raises when a non-object comes first |
| ExtractTools.ToolsUserMessage | src/extract_tools.py:63-78 | only the first user message is read: a string whole, a block list through the name-prompt scan, otherwise ""; with well-typed blocks the scan never raises |
| ExtractTools.AsksNameIff | src/extract_tools.py:63-81 | the scanned user text mentions the prompt exactly when the first user message does (string whole, or a text block with only objects before it) |
| ExtractTools.ExtractTools | src/extract_tools.py:51-91 | the record is the first qualifying entry, with no earlier entry raising; tool_count = len(tools); tool_names matches the tools in order, "unknown" when a name is missing; user_msg is the scanned text of the first user message; raises and None exactly as the loop does |
| ExtractTools.ExtractToolsFirstQualifying | src/extract_tools.py:51-91 | with well-typed blocks, a record exists exactly when an entry qualifies, and it is the one at the smallest such index |
| ExtractTools.NoMcp | src/extract_tools.py:165-168 | keeps exactly the tools whose name (default "") does not start with "mcp__", in original order |
| ExtractTools.NamelessToolKept | src/extract_tools.py:219-222 | a tool without a name is kept |
| ExtractTools.McpCount | src/extract_tools.py:336-345 | the MCP count is the number of mcp__ tools, and core plus MCP equals tool_count |
| ExtractTools.ProcessFile | src/extract_tools.py:324-344 | a file's record names the file, its tool count, its count without MCP tools, its tool names and the entry index |
| ExtractTools.ExtractAllFirstPerVersion | src/extract_tools.py:315-350 | the run keeps, per version, the first file's record, and stores no version twice |
| ExtractTools.RunMetadata | src/extract_tools.py:352-354 | metadata is written only when records were collected; its order is the sorted, duplicate-free list of versions; the stored keys are exactly the versions in the order; each version maps to its record |
| ExtractSystemPrompts.FirstText | src/extract_system_prompts.py:57-61 | from a block list, the text of the first text block, with no filtering; "" when there is none; raises when a non-object comes first |
| ExtractSystemPrompts.PromptUserMessage | src/extract_system_prompts.py:51-62 | only the first user message is read: a string whole, a block list through its first text block, anything else "" |
| ExtractSystemPrompts.WellTypedScanSucceeds | src/extract_system_prompts.py:57-61 | with well-typed blocks the user-message scan never raises |
| ExtractSystemPrompts.SystemLength | src/extract_system_prompts.py:70 | len(system) is positive exactly when the system prompt is truthy |
| ExtractSystemPrompts.WarmupTestCaseSensitive | src/extract_system_prompts.py:65 | the Warmup test is case-sensitive: a user text without a capital W, such as "warmup", does not disqualify the entry |
| ExtractSystemPrompts.ExtractSystemPrompt | src/extract_system_prompts.py:41-73 | the record is the first qualifying entry, with no earlier entry raising; entry_idx is its index; block_count = len(system) > 0; its user text lacks "Warmup" |
| ExtractSystemPrompts.ExtractSystemPromptFirstQualifying | src/extract_system_prompts.py:41-73 | with well-typed blocks, a record exists exactly when an entry qualifies, and it is the one at the smallest such index |
| ExtractSystemPrompts.ProcessFile | src/extract_system_prompts.py:215-225 | writing the selected prompt raises, and aborts the run, when its system is a non-empty string or holds a non-object block; otherwise the record is stored: it names the file, its block count (the number of blocks of a list of objects) and the entry index |
| ExtractSystemPrompts.StringPromptAborts | src/extract_system_prompts.py:89-90 | a file whose selected prompt is a plain string aborts the run, and the metadata on disk is left unchanged |
| ExtractSystemPrompts.ExtractAllFirstPerVersion | src/extract_system_prompts.py:204-231 | the run keeps, per version, the first file's record, and stores no version twice |
| ExtractSystemPrompts.RunMetadata | src/extract_system_prompts.py:233-235 | with records, the stored metadata is merged: the order is sorted and holds exactly the stored versions plus the run's, the stored keys are exactly the old ones plus the run's, this run's records overwrite, other stored records are kept; otherwise it is unchanged |

## Left out

- File and terminal I/O is not modelled. This covers `load_jsonl`, every `main`, argument
  handling, directory checks and all file writes (`save_tools*`, `save_system_prompt`,
  and the `open`/`json.dump` parts of `save_metadata`). A trace file is given as its
  name, its stem and its parsed entries. The metadata already on disk is a parameter.
  The one part of `save_system_prompt` that decides the outcome is modelled: its
  `block.get` over the `system` value, which can raise (`ExtractSystemPrompts.SaveRaises`).
- JSON decoding is not modelled. The decoded response is `Option<Response>`. A top-level
  JSON array in `body_raw` is not modelled.
- Bodies that are not objects are not modelled, and neither are non-string `text`,
  `model` or `name` values. `Trace` gives these fields their types.
- Messages and tools that are not objects are not modelled either. In the code,
  `msg.get` raises on such a message (src/extract_tools.py:66,
  src/extract_system_prompts.py:53, src/request_flow.py:110) and `tool.get` raises on
  such a tool (src/extract_tools.py:82). A `messages` value of JSON null is not
  modelled: iterating over None raises TypeError. `Trace` gives both fields list types of
  objects. A `tools` value of JSON null is never iterated: every reader only tests it for
  truthiness first (src/request_flow.py:328, src/detailed_flow.py:214,
  src/extract_tools.py:57-61). So it behaves exactly like `[]`, which is how the model
  represents it.
- The order in which `set(unknown_endpoints)` is printed depends on hash randomisation.
  It is the `listing` parameter: a duplicate-free arrangement of the recorded pairs.
  Only membership is stated.
- The emoji and box-drawing characters are opaque constants per script. The two scripts'
  copies differ in their bytes. The `{idx:2d}` and `{req_type:10s}` padding and the
  banner widths are modelled, but nothing is proved about their exact text.
- `str.lower()` and `str.strip()` are ASCII-only. Unicode case mapping and whitespace
  are not modelled.
- `block.get` on a non-object raises in `extract_tool_calls`, `extract_tools` and
  `extract_system_prompt`:
  - `extract_tool_calls`: well-typed blocks are a precondition;
  - the two extractors: the exception is modelled as a `Raised` outcome, which aborts
    the run.
- A malformed `metadata.json` (missing keys) is not modelled.
- The report's header facts (`FlowHeaders`, `ReportLines`) are about the list of lines
  before `'\n'.join`. The response text is not re-indented (src/request_flow.py:393-396,
  src/detailed_flow.py:238-241), so a response holding a newline can print a line of its own that starts with `  [`
  after the join.
- RequestFlow.StepShowsTurn: states only that each turn-opening entry prints its own
  banner line. There is no whole-stream lemma saying that the n-th turn banner is
  numbered n.
- DetailedFlow.StepShowsPhase: states only that each health check prints the banner of
  the phase it completes. There is no whole-stream lemma saying that the n-th phase
  banner is numbered n.
- ExtractTools.RunMetadata: states the sorted order and the records. The JSON key order
  of the `versions` object is not modelled, because a map has no order.
- Versions.MergeMetadata: the order is duplicate-free only when the stored order is.
  A stored file that already repeats a version keeps the repeat, as the code does.

## Notes on the code

- The user-message scans differ between the scripts, and the model keeps each one:
  - The flow scripts skip non-object blocks and `<system-reminder>` texts.
  - `extract_tools` reads only the first user message. Of its blocks, it keeps only a
    text that mentions the prompt.
  - `extract_system_prompt` reads only the first user message. It keeps that message's
    first text block, whatever it says.
- An assistant message whose content is "" or a single empty text block still adds
  ('assistant', "") to the chain. A description of the program as never emitting empty
  assistant entries does not match the code; the model follows the code.
- Only versions that yielded a record block later files of the same version. A file
  whose version found nothing does not stop a later file of that version from being
  read.
- In the detailed flow, a user message of 150 to 199 characters is cut to 150 with no
  marker. The model keeps this behaviour.

=== FILE: detailed_flow.dfy ===
/**
 * `analyze_detailed_flow` of detailed_flow.py: one pass over the captured entries that
 * numbers every request, closes a phase at every health check, shows the user message and
 * the response of every message request, records the unknown endpoints and unknown message
 * patterns met on the way, and closes with a summary.
 *
 * As for the request-flow report, the pass is a fold over prefixes of the entry list.
 */
module DetailedFlow {
  import opened Wrappers
  import opened Text
  import opened Trace
  import opened Seqs
  import opened Extract
  import opened Format
  import opened Endpoint
  import opened Purpose
  import opened Report

  // ---------------------------------------------------------------- glyphs of this script

  /** The box-drawing character of the phase banners. */
  const Dash := "\U{2500}"
  const DashLine := "  " + Repeat(Dash, 116)
  const PhaseGlyph := "\U{2B07}\U{FE0F}"
  const UserGlyph := "\U{1F4E5}"
  const ToolGlyph := "\U{1F527}"
  const ResponseGlyph := "\U{1F4AD}"
  const FlowNotices := Notices("\U{26A0}\U{FE0F}", "\U{2705}")

  // ---------------------------------------------------------------- phase banners

  function PhaseLine(phase: nat): string {
    "  " + PhaseGlyph + "  Phase " + NatToString(phase) + " completed - Health check"
  }

  /** The banner a health check prints, naming the phase it completes. */
  function PhaseBanner(phase: nat): seq<string> {
    ["", DashLine, PhaseLine(phase), DashLine, ""]
  }

  /** A banner's lines open with spaces, and their third character is a glyph. */
  lemma PhaseBannerPlain(phase: nat)
    ensures |PhaseBanner(phase)| == 5
    ensures forall i :: 0 <= i < 5 ==> Plain(PhaseBanner(phase)[i])
  {
    assert DashLine[0] == ' ' && DashLine[2] == Dash[0];
    assert PhaseLine(phase)[0] == ' ' && PhaseLine(phase)[2] == PhaseGlyph[0];
  }

  // ---------------------------------------------------------------- entry details

  const UserLead := UserGlyph + " User: "

  /**
   * The "User" line. A message below 200 characters that is not blank is cut to its first
   * 150 characters, with no marker, so what is shown is always a prefix of the message; from
   * 200 characters on, the first 100 are shown followed by the truncation marker, blank or
   * not; an empty or blank shorter message adds no line.
   */
  function UserLines(userMsg: string): (r: seq<string>)
    ensures |r| <= 1
    ensures r != [] <==> |userMsg| >= 200 || !AllSpace(userMsg)
    ensures r != [] ==> StartsWith(r[0], UserLead)
    ensures r != [] && |userMsg| < 200 ==>
              var shown := r[0][|UserLead|..];
              StartsWith(userMsg, shown) && |shown| == (if |userMsg| < 150 then |userMsg| else 150)
    ensures |userMsg| >= 200 ==>
              var shown := r[0][|UserLead|..];
              |shown| == 100 + |TruncationMarker(|userMsg|)|
              && StartsWith(userMsg, shown[..100])
              && EndsWith(shown, TruncationMarker(|userMsg|))
  {
    StripEmptyIff(userMsg);
    if |userMsg| > 0 && Strip(userMsg) != [] && |userMsg| < 200 then
      var shown := Take(userMsg, 150);
      assert (UserLead + shown)[|UserLead|..] == shown;
      [UserLead + shown]
    else if |userMsg| > 0 && |userMsg| >= 200 then
      var shown := Take(userMsg, 100) + TruncationMarker(|userMsg|);
      assert (UserLead + shown)[|UserLead|..] == shown;
      assert shown[..100] == Take(userMsg, 100);
      [UserLead + shown]
    else
      []
  }

  /** The detail strings of a message request with a body. */
  function MessageDetails(body: Body, resp: Option<Response>): seq<string>
    requires ResponseWellTyped(resp)
  {
    BodyLines(body)
    + UserLines(ExtractUserMessage(body.messages))
    + ToolsLines(ToolGlyph, ExtractToolCalls(resp))
    + ResponseLines(ResponseGlyph, ExtractResponseText(resp))
  }

  // ---------------------------------------------------------------- the pass

  /** A MESSAGE request with a body: the only entries whose response is read. */
  predicate IsMessageEntry(e: Entry) {
    ClassifyDetailedFlow(e.request.url, e.request.verb).0 == MessageTag && e.request.body.Some?
  }

  /** A health check: the entries that close a phase. */
  predicate IsHealth(e: Traced) {
    ClassifyDetailedFlow(e.request.url, e.request.verb).0 == Health
  }

  /** The response of a message entry can be scanned without raising. */
  predicate EntryWellTyped(e: Entry) {
    IsMessageEntry(e) ==> ResponseWellTyped(e.response)
  }

  /** An entry the script analyses without raising. */
  type Traced = e: Entry | EntryWellTyped(e) witness Entry(Request("", "", None), None)

  function MessagePurpose(e: Traced): string
    requires IsMessageEntry(e)
  {
    var body := e.request.body.value;
    ClassifyMessagePurpose(DetailedFlowGlyphs, body, ExtractUserMessage(body.messages), e.response)
  }

  /** What the header of an entry shows after the tag. */
  function Shown(e: Traced): string {
    if IsMessageEntry(e) then MessagePurpose(e) else ClassifyDetailedFlow(e.request.url, e.request.verb).1
  }

  function HeaderOf(idx: nat, e: Traced): string {
    HeaderLine(idx, ClassifyDetailedFlow(e.request.url, e.request.verb).0, Shown(e))
  }

  /** The (method, URL) pair an UNKNOWN entry adds to the unknown endpoints. */
  function UnknownEndpointKey(e: Traced): Option<(string, string)> {
    if ClassifyDetailedFlow(e.request.url, e.request.verb).0 == Unknown then Some((e.request.verb, e.request.url))
    else None
  }

  /** The (model, first 50 characters of the user message) pair a message entry whose purpose
      reports an unknown pattern or model adds to the unknown message types. */
  function UnknownMessageKey(e: Traced): Option<(string, string)> {
    if IsMessageEntry(e) && ReportsUnknown(MessagePurpose(e)) then
      var body := e.request.body.value;
      Some((ModelName(body), Take(ExtractUserMessage(body.messages), 50)))
    else None
  }

  datatype FlowState = FlowState(
    phase: nat,
    unknownEndpoints: seq<(string, string)>,
    unknownMessages: seq<(string, string)>,
    lines: seq<string>)

  const Initial := FlowState(0, [], [], [])

  /** The banner an entry opens with: a health check announces the phase it completes. */
  function Banner(phase: nat, e: Traced): seq<string> {
    if IsHealth(e) then PhaseBanner(phase) else []
  }

  /** The detail lines of an entry: the loop's `elif` gives them to message entries that are
      not health checks, and to nothing else. */
  function Details(e: Traced): seq<string> {
    if !IsHealth(e) && IsMessageEntry(e) then MessageDetails(e.request.body.value, e.response) else []
  }

  /** The lines the loop prints for the entry at index `idx`, with `phase` the counter after it. */
  function EntryLines(phase: nat, idx: nat, e: Traced): seq<string> {
    EntryBlock(Banner(phase, e), HeaderOf(idx, e), Details(e))
  }

  /** One iteration of the loop over entries, for the entry at index `idx`. */
  function Step(st: FlowState, idx: nat, e: Traced): FlowState {
    var (tag, description) := ClassifyDetailedFlow(e.request.url, e.request.verb);
    var endpoints := st.unknownEndpoints + (if tag == Unknown then [(e.request.verb, e.request.url)] else []);
    if tag == Health then
      FlowState(st.phase + 1, endpoints, st.unknownMessages, st.lines + EntryLines(st.phase + 1, idx, e))
    else if tag == MessageTag && e.request.body.Some? then
      var body := e.request.body.value;
      var userMsg := ExtractUserMessage(body.messages);
      var purpose := ClassifyMessagePurpose(DetailedFlowGlyphs, body, userMsg, e.response);
      var messages := st.unknownMessages
                      + (if ReportsUnknown(purpose) then [(ModelName(body), Take(userMsg, 50))] else []);
      FlowState(st.phase, endpoints, messages, st.lines + EntryLines(st.phase, idx, e))
    else
      FlowState(st.phase, endpoints, st.unknownMessages, st.lines + EntryLines(st.phase, idx, e))
  }

  /** The state after the loop has run over `es`. */
  function Flow(es: seq<Traced>): FlowState {
    FoldIndexed(Step, Initial, es)
  }

  // ---------------------------------------------------------------- one entry

  /** Health checks and message entries are told apart by their tag, so the `elif` never
      reaches a health check. */
  lemma HealthNotMessage(e: Traced)
    requires IsHealth(e)
    ensures !IsMessageEntry(e)
  {
  }

  /** A health check prints its phase banner and its header, and no details. */
  lemma HealthEntryLines(phase: nat, idx: nat, e: Traced)
    requires IsHealth(e)
    ensures EntryLines(phase, idx, e) == PhaseBanner(phase) + [HeaderOf(idx, e), ""]
  {
    var banner := PhaseBanner(phase);
    assert Banner(phase, e) == banner && Details(e) == [];
    EntryBlockNoDetails(banner, HeaderOf(idx, e));
  }

  /** A message entry prints no banner: its header comes first, then one line per detail. */
  lemma MessageEntryLines(phase: nat, idx: nat, e: Traced)
    requires IsMessageEntry(e)
    ensures !IsHealth(e)
    ensures var details := MessageDetails(e.request.body.value, e.response);
            && EntryLines(phase, idx, e)[0] == HeaderOf(idx, e)
            && |EntryLines(phase, idx, e)| == |details| + 2
  {
    assert Banner(phase, e) == [];
    assert Details(e) == MessageDetails(e.request.body.value, e.response);
  }

  lemma HeaderOfFacts(idx: nat, e: Traced)
    ensures IsHeaderLine(HeaderOf(idx, e)) && AsciiLead(HeaderOf(idx, e))
  {
    assert HeaderLead[0] == ' ';
  }

  /** Any entry prints exactly one header line, its own, and only lines opening with ASCII. */
  lemma EntryLinesFacts(phase: nat, idx: nat, e: Traced)
    ensures Filter(IsHeaderLine, EntryLines(phase, idx, e)) == [HeaderOf(idx, e)]
    ensures forall k :: 0 <= k < |EntryLines(phase, idx, e)| ==> AsciiLead(EntryLines(phase, idx, e)[k])
  {
    HeaderOfFacts(idx, e);
    var banner := Banner(phase, e);
    if IsHealth(e) {
      PhaseBannerPlain(phase);
    }
    forall i | 0 <= i < |banner| ensures !IsHeaderLine(banner[i]) && AsciiLead(banner[i]) {
      PlainNotHeader(banner[i]);
    }
    EntryBlockHeaders(banner, HeaderOf(idx, e), Details(e));
    EntryBlockAsciiLead(banner, HeaderOf(idx, e), Details(e));
  }


  /** An iteration raises the phase counter by one exactly for a health check. */
  lemma StepPhase(st: FlowState, idx: nat, e: Traced)
    ensures Step(st, idx, e).phase == st.phase + (if IsHealth(e) then 1 else 0)
  {
  }

  /** An iteration records its entry's pair when, and only when, the entry is UNKNOWN. */
  lemma StepEndpoints(st: FlowState, idx: nat, e: Traced)
    ensures Step(st, idx, e).unknownEndpoints
            == st.unknownEndpoints + (if UnknownEndpointKey(e).Some? then [UnknownEndpointKey(e).value] else [])
  {
  }

  /** An iteration records its entry's pair when, and only when, the entry's purpose reports
      an unknown pattern or model. */
  lemma StepMessages(st: FlowState, idx: nat, e: Traced)
    ensures Step(st, idx, e).unknownMessages
            == st.unknownMessages + (if UnknownMessageKey(e).Some? then [UnknownMessageKey(e).value] else [])
  {
  }

  /** An iteration appends the lines of its entry, numbered with the counter it leaves. */
  lemma StepAppends(st: FlowState, idx: nat, e: Traced)
    ensures Step(st, idx, e).lines == st.lines + EntryLines(Step(st, idx, e).phase, idx, e)
  {
  }

  /** An iteration appends lines holding exactly one header, its own, all opening with ASCII. */
  lemma StepLines(st: FlowState, idx: nat, e: Traced)
    ensures var r := Step(st, idx, e).lines;
            && |st.lines| <= |r| && r[..|st.lines|] == st.lines
            && Filter(IsHeaderLine, r[|st.lines|..]) == [HeaderOf(idx, e)]
            && forall k :: |st.lines| <= k < |r| ==> AsciiLead(r[k])
  {
    var block := EntryLines(Step(st, idx, e).phase, idx, e);
    StepAppends(st, idx, e);
    EntryLinesFacts(Step(st, idx, e).phase, idx, e);
    assert Step(st, idx, e).lines[|st.lines|..] == block;
  }

  // ---------------------------------------------------------------- the whole pass

  /** The phase counter counts exactly the health checks. */
  lemma PhaseCount(es: seq<Traced>)
    ensures Flow(es).phase == |Filter(IsHealth, es)|
  {
    forall st, idx, e ensures Step(st, idx, e).phase == st.phase + (if IsHealth(e) then 1 else 0) {
      StepPhase(st, idx, e);
    }
    FoldCounts(Step, Initial, es, (st: FlowState) => st.phase, IsHealth);
  }

  /** The phase counter never goes down, and the entries after a prefix raise it by at most their number. */
  lemma PhasesMonotone(es: seq<Traced>, k: nat)
    requires k <= |es|
    ensures Flow(es[..k]).phase <= Flow(es).phase <= Flow(es[..k]).phase + (|es| - k)
  {
    forall st, idx, e ensures Step(st, idx, e).phase == st.phase + (if IsHealth(e) then 1 else 0) {
      StepPhase(st, idx, e);
    }
    FoldCountsMonotone(Step, Initial, es, k, (st: FlowState) => st.phase, IsHealth);
  }


  /** The unknown endpoints are recorded once per UNKNOWN entry, in stream order. */
  lemma UnknownEndpointsInOrder(es: seq<Traced>)
    ensures Flow(es).unknownEndpoints == FilterMap(UnknownEndpointKey, es)
  {
    forall st, idx, e
      ensures Step(st, idx, e).unknownEndpoints
              == st.unknownEndpoints + (if UnknownEndpointKey(e).Some? then [UnknownEndpointKey(e).value] else [])
    {
      StepEndpoints(st, idx, e);
    }
    FoldCollects(Step, Initial, es, (st: FlowState) => st.unknownEndpoints, UnknownEndpointKey);
  }

  /** The unknown message types are recorded once per message entry whose purpose reports an
      unknown pattern or model, in stream order. */
  lemma UnknownMessagesInOrder(es: seq<Traced>)
    ensures Flow(es).unknownMessages == FilterMap(UnknownMessageKey, es)
  {
    forall st, idx, e
      ensures Step(st, idx, e).unknownMessages
              == st.unknownMessages + (if UnknownMessageKey(e).Some? then [UnknownMessageKey(e).value] else [])
    {
      StepMessages(st, idx, e);
    }
    FoldCollects(Step, Initial, es, (st: FlowState) => st.unknownMessages, UnknownMessageKey);
  }

  /** The header lines of the pass are the entries' headers, one per entry, numbered from 0
      in stream order; every line opens with ASCII. */
  lemma FlowHeaders(es: seq<Traced>)
    ensures Filter(IsHeaderLine, Flow(es).lines) == Marks(HeaderOf, es)
    ensures forall k :: 0 <= k < |Flow(es).lines| ==> AsciiLead(Flow(es).lines[k])
  {
    var lines := (st: FlowState) => st.lines;
    forall st, idx, e
      ensures var r := Step(st, idx, e).lines;
              && |st.lines| <= |r| && r[..|st.lines|] == st.lines
              && Filter(IsHeaderLine, r[|st.lines|..]) == [HeaderOf(idx, e)]
              && forall k :: |st.lines| <= k < |r| ==> AsciiLead(r[k])
    {
      StepLines(st, idx, e);
    }
    FoldAppends(Step, Initial, es, lines, AsciiLead);
    FoldMarks(Step, Initial, es, lines, IsHeaderLine, HeaderOf);
  }

  /** A health check's iteration prints the banner line of the phase it completes. */
  lemma StepShowsPhase(st: FlowState, idx: nat, e: Traced)
    requires IsHealth(e)
    ensures PhaseLine(st.phase + 1) in Step(st, idx, e).lines
  {
    StepPhase(st, idx, e);
    StepAppends(st, idx, e);
    HealthEntryLines(st.phase + 1, idx, e);
    var block := PhaseBanner(st.phase + 1) + [HeaderOf(idx, e), ""];
    assert (st.lines + block)[|st.lines| + 2] == block[2];
  }

  function LinesOf(st: FlowState): seq<string> { st.lines }

  /** The loop only ever appends lines. */
  lemma StepsAppendOnly()
    ensures AppendsOnly(Step, LinesOf)
  {
    forall st, idx, e
      ensures var r := Step(st, idx, e).lines; |st.lines| <= |r| && r[..|st.lines|] == st.lines
    {
      StepLines(st, idx, e);
    }
  }

  /** The lines printed for a prefix of the stream begin the lines printed for all of it. */
  lemma FlowKeepsLines(es: seq<Traced>, k: nat)
    requires k <= |es|
    ensures var p := Flow(es[..k]).lines; |p| <= |Flow(es).lines| && Flow(es).lines[..|p|] == p
  {
    StepsAppendOnly();
    FoldPrefixLines(Step, Initial, es, k, LinesOf);
  }

  // ---------------------------------------------------------------- the report

  // Split after a short head: the proof that the opening lines are plain reads their first
  // characters, which the verifier sees in a short literal but not in a long one.
  const TitleLead := "DETAILED" + " API FLOW - Claude Code v"
  const PhasesNoteLine := "   " + "   Health checks (GET /api/hello) are used as phase delimiters."

  /** The lines before the first entry: the title and the notes. */
  function Opening(version: string): (r: seq<string>)
    ensures forall i :: 0 <= i < |r| ==> Plain(r[i])
  {
    var r := [RuleLine, TitleLead + version, RuleLine, "", NoteLine, PhasesNoteLine, "", RuleLine];
    assert RuleLine[0] == '=' && RuleLine[2] == '=';
    assert r[1][0] == 'D' && r[1][2] == 'T';
    assert r[4][0] == 'N' && r[4][2] == 'T';
    assert r[5][0] == ' ' && r[5][2] == ' ';
    r
  }

  const PhasesLabel := "Health check phases: "

  lemma PhasesLabelPlain()
    ensures |PhasesLabel| >= 3 && Plain(PhasesLabel)
  {
  }

  lemma FlowNoticesWellFormed()
    ensures NoticesWellFormed(FlowNotices)
  {
  }

  /** The report built from the state the pass ends in. */
  function FinalReport(st: FlowState, total: nat, version: string, listing: seq<(string, string)>): (r: seq<string>)
    requires IsListingOf(listing, st.unknownEndpoints)
    requires forall k :: 0 <= k < |st.lines| ==> AsciiLead(st.lines[k])
    ensures "Total requests: " + NatToString(total) in r
    ensures PhasesLabel + NatToString(st.phase) in r
    ensures Filter(IsHeaderLine, r) == Filter(IsHeaderLine, st.lines)
    ensures forall x :: x in st.unknownEndpoints ==> EndpointLine(x) in r
    ensures forall x :: x in st.unknownMessages ==> MessageLine(x) in r
    ensures IsInfix(Map(MessageLine, st.unknownMessages), r)
    ensures AllClearLine(FlowNotices) in r <==> st.unknownEndpoints == [] && st.unknownMessages == []
  {
    FlowNoticesWellFormed();
    PhasesLabelPlain();
    var counter := CounterLine(PhasesLabel, st.phase);
    Assemble(Opening(version), st.lines, FlowNotices, total, counter, st.unknownEndpoints, listing, st.unknownMessages)
  }

  /**
   * The report of `analyze_detailed_flow`, as the list of strings it joins with newlines.
   * `listing` is the order in which `set()` yields the distinct unknown endpoints.
   *
   * It counts every entry, reports as phases exactly the health checks, carries one header
   * per entry in stream order, lists every unknown endpoint, lists the unknown messages in
   * stream order with their repeats, and says that all request types were recognised
   * exactly when it lists none.
   */
  function ReportLines(es: seq<Traced>, version: string, listing: seq<(string, string)>): (r: seq<string>)
    requires IsListingOf(listing, FilterMap(UnknownEndpointKey, es))
    ensures "Total requests: " + NatToString(|es|) in r
    ensures PhasesLabel + NatToString(|Filter(IsHealth, es)|) in r
    ensures Filter(IsHeaderLine, r) == Marks(HeaderOf, es)
    ensures forall x :: x in FilterMap(UnknownEndpointKey, es) ==> EndpointLine(x) in r
    ensures forall x :: x in FilterMap(UnknownMessageKey, es) ==> MessageLine(x) in r
    ensures IsInfix(Map(MessageLine, FilterMap(UnknownMessageKey, es)), r)
    ensures AllClearLine(FlowNotices) in r
            <==> FilterMap(UnknownEndpointKey, es) == [] && FilterMap(UnknownMessageKey, es) == []
  {
    PhaseCount(es);
    UnknownEndpointsInOrder(es);
    UnknownMessagesInOrder(es);
    FlowHeaders(es);
    FinalReport(Flow(es), |es|, version, listing)
  }

  /** `analyze_detailed_flow`'s returned text. */
  function AnalyzeDetailedFlow(es: seq<Traced>, version: string, listing: seq<(string, string)>): string
    requires IsListingOf(listing, FilterMap(UnknownEndpointKey, es))
  {
    Join("\n", ReportLines(es, version, listing))
  }
}

=== FILE: endpoint.dfy ===
/**
 * `classify_endpoint_type` of request_flow.py and detailed_flow.py: an ordered table of
 * (URL substring, tag, description) rules, first match wins, with an UNKNOWN fallback
 * naming the method and the last two `/`-separated pieces of the URL.
 */
module Endpoint {
  import opened Wrappers
  import opened Text
  import opened Seqs

  datatype Rule = Rule(pattern: string, tag: string, description: string)

  const Auth := "AUTH"
  const Validate := "VALIDATE"
  const Health := "HEALTH"
  const MessageTag := "MESSAGE"
  const Unknown := "UNKNOWN"

  predicate IsTag(t: string) {
    t == Auth || t == Validate || t == Health || t == MessageTag || t == Unknown
  }

  /** The table of request_flow.py. */
  const RequestFlowTable: seq<Rule> := [
    Rule("oauth", Auth, "OAuth authentication"),
    Rule("organization", Auth, "Organization access check"),
    Rule("count_tokens", Validate, "Token count validation"),
    Rule("/api/hello", Health, "Health check"),
    Rule("/v1/messages", MessageTag, "API message request")
  ]

  /** The table of detailed_flow.py: the same rules, but the HEALTH description also
      names the phase delimiter. */
  const DetailedFlowTable: seq<Rule> := [
    Rule("oauth", Auth, "OAuth authentication"),
    Rule("organization", Auth, "Organization access check"),
    Rule("count_tokens", Validate, "Token count validation"),
    Rule("/api/hello", Health, "Health check / phase delimiter"),
    Rule("/v1/messages", MessageTag, "API message request")
  ]

  /** The warning glyph opening the fallback description: request_flow.py's literal as the
      file's text has it, and detailed_flow.py's warning sign. */
  const RequestFlowWarning := "\U{E2}\U{161}\U{A0}\U{EF}\U{B8}"
  const DetailedFlowWarning := "\U{26A0}\U{FE0F}"

  /** Index of the first rule whose pattern occurs in `url`. */
  function FirstMatch(table: seq<Rule>, url: string): (r: Option<nat>)
    ensures r.Some? ==> r.value < |table| && Contains(url, table[r.value].pattern)
                        && forall j :: 0 <= j < r.value ==> !Contains(url, table[j].pattern)
    ensures r.None? <==> forall j :: 0 <= j < |table| ==> !Contains(url, table[j].pattern)
  {
    FirstIndex((rule: Rule) => Contains(url, rule.pattern), table)
  }

  /** No two slashes in `s`. */
  predicate AtMostOneSlash(s: string) {
    forall i, j :: 0 <= i < j < |s| && s[i] == '/' ==> s[j] != '/'
  }

  lemma TwoPiecesOneSlash(a: string, b: string)
    requires '/' !in a && '/' !in b
    ensures AtMostOneSlash(a + "/" + b) && '/' in a + "/" + b
  {
    var s := a + "/" + b;
    assert s[|a|] == '/';
    forall i, j | 0 <= i < j < |s| && s[i] == '/'
      ensures s[j] != '/'
    {
      assert i == |a|;
      assert s[j] == b[j - |a| - 1];
    }
  }

  /**
   * Python `'/'.join(url.split('/')[-2:])` when the URL has a slash, else the URL: the
   * longest suffix of `url` holding at most one slash. Either it is the whole URL, or a
   * slash stands just in front of it and it holds exactly one slash itself.
   */
  function EndpointName(url: string): (r: string)
    ensures EndsWith(url, r)
    ensures AtMostOneSlash(r)
    ensures r == url || (|r| < |url| && url[|url| - |r| - 1] == '/' && '/' in r)
  {
    var parts := Split(url, '/');
    if |parts| >= 2 then
      var k := |parts| - 2;
      var tail := parts[k..];
      SplitTailIsSuffix(url, '/', k);
      assert tail == [parts[k], parts[k + 1]];
      assert Join("/", tail) == parts[k] + "/" + parts[k + 1] by {
        assert tail[1..] == [parts[k + 1]];
      }
      TwoPiecesOneSlash(parts[k], parts[k + 1]);
      if k == 0 then
        JoinSplit(url, '/');
        assert tail == parts;
        Join("/", tail)
      else
        Join("/", tail)
    else
      assert parts == [url];
      url
  }

  function UnknownDescription(warning: string, url: string, verb: string): string {
    warning + "  Unknown endpoint: " + verb + " " + EndpointName(url)
  }

  /**
   * `classify_endpoint_type` over a table: the tag and description of the first rule whose
   * pattern occurs in the URL; when none does, UNKNOWN with a description naming the method
   * and ending in the URL's last pieces.
   */
  function Classify(table: seq<Rule>, warning: string, url: string, verb: string): (r: (string, string))
    ensures FirstMatch(table, url).Some? ==>
              r == (table[FirstMatch(table, url).value].tag, table[FirstMatch(table, url).value].description)
    ensures FirstMatch(table, url).None? ==>
              && r.0 == Unknown
              && Contains(r.1, verb)
              && EndsWith(r.1, " " + EndpointName(url))
  {
    match FirstMatch(table, url)
    case Some(i) => (table[i].tag, table[i].description)
    case None =>
      var d := UnknownDescription(warning, url, verb);
      assert d == (warning + "  Unknown endpoint: ") + verb + (" " + EndpointName(url));
      ContainsSelf(verb);
      ContainsConcat(warning + "  Unknown endpoint: ", verb, verb);
      ContainsConcat((warning + "  Unknown endpoint: ") + verb, " " + EndpointName(url), verb);
      (Unknown, d)
  }

  /** request_flow.py's classifier: total, always one of the five tags. */
  function ClassifyRequestFlow(url: string, verb: string): (r: (string, string))
    ensures IsTag(r.0)
    ensures r.0 == Unknown <==> forall j :: 0 <= j < |RequestFlowTable| ==> !Contains(url, RequestFlowTable[j].pattern)
  {
    Classify(RequestFlowTable, RequestFlowWarning, url, verb)
  }

  /** detailed_flow.py's classifier: total, always one of the five tags. */
  function ClassifyDetailedFlow(url: string, verb: string): (r: (string, string))
    ensures IsTag(r.0)
    ensures r.0 == Unknown <==> forall j :: 0 <= j < |DetailedFlowTable| ==> !Contains(url, DetailedFlowTable[j].pattern)
  {
    Classify(DetailedFlowTable, DetailedFlowWarning, url, verb)
  }

  /** The two scripts' tables differ only in the HEALTH description, so they always agree on
      the tag, and on the description of every matched non-HEALTH rule. */
  lemma ClassifiersAgree(url: string, verb: string)
    ensures ClassifyRequestFlow(url, verb).0 == ClassifyDetailedFlow(url, verb).0
    ensures ClassifyRequestFlow(url, verb).0 !in {Health, Unknown} ==>
              ClassifyRequestFlow(url, verb).1 == ClassifyDetailedFlow(url, verb).1
  {
    var tr, td := RequestFlowTable, DetailedFlowTable;
    assert |tr| == |td|;
    assert forall j :: 0 <= j < |tr| ==> tr[j].pattern == td[j].pattern && tr[j].tag == td[j].tag;
    assert forall j :: 0 <= j < |tr| && tr[j].tag != Health ==> tr[j] == td[j];
    FirstMatchSamePatterns(tr, td, url);
  }

  lemma FirstMatchSamePatterns(a: seq<Rule>, b: seq<Rule>, url: string)
    requires |a| == |b|
    requires forall j :: 0 <= j < |a| ==> a[j].pattern == b[j].pattern
    ensures FirstMatch(a, url) == FirstMatch(b, url)
  {
    var p := (rule: Rule) => Contains(url, rule.pattern);
    FirstIndexAgree(p, a, p, b);
  }

  /** From the slash after `x` on, the only slashes are the two separators. */
  lemma SlashesAfterPrefix(x: string, y: string, z: string)
    requires '/' !in y && '/' !in z
    ensures var u := x + "/" + y + "/" + z;
            && u[|x|] == '/' && u[|x| + 1 + |y|] == '/'
            && forall i :: |x| <= i < |u| && u[i] == '/' ==> i == |x| || i == |x| + 1 + |y|
  {
  }

  /** For a URL ending in two slash-free pieces after a slash, the fallback name is exactly
      those two pieces joined by a slash. */
  lemma EndpointNameOfTwoPieces(x: string, y: string, z: string)
    requires '/' !in y && '/' !in z
    ensures EndpointName(x + "/" + y + "/" + z) == y + "/" + z
  {
    var u := x + "/" + y + "/" + z;
    var r := EndpointName(u);
    var a, b := |x|, |x| + 1 + |y|;
    SlashesAfterPrefix(x, y, z);
    assert r != u;
    var p := |u| - |r| - 1;
    assert r == u[p + 1..];
    var q :| 0 <= q < |r| && r[q] == '/';
    assert u[p + 1 + q] == '/';
    assert p == a;
    assert u[a + 1..] == y + "/" + z;
  }

  /** A URL lacking the letters u, g, i and v matches no rule of either table: each pattern
      holds one of them. */
  lemma NoRuleMatches(url: string)
    requires 'u' !in url && 'g' !in url && 'i' !in url && 'v' !in url
    ensures FirstMatch(RequestFlowTable, url).None?
    ensures FirstMatch(DetailedFlowTable, url).None?
  {
    MissingCharNotContained(url, "oauth", 2);
    MissingCharNotContained(url, "organization", 2);
    MissingCharNotContained(url, "count_tokens", 2);
    MissingCharNotContained(url, "/api/hello", 3);
    MissingCharNotContained(url, "/v1/messages", 1);
  }

  /** A URL matching no rule, such as `GET https://example.com/foo/bar`, is UNKNOWN, and its
      description names the method and ends with the URL's last two pieces. */
  lemma UnknownTwoPieces(x: string, y: string, z: string, verb: string)
    requires '/' !in y && '/' !in z
    requires var url := x + "/" + y + "/" + z;
             'u' !in url && 'g' !in url && 'i' !in url && 'v' !in url
    ensures var url := x + "/" + y + "/" + z;
            && ClassifyDetailedFlow(url, verb).0 == Unknown
            && Contains(ClassifyDetailedFlow(url, verb).1, verb)
            && EndsWith(ClassifyDetailedFlow(url, verb).1, " " + y + "/" + z)
            && ClassifyRequestFlow(url, verb).0 == Unknown
            && Contains(ClassifyRequestFlow(url, verb).1, verb)
            && EndsWith(ClassifyRequestFlow(url, verb).1, " " + y + "/" + z)
  {
    var url := x + "/" + y + "/" + z;
    NoRuleMatches(url);
    EndpointNameOfTwoPieces(x, y, z);
    assert " " + EndpointName(url) == " " + y + "/" + z;
  }
}

=== FILE: extract.dfy ===
/**
 * Content extraction shared by both flow reports (request_flow.py and the duplicate
 * in detailed_flow.py): the primary user text, the per-message user texts, the
 * (role, text) conversation chain, and tool names / text of a decoded response.
 */
module Extract {
  import opened Wrappers
  import opened Text
  import opened Trace
  import opened Seqs

  const ReminderMarker := "<system-reminder>"

  /** Injected reminder text: after stripping whitespace it opens with the marker. */
  predicate IsReminder(text: string) {
    StartsWith(Strip(text), ReminderMarker)
  }

  /** A block that can serve as a user message's primary text. */
  predicate QualifyingText(b: Block) {
    b.Text? && !IsReminder(b.text)
  }

  /** The first qualifying text block of a block array (non-objects and other block types are skipped). */
  function FirstText(bs: seq<Block>): (r: Option<string>)
    ensures r.Some? ==> exists i :: 0 <= i < |bs| && QualifyingText(bs[i]) && bs[i].text == r.value
                                    && forall j :: 0 <= j < i ==> !QualifyingText(bs[j])
    ensures r.None? <==> forall i :: 0 <= i < |bs| ==> !QualifyingText(bs[i])
  {
    if |bs| == 0 then None
    else if QualifyingText(bs[0]) then Some(bs[0].text)
    else
      var r := FirstText(bs[1..]);
      assert forall i :: 1 <= i < |bs| ==> bs[i] == bs[1..][i - 1];
      r
  }

  /** The text one message contributes as user text: only `user` messages, a string
      unless it is a reminder, or the first qualifying text block. */
  function UserTextOf(m: Message): (r: Option<string>)
    ensures r.Some? ==> m.role == "user" && !IsReminder(r.value)
  {
    if m.role != "user" then None
    else
      match m.content
      case Str(s) => if IsReminder(s) then None else Some(s)
      case Blocks(bs) => FirstText(bs)
      case NoContent => None
  }

  /** `extract_user_message`: the first user text over all messages, "" when there is none.
      The text is returned as found, not stripped. */
  function ExtractUserMessage(msgs: seq<Message>): (r: string)
    ensures (exists i :: 0 <= i < |msgs| && UserTextOf(msgs[i]) == Some(r)
                         && forall j :: 0 <= j < i ==> UserTextOf(msgs[j]).None?)
            || (r == "" && forall i :: 0 <= i < |msgs| ==> UserTextOf(msgs[i]).None?)
    ensures r == "" || !IsReminder(r)
  {
    if |msgs| == 0 then ""
    else if UserTextOf(msgs[0]).Some? then UserTextOf(msgs[0]).value
    else
      var r := ExtractUserMessage(msgs[1..]);
      assert forall i :: 1 <= i < |msgs| ==> msgs[i] == msgs[1..][i - 1];
      r
  }

  /** `extract_all_user_messages`: at most one text per user message, in message order. */
  function ExtractAllUserMessages(msgs: seq<Message>): (r: seq<string>)
    ensures |r| <= |msgs|
    ensures forall k :: 0 <= k < |r| ==> !IsReminder(r[k])
    ensures r == FilterMap(UserTextOf, msgs)
  {
    if |msgs| == 0 then []
    else
      match UserTextOf(msgs[0])
      case Some(t) => [t] + ExtractAllUserMessages(msgs[1..])
      case None => ExtractAllUserMessages(msgs[1..])
  }

  /** The single-message extraction is the head of the all-messages extraction. */
  lemma {:induction false} UserMessageIsFirstOfAll(msgs: seq<Message>)
    ensures |ExtractAllUserMessages(msgs)| > 0 ==> ExtractUserMessage(msgs) == ExtractAllUserMessages(msgs)[0]
    ensures |ExtractAllUserMessages(msgs)| == 0 ==> ExtractUserMessage(msgs) == ""
  {
    if |msgs| > 0 && UserTextOf(msgs[0]).None? {
      UserMessageIsFirstOfAll(msgs[1..]);
    }
  }

  /** The all-messages extraction works message by message. */
  lemma AllUserMessagesConcat(a: seq<Message>, b: seq<Message>)
    ensures ExtractAllUserMessages(a + b) == ExtractAllUserMessages(a) + ExtractAllUserMessages(b)
  {
    FilterMapConcat(UserTextOf, a, b);
  }

  /** A reminder is never the primary user text, even when it is the only user text. */
  lemma ReminderNeverPrimary(text: string)
    requires IsReminder(text)
    ensures ExtractUserMessage([Message("user", Str(text))]) == ""
    ensures ExtractUserMessage([Message("user", Blocks([Text(text)]))]) == ""
  {
  }

  /** The text a single block contributes to a response's text: only `text` blocks do. */
  function TextOf(b: Block): Option<string> {
    if b.Text? then Some(b.text) else None
  }

  /** The name a single block contributes to the tool calls, "unknown" when it has none. */
  function ToolUseNameOf(b: Block): Option<string> {
    if b.ToolUse? then Some(b.name.GetOr("unknown")) else None
  }

  /** Texts of all `text` blocks, in order (non-objects skipped). */
  function BlockTexts(bs: seq<Block>): (r: seq<string>)
    ensures |r| <= |bs|
  {
    if |bs| == 0 then []
    else if bs[0].Text? then [bs[0].text] + BlockTexts(bs[1..])
    else BlockTexts(bs[1..])
  }

  /** Names of all `tool_use` blocks in encounter order, "unknown" for a missing name. */
  function ToolUseNames(bs: seq<Block>): (r: seq<string>)
    ensures |r| <= |bs|
  {
    if |bs| == 0 then []
    else if bs[0].ToolUse? then [bs[0].name.GetOr("unknown")] + ToolUseNames(bs[1..])
    else ToolUseNames(bs[1..])
  }

  /** The block texts are the texts of the `text` blocks and nothing else, block by block. */
  lemma {:induction false} BlockTextsAreTexts(bs: seq<Block>)
    ensures BlockTexts(bs) == FilterMap(TextOf, bs)
  {
    if |bs| > 0 {
      BlockTextsAreTexts(bs[1..]);
    }
  }

  /** The tool names are the names of the `tool_use` blocks and nothing else, block by block. */
  lemma {:induction false} ToolUseNamesAreNames(bs: seq<Block>)
    ensures ToolUseNames(bs) == FilterMap(ToolUseNameOf, bs)
  {
    if |bs| > 0 {
      ToolUseNamesAreNames(bs[1..]);
    }
  }

  lemma {:induction false} ToolUseNamesConcat(a: seq<Block>, b: seq<Block>)
    ensures ToolUseNames(a + b) == ToolUseNames(a) + ToolUseNames(b)
  {
    if |a| == 0 {
      assert a + b == b;
    } else {
      assert (a + b)[1..] == a[1..] + b;
      ToolUseNamesConcat(a[1..], b);
    }
  }

  /** An empty tool-name list means no `tool_use` block at all. */
  lemma {:induction false} ToolUseNamesEmptyIff(bs: seq<Block>)
    ensures ToolUseNames(bs) == [] <==> forall i :: 0 <= i < |bs| ==> !bs[i].ToolUse?
  {
    if |bs| > 0 {
      ToolUseNamesEmptyIff(bs[1..]);
      assert forall i :: 1 <= i < |bs| ==> bs[i] == bs[1..][i - 1];
    }
  }

  lemma {:induction false} BlockTextsEmptyIff(bs: seq<Block>)
    ensures BlockTexts(bs) == [] <==> forall i :: 0 <= i < |bs| ==> !bs[i].Text?
  {
    if |bs| > 0 {
      BlockTextsEmptyIff(bs[1..]);
      assert forall i :: 1 <= i < |bs| ==> bs[i] == bs[1..][i - 1];
    }
  }

  function CountToolResults(bs: seq<Block>): (k: nat)
    ensures k <= |bs|
  {
    if |bs| == 0 then 0 else (if bs[0].ToolResult? then 1 else 0) + CountToolResults(bs[1..])
  }

  /** `extract_tool_calls`: tool names of a decoded response; nothing for an undecodable one. */
  function ExtractToolCalls(resp: Option<Response>): (r: seq<string>)
    requires ResponseWellTyped(resp)
    ensures resp.None? ==> r == []
    ensures resp.Some? ==> r == FilterMap(ToolUseNameOf, resp.value.content)
  {
    match resp
    case None => []
    case Some(rs) =>
      ToolUseNamesAreNames(rs.content);
      ToolUseNames(rs.content)
  }

  /** `extract_response_text`: all text blocks joined by single spaces; "" when undecodable. */
  function ExtractResponseText(resp: Option<Response>): (r: string)
    requires ResponseWellTyped(resp)
    ensures resp.None? ==> r == ""
    ensures resp.Some? ==> r == Join(" ", FilterMap(TextOf, resp.value.content))
  {
    match resp
    case None => ""
    case Some(rs) =>
      BlockTextsAreTexts(rs.content);
      Join(" ", BlockTexts(rs.content))
  }

  // ---------------------------------------------------------------- conversation chain

  const UserRole := "user"
  const ToolResultRole := "tool_result"
  const AssistantRole := "assistant"

  /** The synthesised entry for a user turn made only of tool results. */
  function ToolResultMarker(k: nat): string {
    "[Tool results received: " + NatToString(k) + " result(s)]"
  }

  function CalledToolsNote(names: seq<string>): string {
    "[Called tools: " + Join(", ", names) + "]"
  }

  /** The entry a user message adds to the chain. */
  function UserChainEntry(c: Content): Option<(string, string)> {
    match c
    case Str(s) => if IsReminder(s) then None else Some((UserRole, s))
    case Blocks(bs) =>
      (match FirstText(bs)
       case Some(t) => Some((UserRole, t))
       case None =>
         var k := CountToolResults(bs);
         if k > 0 then Some((ToolResultRole, ToolResultMarker(k))) else None)
    case NoContent => None
  }

  /** The entry an assistant message adds: its text, then a note naming its tool calls. */
  function AssistantChainEntry(c: Content): Option<(string, string)> {
    match c
    case Str(s) => Some((AssistantRole, s))
    case Blocks(bs) =>
      var texts := BlockTexts(bs);
      var tools := ToolUseNames(bs);
      var parts := (if |texts| > 0 then [Join(" ", texts)] else [])
                   + (if |tools| > 0 then [CalledToolsNote(tools)] else []);
      if |parts| > 0 then Some((AssistantRole, Join(" ", parts))) else None
    case NoContent => None
  }

  function ChainEntry(m: Message): Option<(string, string)> {
    if m.role == UserRole then UserChainEntry(m.content)
    else if m.role == AssistantRole then AssistantChainEntry(m.content)
    else None
  }

  predicate IsChainRole(role: string) {
    role == UserRole || role == ToolResultRole || role == AssistantRole
  }

  /** `extract_conversation_chain`: at most one (role, text) entry per message, roles
      from the fixed three, each entry coming from a user or assistant message. */
  function ExtractConversationChain(msgs: seq<Message>): (r: seq<(string, string)>)
    ensures |r| <= |msgs|
    ensures forall k :: 0 <= k < |r| ==> IsChainRole(r[k].0)
  {
    if |msgs| == 0 then []
    else
      match ChainEntry(msgs[0])
      case Some(e) => [e] + ExtractConversationChain(msgs[1..])
      case None => ExtractConversationChain(msgs[1..])
  }

  /** The chain of a concatenation is the concatenation of the chains. */
  lemma {:induction false} ChainConcat(a: seq<Message>, b: seq<Message>)
    ensures ExtractConversationChain(a + b) == ExtractConversationChain(a) + ExtractConversationChain(b)
  {
    if |a| == 0 {
      assert a + b == b;
    } else {
      assert (a + b)[1..] == a[1..] + b;
      ChainConcat(a[1..], b);
    }
  }

  /** The input role a chain role came from: tool-result entries come from user messages. */
  function SourceRole(chainRole: string): string {
    if chainRole == ToolResultRole then UserRole else chainRole
  }

  function ChainSourceRoles(chain: seq<(string, string)>): (r: seq<string>)
    ensures |r| == |chain|
  {
    if |chain| == 0 then [] else [SourceRole(chain[0].0)] + ChainSourceRoles(chain[1..])
  }

  function Roles(msgs: seq<Message>): (r: seq<string>)
    ensures |r| == |msgs|
  {
    if |msgs| == 0 then [] else [msgs[0].role] + Roles(msgs[1..])
  }

  /** Filtering never reorders: the chain's roles, read back as input roles, are a
      subsequence of the input roles. */
  lemma {:induction false} ChainRolesSubsequence(msgs: seq<Message>)
    ensures IsSubsequence(ChainSourceRoles(ExtractConversationChain(msgs)), Roles(msgs))
  {
    if |msgs| > 0 {
      ChainRolesSubsequence(msgs[1..]);
      var rest := ExtractConversationChain(msgs[1..]);
      match ChainEntry(msgs[0])
      case Some(e) =>
        assert SourceRole(e.0) == msgs[0].role;
        assert ChainSourceRoles([e] + rest)[1..] == ChainSourceRoles(rest);
      case None =>
    }
  }

  predicate SpeaksInChain(m: Message) {
    m.role == UserRole || m.role == AssistantRole
  }

  /** Messages whose role is neither user nor assistant contribute nothing. */
  lemma {:induction false} ChainIgnoresOtherRoles(msgs: seq<Message>)
    ensures ExtractConversationChain(msgs) == ExtractConversationChain(Filter(SpeaksInChain, msgs))
  {
    if |msgs| > 0 {
      ChainIgnoresOtherRoles(msgs[1..]);
      if SpeaksInChain(msgs[0]) {
        assert Filter(SpeaksInChain, msgs) == [msgs[0]] + Filter(SpeaksInChain, msgs[1..]);
        assert ([msgs[0]] + Filter(SpeaksInChain, msgs[1..]))[1..] == Filter(SpeaksInChain, msgs[1..]);
      }
    }
  }

  /** The chain of a single message is that message's entry, if any. */
  lemma SingleMessageChain(m: Message)
    ensures ExtractConversationChain([m]) == (if ChainEntry(m).Some? then [ChainEntry(m).value] else [])
  {
    assert [m][1..] == [];
  }

  /** A user block array with no qualifying text but k >= 1 tool results yields exactly the
      tool-result marker; with a qualifying text it yields that text as a user entry. */
  lemma UserBlocksEntry(bs: seq<Block>)
    ensures FirstText(bs).Some? ==>
              ExtractConversationChain([Message(UserRole, Blocks(bs))]) == [(UserRole, FirstText(bs).value)]
    ensures FirstText(bs).None? && CountToolResults(bs) > 0 ==>
              ExtractConversationChain([Message(UserRole, Blocks(bs))])
              == [(ToolResultRole, ToolResultMarker(CountToolResults(bs)))]
    ensures FirstText(bs).None? && CountToolResults(bs) == 0 ==>
              ExtractConversationChain([Message(UserRole, Blocks(bs))]) == []
  {
    SingleMessageChain(Message(UserRole, Blocks(bs)));
  }

  /** Three tool results and no text block give the single marker "3 result(s)". */
  lemma ThreeToolResults()
    ensures ExtractConversationChain([Message(UserRole, Blocks([ToolResult, ToolResult, ToolResult]))])
            == [(ToolResultRole, "[Tool results received: 3 result(s)]")]
  {
    var bs := [ToolResult, ToolResult, ToolResult];
    assert CountToolResults(bs) == 3 by {
      assert bs[1..] == [ToolResult, ToolResult];
      assert bs[1..][1..] == [ToolResult];
    }
    assert FirstText(bs).None? by {
      assert forall i :: 0 <= i < |bs| ==> !QualifyingText(bs[i]);
    }
    assert NatToString(3) == "3";
    assert ToolResultMarker(3) == "[Tool results received: 3 result(s)]";
    UserBlocksEntry(bs);
    assert ExtractConversationChain([Message(UserRole, Blocks(bs))]) == [(ToolResultRole, ToolResultMarker(3))];
  }

  /** An assistant block array is dropped exactly when it has neither text nor tool_use blocks. */
  lemma AssistantOmittedIff(bs: seq<Block>)
    ensures ExtractConversationChain([Message(AssistantRole, Blocks(bs))]) == []
            <==> forall i :: 0 <= i < |bs| ==> !bs[i].Text? && !bs[i].ToolUse?
  {
    SingleMessageChain(Message(AssistantRole, Blocks(bs)));
    BlockTextsEmptyIff(bs);
    ToolUseNamesEmptyIff(bs);
  }

  /** A kept assistant block array is its texts joined by single spaces, then a space and
      the note naming its tool calls in encounter order; either part may be absent. */
  lemma AssistantBlocksText(bs: seq<Block>)
    ensures BlockTexts(bs) != [] && ToolUseNames(bs) != [] ==>
              ExtractConversationChain([Message(AssistantRole, Blocks(bs))])
              == [(AssistantRole, Join(" ", BlockTexts(bs)) + " " + CalledToolsNote(ToolUseNames(bs)))]
    ensures BlockTexts(bs) == [] && ToolUseNames(bs) != [] ==>
              ExtractConversationChain([Message(AssistantRole, Blocks(bs))])
              == [(AssistantRole, CalledToolsNote(ToolUseNames(bs)))]
    ensures BlockTexts(bs) != [] && ToolUseNames(bs) == [] ==>
              ExtractConversationChain([Message(AssistantRole, Blocks(bs))])
              == [(AssistantRole, Join(" ", BlockTexts(bs)))]
  {
    SingleMessageChain(Message(AssistantRole, Blocks(bs)));
    var parts := [Join(" ", BlockTexts(bs)), CalledToolsNote(ToolUseNames(bs))];
    assert Join(" ", parts) == parts[0] + " " + parts[1] by {
      assert parts[1..] == [parts[1]];
    }
  }

  /** Plain-string assistant content is always emitted verbatim. */
  lemma AssistantStringEntry(s: string)
    ensures ExtractConversationChain([Message(AssistantRole, Str(s))]) == [(AssistantRole, s)]
  {
    assert [Message(AssistantRole, Str(s))][1..] == [];
  }

  /** Scenario: a response calling Read then Bash yields exactly those names, in that order. */
  lemma ReadThenBash()
    ensures ExtractToolCalls(Some(Response([ToolUse(Some("Read")), ToolUse(Some("Bash"))]))) == ["Read", "Bash"]
  {
    var bs := [ToolUse(Some("Read")), ToolUse(Some("Bash"))];
    assert bs[1..] == [ToolUse(Some("Bash"))];
    assert bs[1..][1..] == [];
  }
}

=== FILE: extract_system_prompts.dfy ===
/**
 * `extract_system_prompts.py` without its file I/O: find the first real Sonnet request
 * with a system prompt (not the "Warmup" one), key one record per Claude Code version,
 * and merge this run's records into the metadata already on disk.
 */
module ExtractSystemPrompts {
  import opened Wrappers
  import opened Text
  import opened Trace
  import opened Seqs
  import opened Sorting
  import opened Versions
  import opened Selection

  /** A user message containing this (case-sensitively) is the warm-up request, skipped. */
  const WarmupMarker := "Warmup"

  /** A block at which the scan of a block list stops: any text block, or a non-object,
      on which `block.get` raises. */
  predicate StopsScan(b: Block) {
    b.NonDict? || b.Text?
  }

  /**
   * The text taken from a block-list user message: that of the first text block, with
   * no filtering, or "" when there is none; None when a non-object comes first.
   */
  function FirstText(bs: seq<Block>): (r: Option<string>)
    ensures r.None? <==>
              exists i :: 0 <= i < |bs| && bs[i].NonDict? && forall j :: 0 <= j < i ==> !StopsScan(bs[j])
    ensures (forall j :: 0 <= j < |bs| ==> !StopsScan(bs[j])) ==> r == Some("")
    ensures forall i :: 0 <= i < |bs| && bs[i].Text? && AllDicts(bs[..i]) && (forall j :: 0 <= j < i ==> !bs[j].Text?) ==>
              r == Some(bs[i].text)
  {
    var i := FirstIndex(StopsScan, bs);
    if i.None? then Some("")
    else if bs[i.value].NonDict? then None
    else Some(bs[i.value].text)
  }

  /**
   * `user_msg` of `extract_system_prompt`: from the first user message only, a string
   * content whole, a block list through `FirstText`, anything else "". None when the
   * scan raises.
   */
  function PromptUserMessage(msgs: seq<Message>): (r: Option<string>)
    ensures FirstUserMessage(msgs).None? ==> r == Some("")
    ensures FirstUserMessage(msgs).Some? && FirstUserMessage(msgs).value.content.Str? ==>
              r == Some(FirstUserMessage(msgs).value.content.s)
    ensures FirstUserMessage(msgs).Some? && FirstUserMessage(msgs).value.content.Blocks? ==>
              r == FirstText(FirstUserMessage(msgs).value.content.blocks)
    ensures FirstUserMessage(msgs).Some? && FirstUserMessage(msgs).value.content.NoContent? ==> r == Some("")
  {
    match FirstUserMessage(msgs)
    case None => Some("")
    case Some(m) =>
      match m.content
      case Str(s) => Some(s)
      case Blocks(bs) => FirstText(bs)
      case NoContent => Some("")
  }

  /** With well-typed blocks the scan never raises. */
  lemma WellTypedScanSucceeds(msgs: seq<Message>)
    requires MessagesWellTyped(msgs)
    ensures PromptUserMessage(msgs).Some?
  {
    var fm := FirstUserMessage(msgs);
    if fm.Some? && fm.value.content.Blocks? {
      var i :| 0 <= i < |msgs| && msgs[i] == fm.value;
      assert AllDicts(fm.value.content.blocks);
    }
  }

  /** `len(system)`: characters of a string, blocks of a list. */
  function SystemLength(c: Content): (n: nat)
    ensures Truthy(c) <==> n > 0 && !c.NoContent?
  {
    match c
    case Str(s) => |s|
    case Blocks(bs) => |bs|
    case NoContent => 0
  }

  /** What `extract_system_prompt` returns for the entry it selects. */
  datatype PromptData = PromptData(entryIdx: nat, userMsg: string, system: Content, blockCount: nat)

  /** The loop body of `extract_system_prompt` for entry `idx`. */
  function PromptVerdict(idx: nat, e: Entry): Processed<PromptData> {
    if !IsMessagesCall(e) then NothingFound
    else
      var body := e.request.body.value;
      match PromptUserMessage(body.messages)
      case None => Raised
      case Some(u) =>
        if MentionsSonnet(body) && Truthy(body.system) && !Contains(u, WarmupMarker)
        then Extracted(PromptData(idx, u, body.system, SystemLength(body.system)))
        else NothingFound
  }

  /** The entry `extract_system_prompt` is after: a Messages API call with a body, a
      Sonnet model, a non-empty system prompt, and a user message without "Warmup". */
  predicate Qualifies(e: Entry) {
    && IsMessagesCall(e)
    && MentionsSonnet(e.request.body.value)
    && Truthy(e.request.body.value.system)
    && PromptUserMessage(e.request.body.value.messages).Some?
    && !Contains(PromptUserMessage(e.request.body.value.messages).value, WarmupMarker)
  }

  /** The warm-up test is case-sensitive: a user message without a capital W, such as
      "warmup", does not disqualify the entry. */
  lemma WarmupTestCaseSensitive(e: Entry)
    requires IsMessagesCall(e) && MentionsSonnet(e.request.body.value) && Truthy(e.request.body.value.system)
    requires PromptUserMessage(e.request.body.value.messages).Some?
    requires 'W' !in PromptUserMessage(e.request.body.value.messages).value
    ensures Qualifies(e)
  {
    MissingCharNotContained(PromptUserMessage(e.request.body.value.messages).value, WarmupMarker, 0);
  }

  /** The entry reaches the user-message scan and the scan raises. */
  predicate ScanRaises(e: Entry) {
    IsMessagesCall(e) && PromptUserMessage(e.request.body.value.messages).None?
  }

  lemma VerdictMeaning(idx: nat, e: Entry)
    ensures PromptVerdict(idx, e).Extracted? <==> Qualifies(e)
    ensures PromptVerdict(idx, e).Raised? <==> ScanRaises(e)
    ensures PromptVerdict(idx, e).Extracted? ==>
              var d := PromptVerdict(idx, e).value;
              && d.entryIdx == idx
              && d.system == e.request.body.value.system
              && d.blockCount == SystemLength(d.system) > 0
              && Some(d.userMsg) == PromptUserMessage(e.request.body.value.messages)
  {
  }

  /** The loop body's verdict on each entry, in entry order. */
  function Verdicts(es: seq<Entry>): (vs: seq<Processed<PromptData>>)
    ensures |vs| == |es|
    ensures forall i :: 0 <= i < |es| ==> vs[i] == PromptVerdict(i, es[i])
  {
    seq(|es|, i requires 0 <= i < |es| => PromptVerdict(i, es[i]))
  }

  lemma VerdictsMeaning(es: seq<Entry>)
    ensures forall i :: 0 <= i < |es| ==>
              && (Verdicts(es)[i].Extracted? <==> Qualifies(es[i]))
              && (Verdicts(es)[i].Raised? <==> ScanRaises(es[i]))
              && (Verdicts(es)[i].Extracted? ==>
                    var d := Verdicts(es)[i].value;
                    && d.entryIdx == i
                    && d.system == es[i].request.body.value.system
                    && d.blockCount == SystemLength(d.system) > 0
                    && Some(d.userMsg) == PromptUserMessage(es[i].request.body.value.messages))
  {
    forall i | 0 <= i < |es| {
      VerdictMeaning(i, es[i]);
    }
  }

  lemma FirstDecidedRaises(es: seq<Entry>)
    ensures FirstDecided(Verdicts(es)).Raised? <==>
              exists i :: 0 <= i < |es| && ScanRaises(es[i]) && forall j :: 0 <= j < i ==> !Qualifies(es[j])
  {
    VerdictsMeaning(es);
    FirstDecidedRaised(Verdicts(es));
  }

  /**
   * `extract_system_prompt(entries)`: the record of the first qualifying entry, unless
   * an earlier entry's scan raised; `NothingFound` (Python None) when no entry qualifies
   * or raises.
   */
  function ExtractSystemPrompt(es: seq<Entry>): (r: Processed<PromptData>)
    ensures r.Extracted? ==>
              var d := r.value;
              && d.entryIdx < |es|
              && Qualifies(es[d.entryIdx])
              && (forall j :: 0 <= j < d.entryIdx ==> !Qualifies(es[j]) && !ScanRaises(es[j]))
              && d.system == es[d.entryIdx].request.body.value.system
              && d.blockCount == SystemLength(d.system) > 0
              && !Contains(d.userMsg, WarmupMarker)
              && Some(d.userMsg) == PromptUserMessage(es[d.entryIdx].request.body.value.messages)
    ensures r.Raised? <==>
              exists i :: 0 <= i < |es| && ScanRaises(es[i]) && forall j :: 0 <= j < i ==> !Qualifies(es[j])
    ensures r.NothingFound? <==> forall j :: 0 <= j < |es| ==> !Qualifies(es[j]) && !ScanRaises(es[j])
  {
    VerdictsMeaning(es);
    FirstDecidedRaises(es);
    FirstDecidedAt(Verdicts(es), (d: PromptData) => d.entryIdx);
    FirstDecided(Verdicts(es))
  }

  /** With well-typed blocks, a record is found exactly when some entry qualifies, and it
      is the record of the smallest such index. */
  lemma ExtractSystemPromptFirstQualifying(es: seq<Entry>)
    requires forall i :: 0 <= i < |es| && es[i].request.body.Some? ==>
                         MessagesWellTyped(es[i].request.body.value.messages)
    ensures !ExtractSystemPrompt(es).Raised?
    ensures ExtractSystemPrompt(es).Extracted? <==> exists i :: 0 <= i < |es| && Qualifies(es[i])
    ensures ExtractSystemPrompt(es).Extracted? ==>
              var i := ExtractSystemPrompt(es).value.entryIdx;
              i < |es| && Qualifies(es[i]) && forall j :: 0 <= j < i ==> !Qualifies(es[j])
  {
    forall i | 0 <= i < |es| && es[i].request.body.Some?
      ensures PromptUserMessage(es[i].request.body.value.messages).Some?
    {
      WellTypedScanSucceeds(es[i].request.body.value.messages);
    }
    assert forall i :: 0 <= i < |es| ==> !ScanRaises(es[i]);
  }

  /** The record `main` keeps per version. */
  datatype PromptInfo = PromptInfo(traceFile: string, blockCount: nat, entryIdx: nat)

  /**
   * `save_system_prompt` calls `block.get` on every element of `system` before `main` stores
   * the record: the characters of a non-empty string, a non-object block and a null value
   * (which cannot be iterated) all raise.
   */
  predicate SaveRaises(system: Content) {
    match system
    case Str(s) => |s| > 0
    case Blocks(bs) => NonDict in bs
    case NoContent => true
  }

  /** What `main` makes of one file it does not skip: the selected prompt is written out
      first, and the record is stored only when that does not raise. */
  function ProcessFile(f: TraceFile): (r: Processed<PromptInfo>)
    ensures r.NothingFound? <==> ExtractSystemPrompt(f.entries).NothingFound?
    ensures r.Extracted? <==>
              ExtractSystemPrompt(f.entries).Extracted? && !SaveRaises(ExtractSystemPrompt(f.entries).value.system)
    ensures r.Raised? <==>
              ExtractSystemPrompt(f.entries).Raised?
              || (ExtractSystemPrompt(f.entries).Extracted? && SaveRaises(ExtractSystemPrompt(f.entries).value.system))
    ensures r.Extracted? ==>
              var d := ExtractSystemPrompt(f.entries).value;
              && d.system.Blocks? && NonDict !in d.system.blocks
              && r.value.traceFile == f.name
              && r.value.blockCount == |d.system.blocks| > 0
              && r.value.entryIdx == d.entryIdx
  {
    match ExtractSystemPrompt(f.entries)
    case Extracted(d) =>
      if SaveRaises(d.system) then Raised else Extracted(PromptInfo(f.name, d.blockCount, d.entryIdx))
    case NothingFound => NothingFound
    case Raised => Raised
  }

  /** A file whose selected prompt is a plain string aborts the run in `save_system_prompt`,
      so the metadata on disk is left as it was. */
  lemma StringPromptAborts(stored: Option<Metadata<PromptInfo>>, f: TraceFile)
    requires ExtractSystemPrompt(f.entries).Extracted?
    requires ExtractSystemPrompt(f.entries).value.system.Str?
    ensures ExtractAll([f]).Aborted?
    ensures RunMetadata(stored, [f]) == stored
  {
    var os := Map(ProcessFile, [f]);
    assert os[0] == ProcessFile(f);
    assert os[0].Raised?;
    assert Collect(Map(FileVersion, [f]), os, 0) == Completed([]);
  }

  /** `main`'s loop over the trace files, in the order given. */
  function ExtractAll(files: seq<TraceFile>): Run<PromptInfo> {
    Collect(Map(FileVersion, files), Map(ProcessFile, files), |files|)
  }

  /** The loop keeps, per version, the record of the first file of that version that
      has one; it completes unless a file it reads raises. */
  lemma ExtractAllFirstPerVersion(files: seq<TraceFile>)
    ensures var vs := Map(FileVersion, files); var os := Map(ProcessFile, files);
            && (ExtractAll(files).Completed? <==> NoneRaise(vs, os, |files|))
            && (ExtractAll(files).Completed? ==>
                  ExtractAll(files).info == Firsts(vs, os, |files|)
                  && NoDuplicates(Keys(ExtractAll(files).info)))
  {
    var vs := Map(FileVersion, files);
    var os := Map(ProcessFile, files);
    CollectMatchesFirsts(vs, os, |files|);
    FirstsDistinct(vs, os, |files|);
  }

  /**
   * The metadata after a run, given what was on disk before (None: no file): unchanged
   * when the run aborts or collects nothing, otherwise this run's records merged in.
   */
  function RunMetadata(stored: Option<Metadata<PromptInfo>>, files: seq<TraceFile>): (m: Option<Metadata<PromptInfo>>)
    ensures ExtractAll(files).Aborted? || |ExtractAll(files).info| == 0 ==> m == stored
    ensures ExtractAll(files).Completed? && |ExtractAll(files).info| > 0 ==>
              m.Some? && MergedInto(m.value, stored.GetOr(Metadata(map[], [])), ExtractAll(files).info)
  {
    var run := ExtractAll(files);
    assert run.Completed? ==> NoDuplicates(Keys(run.info)) by {
      ExtractAllFirstPerVersion(files);
    }
    RunMergedMetadata(stored, run)
  }
}

=== FILE: extract_tools.dfy ===
/**
 * `extract_tools.py` without its file I/O: find the request that answered the simple
 * "what is your name" prompt with the full tool set, split off the MCP tools, and key
 * one record per Claude Code version.
 */
module ExtractTools {
  import opened Wrappers
  import opened Text
  import opened Trace
  import opened Seqs
  import opened Sorting
  import opened Versions
  import opened Selection

  /** The simple prompt whose request carries the version's whole tool set. */
  const NamePrompt := "what is your name"

  /** Tool names of MCP servers start with this. */
  const McpPrefix := "mcp__"

  /** A block at which the scan of a block list stops: a text block asking for the name,
      or a non-object, on which `block.get` raises. */
  predicate StopsScan(b: Block) {
    b.NonDict? || (b.Text? && Contains(Lower(b.text), NamePrompt))
  }

  lemma EmptyLacksPrompt()
    ensures !Contains(Lower(""), NamePrompt)
  {
    assert Lower("") == "";
  }

  /**
   * The text kept from a block-list user message: the first text block asking for the
   * name, or "" when none does; None when the scan raises on a non-object first.
   */
  function PromptText(bs: seq<Block>): (r: Option<string>)
    ensures r.None? <==>
              exists i :: 0 <= i < |bs| && bs[i].NonDict? && forall j :: 0 <= j < i ==> !StopsScan(bs[j])
    ensures r == Some("") <==> forall j :: 0 <= j < |bs| ==> !StopsScan(bs[j])
    ensures r.Some? && r.value != "" ==>
              exists i :: 0 <= i < |bs| && bs[i] == Text(r.value) && Contains(Lower(r.value), NamePrompt)
                          && forall j :: 0 <= j < i ==> !StopsScan(bs[j])
  {
    var i := FirstIndex(StopsScan, bs);
    EmptyLacksPrompt();
    if i.None? then Some("")
    else if bs[i.value].NonDict? then None
    else Some(bs[i.value].text)
  }

  /**
   * `user_msg` of `extract_tools`: from the first user message only, a string content
   * whole, a block list through `PromptText`, anything else "". None when the scan raises.
   */
  function ToolsUserMessage(msgs: seq<Message>): (r: Option<string>)
    ensures FirstUserMessage(msgs).None? ==> r == Some("")
    ensures FirstUserMessage(msgs).Some? && FirstUserMessage(msgs).value.content.Str? ==>
              r == Some(FirstUserMessage(msgs).value.content.s)
    ensures FirstUserMessage(msgs).Some? && FirstUserMessage(msgs).value.content.Blocks? ==>
              r == PromptText(FirstUserMessage(msgs).value.content.blocks)
    ensures FirstUserMessage(msgs).Some? && FirstUserMessage(msgs).value.content.NoContent? ==> r == Some("")
    ensures MessagesWellTyped(msgs) ==> r.Some?
  {
    match FirstUserMessage(msgs)
    case None => Some("")
    case Some(m) =>
      match m.content
      case Str(s) => Some(s)
      case Blocks(bs) =>
        assert MessagesWellTyped(msgs) ==> AllDicts(bs);
        PromptText(bs)
      case NoContent => Some("")
  }

  /** The first user message asks for the name: its string content does, or one of its
      text blocks does with only objects before it. */
  predicate AsksName(msgs: seq<Message>) {
    match FirstUserMessage(msgs)
    case None => false
    case Some(m) =>
      match m.content
      case Str(s) => Contains(Lower(s), NamePrompt)
      case Blocks(bs) => HasNameBlock(bs)
      case NoContent => false
  }

  /** A text block asking for the name with only objects before it. */
  predicate HasNameBlock(bs: seq<Block>) {
    exists i :: 0 <= i < |bs| && bs[i].Text? && Contains(Lower(bs[i].text), NamePrompt) && AllDicts(bs[..i])
  }

  /** The block scan keeps a text asking for the name exactly when the list has such a
      block with only objects before it. */
  lemma PromptTextFinds(bs: seq<Block>)
    ensures (PromptText(bs).Some? && Contains(Lower(PromptText(bs).value), NamePrompt)) <==> HasNameBlock(bs)
  {
    EmptyLacksPrompt();
    var r := PromptText(bs);
    if r.Some? && Contains(Lower(r.value), NamePrompt) {
      var i :| 0 <= i < |bs| && bs[i] == Text(r.value) && Contains(Lower(r.value), NamePrompt)
               && forall j :: 0 <= j < i ==> !StopsScan(bs[j]);
      assert AllDicts(bs[..i]);
    }
    if HasNameBlock(bs) {
      var i :| 0 <= i < |bs| && bs[i].Text? && Contains(Lower(bs[i].text), NamePrompt) && AllDicts(bs[..i]);
      assert StopsScan(bs[i]);
    }
  }

  /** The scan of the first user message finds a text asking for the name exactly when
      that message asks for it. */
  lemma AsksNameIff(msgs: seq<Message>)
    ensures (ToolsUserMessage(msgs).Some? && Contains(Lower(ToolsUserMessage(msgs).value), NamePrompt))
            <==> AsksName(msgs)
  {
    var fm := FirstUserMessage(msgs);
    if fm.Some? && fm.value.content.Blocks? {
      PromptTextFinds(fm.value.content.blocks);
    }
  }

  /** What `extract_tools` returns for the entry it selects. */
  datatype ToolsData = ToolsData(entryIdx: nat, userMsg: string, tools: seq<Tool>, toolCount: nat, toolNames: seq<string>)

  /** `tool.get('name', 'unknown')`. */
  function ToolName(t: Tool): string {
    t.name.GetOr("unknown")
  }

  /** The loop body of `extract_tools` for entry `idx`: the record to return, an
      exception from the user-message scan, or `NothingFound` to go on. */
  function ToolsVerdict(idx: nat, e: Entry): Processed<ToolsData> {
    if !IsMessagesCall(e) then NothingFound
    else
      var body := e.request.body.value;
      if |body.tools| == 0 then NothingFound
      else
        match ToolsUserMessage(body.messages)
        case None => Raised
        case Some(u) =>
          if MentionsSonnet(body) && Contains(Lower(u), NamePrompt)
          then Extracted(ToolsData(idx, u, body.tools, |body.tools|, Map(ToolName, body.tools)))
          else NothingFound
  }

  /** The entry `extract_tools` is after: a Messages API call with a body, a non-empty
      tool list, a Sonnet model, and a first user message asking for the name. */
  predicate Qualifies(e: Entry) {
    && IsMessagesCall(e)
    && |e.request.body.value.tools| > 0
    && MentionsSonnet(e.request.body.value)
    && AsksName(e.request.body.value.messages)
  }

  /** The entry reaches the user-message scan and the scan raises. */
  predicate ScanRaises(e: Entry) {
    && IsMessagesCall(e)
    && |e.request.body.value.tools| > 0
    && ToolsUserMessage(e.request.body.value.messages).None?
  }

  /** One loop iteration returns exactly on a qualifying entry, with that entry's data,
      and raises exactly when the scan does. */
  lemma VerdictMeaning(idx: nat, e: Entry)
    ensures ToolsVerdict(idx, e).Extracted? <==> Qualifies(e)
    ensures ToolsVerdict(idx, e).Raised? <==> ScanRaises(e)
    ensures ToolsVerdict(idx, e).Extracted? ==>
              var d := ToolsVerdict(idx, e).value;
              && d.entryIdx == idx
              && d.tools == e.request.body.value.tools
              && Contains(Lower(d.userMsg), NamePrompt)
              && Some(d.userMsg) == ToolsUserMessage(e.request.body.value.messages)
  {
    if IsMessagesCall(e) {
      AsksNameIff(e.request.body.value.messages);
    }
  }

  /** The loop body's verdict on each entry, in entry order. */
  function Verdicts(es: seq<Entry>): (vs: seq<Processed<ToolsData>>)
    ensures |vs| == |es|
    ensures forall i :: 0 <= i < |es| ==> vs[i] == ToolsVerdict(i, es[i])
  {
    seq(|es|, i requires 0 <= i < |es| => ToolsVerdict(i, es[i]))
  }

  lemma VerdictsMeaning(es: seq<Entry>)
    ensures forall i :: 0 <= i < |es| ==>
              && (Verdicts(es)[i].Extracted? <==> Qualifies(es[i]))
              && (Verdicts(es)[i].Raised? <==> ScanRaises(es[i]))
              && (Verdicts(es)[i].Extracted? ==>
                    var d := Verdicts(es)[i].value;
                    && d.entryIdx == i && d.tools == es[i].request.body.value.tools
                    && Contains(Lower(d.userMsg), NamePrompt)
                    && Some(d.userMsg) == ToolsUserMessage(es[i].request.body.value.messages))
  {
    forall i | 0 <= i < |es| {
      VerdictMeaning(i, es[i]);
    }
  }

  /** The first decided verdict is a raise exactly when some entry's scan raises before any entry qualifies. */
  lemma FirstDecidedRaises(es: seq<Entry>)
    ensures FirstDecided(Verdicts(es)).Raised? <==>
              exists i :: 0 <= i < |es| && ScanRaises(es[i]) && forall j :: 0 <= j < i ==> !Qualifies(es[j])
  {
    VerdictsMeaning(es);
    FirstDecidedRaised(Verdicts(es));
  }

  /**
   * `extract_tools(entries)`: the record of the first qualifying entry, unless an earlier
   * entry's scan raised; `NothingFound` (Python None) when no entry qualifies or raises.
   */
  function ExtractTools(es: seq<Entry>): (r: Processed<ToolsData>)
    ensures r.Extracted? ==>
              var d := r.value;
              && d.entryIdx < |es|
              && Qualifies(es[d.entryIdx])
              && (forall j :: 0 <= j < d.entryIdx ==> !Qualifies(es[j]) && !ScanRaises(es[j]))
              && d.tools == es[d.entryIdx].request.body.value.tools
              && d.toolCount == |d.tools| && |d.toolNames| == |d.tools|
              && (forall k :: 0 <= k < |d.tools| ==> d.toolNames[k] == d.tools[k].name.GetOr("unknown"))
              && Contains(Lower(d.userMsg), NamePrompt)
              && Some(d.userMsg) == ToolsUserMessage(es[d.entryIdx].request.body.value.messages)
    ensures r.Raised? <==>
              exists i :: 0 <= i < |es| && ScanRaises(es[i]) && forall j :: 0 <= j < i ==> !Qualifies(es[j])
    ensures r.NothingFound? <==> forall j :: 0 <= j < |es| ==> !Qualifies(es[j]) && !ScanRaises(es[j])
  {
    VerdictsMeaning(es);
    FirstDecidedRaises(es);
    FirstDecidedAt(Verdicts(es), (d: ToolsData) => d.entryIdx);
    FirstDecided(Verdicts(es))
  }

  /** With well-typed blocks, `extract_tools` finds a record exactly when some entry
      qualifies, and it is the record of the smallest such index. */
  lemma ExtractToolsFirstQualifying(es: seq<Entry>)
    requires forall i :: 0 <= i < |es| && es[i].request.body.Some? ==>
                         MessagesWellTyped(es[i].request.body.value.messages)
    ensures !ExtractTools(es).Raised?
    ensures ExtractTools(es).Extracted? <==> exists i :: 0 <= i < |es| && Qualifies(es[i])
    ensures ExtractTools(es).Extracted? ==>
              var i := ExtractTools(es).value.entryIdx;
              i < |es| && Qualifies(es[i]) && forall j :: 0 <= j < i ==> !Qualifies(es[j])
  {
    assert forall i :: 0 <= i < |es| ==> !ScanRaises(es[i]);
  }

  /** Not a tool of an MCP server: the name, "" when absent, lacks the `mcp__` prefix. */
  predicate IsCoreTool(t: Tool) {
    !StartsWith(t.name.GetOr(""), McpPrefix)
  }

  predicate IsMcpTool(t: Tool) {
    StartsWith(t.name.GetOr(""), McpPrefix)
  }

  /** The tool list with MCP tools removed, as the two no-MCP files save it. */
  function NoMcp(tools: seq<Tool>): (r: seq<Tool>)
    ensures forall t :: t in r <==> t in tools && !StartsWith(t.name.GetOr(""), McpPrefix)
    ensures IsSubsequence(r, tools)
  {
    FilterIsSubsequence(IsCoreTool, tools);
    Filter(IsCoreTool, tools)
  }

  /** A tool without a name is kept. */
  lemma NamelessToolKept(tools: seq<Tool>)
    requires Tool(None) in tools
    ensures Tool(None) in NoMcp(tools)
  {
    assert !StartsWith("", McpPrefix);
  }

  /** The count `main` reports as MCP tools: all tools minus the core ones. */
  function McpCount(tools: seq<Tool>): (n: nat)
    ensures n == |Filter(IsMcpTool, tools)|
    ensures |NoMcp(tools)| + n == |tools|
  {
    FilterComplement(IsCoreTool, IsMcpTool, tools);
    |tools| - |NoMcp(tools)|
  }

  /** The record `main` keeps per version. */
  datatype ToolsInfo = ToolsInfo(traceFile: string, toolCount: nat, toolCountNoMcp: nat, toolNames: seq<string>, entryIdx: nat)

  /** What `main` makes of one file it does not skip. */
  function ProcessFile(f: TraceFile): (r: Processed<ToolsInfo>)
    ensures r.Extracted? <==> ExtractTools(f.entries).Extracted?
    ensures r.Raised? <==> ExtractTools(f.entries).Raised?
    ensures r.Extracted? ==>
              var d := ExtractTools(f.entries).value;
              && r.value.traceFile == f.name
              && r.value.toolCount == |d.tools|
              && r.value.toolCountNoMcp == |NoMcp(d.tools)| <= r.value.toolCount
              && r.value.toolCount - r.value.toolCountNoMcp == McpCount(d.tools)
              && r.value.toolNames == d.toolNames
              && r.value.entryIdx == d.entryIdx
  {
    match ExtractTools(f.entries)
    case Extracted(d) =>
      Extracted(ToolsInfo(f.name, d.toolCount, |NoMcp(d.tools)|, d.toolNames, d.entryIdx))
    case NothingFound => NothingFound
    case Raised => Raised
  }

  /** `main`'s loop over the trace files, in the order given. */
  function ExtractAll(files: seq<TraceFile>): Run<ToolsInfo> {
    Collect(Map(FileVersion, files), Map(ProcessFile, files), |files|)
  }

  /** The loop keeps, per version, the record of the first file of that version that
      has one; it completes unless a file it reads raises. */
  lemma ExtractAllFirstPerVersion(files: seq<TraceFile>)
    ensures var vs := Map(FileVersion, files); var os := Map(ProcessFile, files);
            && (ExtractAll(files).Completed? <==> NoneRaise(vs, os, |files|))
            && (ExtractAll(files).Completed? ==>
                  ExtractAll(files).info == Firsts(vs, os, |files|)
                  && NoDuplicates(Keys(ExtractAll(files).info)))
  {
    var vs := Map(FileVersion, files);
    var os := Map(ProcessFile, files);
    CollectMatchesFirsts(vs, os, |files|);
    FirstsDistinct(vs, os, |files|);
  }

  /** `save_metadata`, called when the run collected at least one record. */
  function RunMetadata(files: seq<TraceFile>): (m: Option<Metadata<ToolsInfo>>)
    ensures m.Some? ==>
              && ExtractAll(files).Completed?
              && Sorted(m.value.order) && NoDuplicates(m.value.order)
              && multiset(m.value.order) == multiset(Keys(ExtractAll(files).info))
              && (forall v :: v in m.value.versions <==> v in m.value.order)
              && forall k :: 0 <= k < |ExtractAll(files).info| ==>
                   var (v, info) := ExtractAll(files).info[k];
                   v in m.value.versions && m.value.versions[v] == info
    ensures m.None? <==> ExtractAll(files).Aborted? || |ExtractAll(files).info| == 0
  {
    var run := ExtractAll(files);
    assert run.Completed? ==> NoDuplicates(Keys(run.info)) by {
      ExtractAllFirstPerVersion(files);
    }
    RunFreshMetadata(run)
  }
}

=== FILE: format.dfy ===
/**
 * `format_message_with_indent` of request_flow.py: a labelled, possibly multi-line
 * message whose continuation lines are indented to sit under the text after the label,
 * and the `... [N chars]` truncation marker the reports share.
 */
module Format {
  import opened Text

  /** Python `" " * n`. */
  function Spaces(n: nat): (r: string)
    ensures |r| == n
    ensures forall i :: 0 <= i < n ==> r[i] == ' '
  {
    if n == 0 then "" else Spaces(n - 1) + " "
  }

  /** The marker appended to a truncated text of original length `n`. */
  function TruncationMarker(n: nat): string {
    "... [" + NatToString(n) + " chars]"
  }

  /** The source's re-indentation: split on newlines, join with newline plus indent. */
  function Reindent(s: string, indent: string): string {
    Join("\n" + indent, Split(s, '\n'))
  }

  /** The same re-indentation, one character at a time. */
  function IndentLines(s: string, indent: string): string {
    if |s| == 0 then ""
    else if s[0] == '\n' then "\n" + indent + IndentLines(s[1..], indent)
    else [s[0]] + IndentLines(s[1..], indent)
  }

  /** Removes the `n` characters following every newline: the inverse of indenting. */
  function Dedent(s: string, n: nat): string
    decreases |s|
  {
    if |s| == 0 then ""
    else if s[0] == '\n' then "\n" + Dedent(if |s| - 1 >= n then s[1 + n..] else "", n)
    else [s[0]] + Dedent(s[1..], n)
  }

  /** Every newline of `s` is followed by `n` spaces. */
  predicate NewlinesIndented(s: string, n: nat) {
    forall i :: 0 <= i < |s| && s[i] == '\n' ==> i + n < |s| && s[i + 1..i + 1 + n] == Spaces(n)
  }

  lemma {:induction false} IndentLinesConcat(a: string, b: string, indent: string)
    ensures IndentLines(a + b, indent) == IndentLines(a, indent) + IndentLines(b, indent)
  {
    if |a| == 0 {
      assert a + b == b;
    } else {
      assert (a + b)[1..] == a[1..] + b;
      IndentLinesConcat(a[1..], b, indent);
    }
  }

  lemma {:induction false} IndentLinesNoNewline(s: string, indent: string)
    requires '\n' !in s
    ensures IndentLines(s, indent) == s
  {
    if |s| > 0 {
      assert s == [s[0]] + s[1..];
      IndentLinesNoNewline(s[1..], indent);
    }
  }

  lemma JoinCons(sep: string, x: string, rest: seq<string>)
    requires |rest| > 0
    ensures Join(sep, [x] + rest) == x + sep + Join(sep, rest)
  {
    assert ([x] + rest)[1..] == rest;
  }

  lemma SplitUnfold(s: string, c: char)
    requires c in s
    ensures Split(s, c) == [s[..IndexOf(s, c)]] + Split(s[IndexOf(s, c) + 1..], c)
  {
  }

  /** One newline step of the split-and-join re-indentation. */
  lemma ReindentStep(s: string, indent: string)
    requires '\n' in s
    ensures Reindent(s, indent)
            == s[..IndexOf(s, '\n')] + ("\n" + indent) + Reindent(s[IndexOf(s, '\n') + 1..], indent)
  {
    var i := IndexOf(s, '\n');
    SplitUnfold(s, '\n');
    JoinCons("\n" + indent, s[..i], Split(s[i + 1..], '\n'));
  }

  /** One newline step of the character-wise re-indentation. */
  lemma IndentLinesStep(s: string, indent: string)
    requires '\n' in s
    ensures IndentLines(s, indent)
            == s[..IndexOf(s, '\n')] + ("\n" + indent) + IndentLines(s[IndexOf(s, '\n') + 1..], indent)
  {
    var i := IndexOf(s, '\n');
    var head, rest := s[..i], s[i + 1..];
    var tail := s[i..];
    assert IndentLines(s, indent) == IndentLines(head, indent) + IndentLines(tail, indent) by {
      assert s == head + tail;
      IndentLinesConcat(head, tail, indent);
    }
    assert IndentLines(head, indent) == head by {
      IndentLinesNoNewline(head, indent);
    }
    assert IndentLines(tail, indent) == ("\n" + indent) + IndentLines(rest, indent) by {
      assert tail[0] == '\n' && tail[1..] == rest;
    }
  }

  /** Split-and-join re-indentation is character-wise re-indentation. */
  lemma {:induction false} ReindentIsIndentLines(s: string, indent: string)
    ensures Reindent(s, indent) == IndentLines(s, indent)
    decreases |s|
  {
    if '\n' !in s {
      IndentLinesNoNewline(s, indent);
      assert Split(s, '\n') == [s];
    } else {
      ReindentStep(s, indent);
      IndentLinesStep(s, indent);
      ReindentIsIndentLines(s[IndexOf(s, '\n') + 1..], indent);
    }
  }

  /** Indenting by `n` spaces and dedenting by `n` gives the text back. */
  lemma {:induction false} DedentIndentLines(m: string, n: nat)
    ensures Dedent(IndentLines(m, Spaces(n)), n) == m
  {
    if |m| > 0 {
      DedentIndentLines(m[1..], n);
      var s := IndentLines(m, Spaces(n));
      if m[0] == '\n' {
        assert s == "\n" + Spaces(n) + IndentLines(m[1..], Spaces(n));
        assert s[1 + n..] == IndentLines(m[1..], Spaces(n));
      } else {
        assert s[1..] == IndentLines(m[1..], Spaces(n));
      }
      assert m == [m[0]] + m[1..];
    }
  }

  lemma {:induction false} IndentLinesIndented(m: string, n: nat)
    ensures NewlinesIndented(IndentLines(m, Spaces(n)), n)
  {
    if |m| > 0 {
      IndentLinesIndented(m[1..], n);
      var t := IndentLines(m[1..], Spaces(n));
      var s := IndentLines(m, Spaces(n));
      var h := if m[0] == '\n' then "\n" + Spaces(n) else [m[0]];
      assert s == h + t;
      forall i | 0 <= i < |s| && s[i] == '\n'
        ensures i + n < |s| && s[i + 1..i + 1 + n] == Spaces(n)
      {
        if i >= |h| {
          assert t[i - |h|] == '\n';
          assert s[i + 1..i + 1 + n] == t[i - |h| + 1..i - |h| + 1 + n];
        } else if i > 0 {
          assert false;
        }
      }
    }
  }

  lemma NewlinesIndentedAppend(a: string, b: string, n: nat)
    requires NewlinesIndented(a, n)
    requires '\n' !in b
    ensures NewlinesIndented(a + b, n)
  {
    forall i | 0 <= i < |a + b| && (a + b)[i] == '\n'
      ensures i + n < |a + b| && (a + b)[i + 1..i + 1 + n] == Spaces(n)
    {
      if i >= |a| {
        assert false;
      } else {
        assert (a + b)[i + 1..i + 1 + n] == a[i + 1..i + 1 + n];
      }
    }
  }

  lemma NoNewlineInMarker(n: nat)
    ensures '\n' !in TruncationMarker(n)
  {
    var d := NatToString(n);
    assert forall i :: 0 <= i < |d| ==> d[i] != '\n';
  }

  /**
   * `line` displays `msg` after `prefix` with the given cut: every continuation line is
   * aligned under the text after the prefix; below the cut the message can be read back whole
   * by removing the indentation; at or above it, the line ends with the truncation marker and
   * what precedes the marker reads back as the first 100 characters.
   */
  predicate Shows(line: string, prefix: string, msg: string, maxLength: int) {
    && StartsWith(line, prefix)
    && NewlinesIndented(line[|prefix|..], |prefix|)
    && (|msg| < maxLength ==> Dedent(line[|prefix|..], |prefix|) == msg)
    && (|msg| >= maxLength ==>
          && EndsWith(line, TruncationMarker(|msg|))
          && |prefix| <= |line| - |TruncationMarker(|msg|)|
          && Dedent(line[|prefix|..|line| - |TruncationMarker(|msg|)|], |prefix|) == Take(msg, 100))
  }

  /**
   * `format_message_with_indent`: the prefix, then the message with every continuation line
   * indented by `|prefix|` spaces. A message of `maxLength` characters or more keeps only its
   * first 100 characters, followed by the truncation marker giving the full length.
   */
  function FormatMessageWithIndent(msg: string, prefix: string, maxLength: int): (r: string)
    ensures StartsWith(r, prefix)
    ensures NewlinesIndented(r[|prefix|..], |prefix|)
    ensures |msg| < maxLength ==> Dedent(r[|prefix|..], |prefix|) == msg
    ensures |msg| >= maxLength ==>
              && EndsWith(r, TruncationMarker(|msg|))
              && |prefix| <= |r| - |TruncationMarker(|msg|)|
              && Dedent(r[|prefix|..|r| - |TruncationMarker(|msg|)|], |prefix|) == Take(msg, 100)
  {
    var indent := Spaces(|prefix|);
    if |msg| >= maxLength then
      var shown := Take(msg, 100);
      var body := Reindent(shown, indent);
      ReindentIsIndentLines(shown, indent);
      DedentIndentLines(shown, |prefix|);
      IndentLinesIndented(shown, |prefix|);
      NoNewlineInMarker(|msg|);
      NewlinesIndentedAppend(body, TruncationMarker(|msg|), |prefix|);
      var r := prefix + body + TruncationMarker(|msg|);
      assert r[|prefix|..] == body + TruncationMarker(|msg|);
      assert r[|prefix|..|r| - |TruncationMarker(|msg|)|] == body;
      r
    else
      var body := Reindent(msg, indent);
      ReindentIsIndentLines(msg, indent);
      DedentIndentLines(msg, |prefix|);
      IndentLinesIndented(msg, |prefix|);
      var r := prefix + body;
      assert r[|prefix|..] == body;
      r
  }
}

=== FILE: purpose.dfy ===
/**
 * `classify_message_purpose` of request_flow.py and detailed_flow.py: the model family
 * picks a rule table (haiku before sonnet), the first rule whose keyword occurs in the
 * lower-cased user text or the lower-cased flattened system prompt names the purpose,
 * and each family has its own fallback.
 *
 * The two scripts spell every label as a glyph followed by the same text; the glyphs
 * differ (request_flow.py's are mis-decoded byte sequences), so a `Glyphs` value holds one
 * script's glyphs and the texts are shared.
 */
module Purpose {
  import opened Wrappers
  import opened Text
  import opened Trace
  import opened Seqs
  import opened Extract

  /** Where a rule looks for its keyword. */
  datatype Where = InUser | InSystem

  datatype PatternRule = PatternRule(keyword: string, purpose: string, where: Where)

  /** The glyph opening each label of one script. */
  datatype Glyphs = Glyphs(
    quota: string, warmup: string, title: string, detectTopic: string, topicJson: string,
    summarize: string, sonnetWarmup: string, haikuUnknown: string,
    sonnetCalling: string, sonnetTurn: string, unknownModel: string)

  /** request_flow.py's glyphs, as that file's text has them. */
  const RequestFlowGlyphs := Glyphs(
    "\U{F0}\U{178}\U{2019}\U{B0}", "\U{F0}\U{178}\U{201D}\U{A5}", "\U{F0}\U{178}\U{201C}",
    "\U{F0}\U{178}\U{201D}", "\U{F0}\U{178}\U{201D}", "\U{F0}\U{178}\U{201C}\U{2039}",
    "\U{F0}\U{178}\U{201D}\U{A5}", "\U{E2}\U{161}\U{A1}",
    "\U{F0}\U{178}\U{203A}\U{A0}\U{EF}\U{B8}", "\U{F0}\U{178}\U{2019}\U{AC}", "\U{E2}\U{201C}")

  /** detailed_flow.py's glyphs. */
  const DetailedFlowGlyphs := Glyphs(
    "\U{1F4B0}", "\U{1F525}", "\U{1F4DD}", "\U{1F50D}", "\U{1F50D}", "\U{1F4CB}",
    "\U{1F525}", "\U{26A1}", "\U{1F6E0}\U{FE0F}", "\U{1F4AC}", "\U{2753}")

  /** The phrase request_flow.py looks for in a label to start a new turn. */
  const DetectPhrase := "Detect if new topic"

  const QuotaText := " Check quota limits"
  const WarmupText := " Model warmup"
  const TitleText := " Generate conversation title"
  const DetectText := " " + DetectPhrase
  const TopicJsonText := " Topic detection (JSON)"
  const SummarizeText := " Summarize tool output"
  const SonnetWarmupText := " Model warmup (Sonnet)"
  const HaikuUnknownText := " Haiku processing (unknown pattern)"
  const SonnetCallingText := "  Sonnet calling: "
  const SonnetTurnText := " Sonnet turn (msgs:"
  const UnknownModelText := " Unknown model: "

  const QuotaKey := "quota"
  const WarmupKey := "warmup"
  const TitleKey := "title for the following conversation"
  const TopicKey := "new conversation topic"
  const TopicJsonKey := "isnewtopic"
  const CommandKey := "command:"

  /** The Haiku rules, most specific first. */
  function HaikuRules(g: Glyphs): seq<PatternRule> {
    [ PatternRule(QuotaKey, g.quota + QuotaText, InUser),
      PatternRule(WarmupKey, g.warmup + WarmupText, InUser),
      PatternRule(TitleKey, g.title + TitleText, InUser),
      PatternRule(TopicKey, g.detectTopic + DetectText, InSystem),
      PatternRule(TopicJsonKey, g.topicJson + TopicJsonText, InSystem),
      PatternRule(CommandKey, g.summarize + SummarizeText, InUser) ]
  }

  /** Position of the topic-detection rule in `HaikuRules`. */
  const DetectTopicRule := 3

  function SonnetRules(g: Glyphs): seq<PatternRule> {
    [ PatternRule(WarmupKey, g.sonnetWarmup + SonnetWarmupText, InUser) ]
  }

  function HaikuUnknownLabel(g: Glyphs): string {
    g.haikuUnknown + HaikuUnknownText
  }

  /** Every label a Haiku model can receive: the rule labels in order, the fallback last. */
  function HaikuOutcomes(g: Glyphs): seq<string> {
    var rules := HaikuRules(g);
    [rules[0].purpose, rules[1].purpose, rules[2].purpose, rules[3].purpose,
     rules[4].purpose, rules[5].purpose, HaikuUnknownLabel(g)]
  }

  /** The glyphs and texts of the Haiku outcomes, position by position. */
  function HaikuGlyphs(g: Glyphs): seq<string> {
    [g.quota, g.warmup, g.title, g.detectTopic, g.topicJson, g.summarize, g.haikuUnknown]
  }

  const HaikuTexts := [QuotaText, WarmupText, TitleText, DetectText, TopicJsonText, SummarizeText, HaikuUnknownText]

  function SonnetCallingLabel(g: Glyphs, calls: seq<string>): string {
    g.sonnetCalling + SonnetCallingText + Join(", ", calls)
  }

  /** The generic Sonnet label: message count and whether a system prompt is present. */
  function SonnetTurnLabel(g: Glyphs, body: Body): string {
    g.sonnetTurn + SonnetTurnTail(|body.messages|, Truthy(body.system))
  }

  function SonnetTurnTail(msgCount: nat, hasSystem: bool): string {
    SonnetTurnText + NatToString(msgCount) + ", sys:" + PyBool(hasSystem) + ")"
  }

  function UnknownModelLabel(g: Glyphs, model: string): string {
    g.unknownModel + UnknownModelText + model
  }

  /** The lower-cased system prompt: a string as is, the text blocks of an array joined by
      single spaces (other blocks skipped), and nothing for any other value. */
  function SystemText(c: Content): (r: string)
    ensures forall i :: 0 <= i < |r| ==> !('A' <= r[i] <= 'Z')
    ensures c.Str? ==> r == Lower(c.s)
    ensures c.Blocks? ==> r == Lower(Join(" ", FilterMap(TextOf, c.blocks)))
    ensures c.NoContent? ==> r == ""
  {
    match c
    case Str(s) => Lower(s)
    case Blocks(bs) =>
      BlockTextsAreTexts(bs);
      Lower(Join(" ", BlockTexts(bs)))
    case NoContent => ""
  }

  predicate Fires(rule: PatternRule, userMsg: string, systemText: string) {
    match rule.where
    case InUser => Contains(Lower(userMsg), rule.keyword)
    case InSystem => Contains(systemText, rule.keyword)
  }

  /** The first rule that fires, if any. */
  function Firing(rules: seq<PatternRule>, userMsg: string, systemText: string): (r: Option<nat>)
    ensures r.Some? ==> r.value < |rules| && Fires(rules[r.value], userMsg, systemText)
                        && forall j :: 0 <= j < r.value ==> !Fires(rules[j], userMsg, systemText)
    ensures r.None? <==> forall j :: 0 <= j < |rules| ==> !Fires(rules[j], userMsg, systemText)
  {
    FirstIndex((rule: PatternRule) => Fires(rule, userMsg, systemText), rules)
  }

  /** `body.get('model', 'unknown')`. */
  function ModelName(body: Body): string {
    body.model.GetOr("unknown")
  }

  predicate IsHaiku(body: Body) {
    Contains(Lower(ModelName(body)), "haiku")
  }

  predicate IsSonnet(body: Body) {
    Contains(Lower(ModelName(body)), "sonnet")
  }

  /** The Haiku rule the user text or the system prompt triggers first. */
  function HaikuFiring(g: Glyphs, body: Body, userMsg: string): Option<nat> {
    Firing(HaikuRules(g), userMsg, SystemText(body.system))
  }

  function SonnetFiring(g: Glyphs, body: Body, userMsg: string): Option<nat> {
    Firing(SonnetRules(g), userMsg, SystemText(body.system))
  }

  /**
   * `classify_message_purpose`. A model whose lower-cased name mentions "haiku" gets one of
   * the Haiku outcomes whatever else it mentions; otherwise a "sonnet" model gets the Sonnet
   * warmup label or a label opening with the calling or turn text; any other model gets a
   * label ending in its name. The label is never empty.
   */
  function ClassifyMessagePurpose(g: Glyphs, body: Body, userMsg: string, resp: Option<Response>): (r: string)
    requires ResponseWellTyped(resp)
    ensures |r| > 0
    ensures IsHaiku(body) ==> r in HaikuOutcomes(g)
    ensures !IsHaiku(body) && IsSonnet(body) ==>
              || r == SonnetRules(g)[0].purpose
              || StartsWith(r, g.sonnetCalling + SonnetCallingText)
              || StartsWith(r, g.sonnetTurn + SonnetTurnText)
    ensures !IsHaiku(body) && !IsSonnet(body) ==>
              StartsWith(r, g.unknownModel + UnknownModelText) && EndsWith(r, ModelName(body))
  {
    if IsHaiku(body) then
      match HaikuFiring(g, body, userMsg)
      case Some(i) =>
        assert HaikuRules(g)[i].purpose == HaikuOutcomes(g)[i];
        HaikuRules(g)[i].purpose
      case None => HaikuUnknownLabel(g)
    else if IsSonnet(body) then
      match SonnetFiring(g, body, userMsg)
      case Some(i) => SonnetRules(g)[i].purpose
      case None =>
        var calls := ExtractToolCalls(resp);
        if |calls| > 0 then SonnetCallingLabel(g, calls) else SonnetTurnLabel(g, body)
    else
      UnknownModelLabel(g, ModelName(body))
  }

  // ---------------------------------------------------------------- facts about the labels

  /** A glyph holds no ASCII character, so no letter of a keyword or phrase. */
  predicate NonAscii(s: string) {
    forall i :: 0 <= i < |s| ==> s[i] >= '\U{80}'
  }

  predicate GlyphsWellFormed(g: Glyphs) {
    && NonAscii(g.quota) && NonAscii(g.warmup) && NonAscii(g.title) && NonAscii(g.detectTopic)
    && NonAscii(g.topicJson) && NonAscii(g.summarize) && NonAscii(g.sonnetWarmup)
    && NonAscii(g.haikuUnknown) && NonAscii(g.sonnetCalling) && NonAscii(g.sonnetTurn)
    && NonAscii(g.unknownModel)
  }

  lemma RequestFlowGlyphsWellFormed()
    ensures GlyphsWellFormed(RequestFlowGlyphs)
  {
  }

  lemma DetailedFlowGlyphsWellFormed()
    ensures GlyphsWellFormed(DetailedFlowGlyphs)
  {
  }

  /** Only the topic-detection text holds a capital D. */
  lemma TextsLackCapitalD()
    ensures Lacks(QuotaText, 'D') && Lacks(WarmupText, 'D') && Lacks(TitleText, 'D')
    ensures Lacks(TopicJsonText, 'D') && Lacks(SummarizeText, 'D')
  {
  }

  lemma MoreTextsLackCapitalD()
    ensures Lacks(SonnetWarmupText, 'D') && Lacks(HaikuUnknownText, 'D') && Lacks(SonnetTurnText, 'D')
  {
  }

  /** No text but the two fallbacks holds a `k` in either case, except the quota text,
      which holds no `w`. */
  lemma TextsLackK()
    ensures Lacks(WarmupText, 'k') && Lacks(WarmupText, 'K') && Lacks(TitleText, 'k') && Lacks(TitleText, 'K')
    ensures Lacks(DetectText, 'k') && Lacks(DetectText, 'K') && Lacks(TopicJsonText, 'k') && Lacks(TopicJsonText, 'K')
  {
  }

  lemma MoreTextsLackK()
    ensures Lacks(SummarizeText, 'k') && Lacks(SummarizeText, 'K') && Lacks(SonnetWarmupText, 'k')
    ensures Lacks(SonnetWarmupText, 'K') && Lacks(SonnetTurnText, 'k') && Lacks(SonnetTurnText, 'K')
    ensures Lacks(QuotaText, 'w') && Lacks(QuotaText, 'W')
  {
  }

  /** A label made of a glyph and a text lacking an ASCII character lacks it too. */
  lemma GlyphTextLacks(glyph: string, text: string, c: char)
    requires NonAscii(glyph) && c < '\U{80}' && Lacks(text, c)
    ensures Lacks(glyph + text, c)
  {
  }

  /** Lower-casing such a label cannot bring in a lower-case letter the text lacks in
      either case. */
  lemma GlyphTextLowerLacks(glyph: string, text: string, c: char)
    requires NonAscii(glyph) && 'a' <= c <= 'z'
    requires Lacks(text, c) && Lacks(text, (c as int - 32) as char)
    ensures Lacks(Lower(glyph + text), c)
  {
    LowerConcat(glyph, text);
    LowerLacks(text, c);
  }

  /** Every Haiku outcome is its glyph followed by its text. */
  lemma HaikuOutcomeParts(g: Glyphs, k: nat)
    requires k < 7
    ensures HaikuOutcomes(g)[k] == HaikuGlyphs(g)[k] + HaikuTexts[k]
  {
  }

  /** The Haiku label at position `k`: the first rule to fire, or the fallback. */
  lemma HaikuPosition(g: Glyphs, body: Body, userMsg: string, resp: Option<Response>) returns (k: nat)
    requires ResponseWellTyped(resp)
    requires IsHaiku(body)
    ensures k < 7
    ensures ClassifyMessagePurpose(g, body, userMsg, resp) == HaikuGlyphs(g)[k] + HaikuTexts[k]
    ensures HaikuFiring(g, body, userMsg).Some? ==> k == HaikuFiring(g, body, userMsg).value
    ensures HaikuFiring(g, body, userMsg).None? ==> k == 6
  {
    var f := HaikuFiring(g, body, userMsg);
    k := if f.Some? then f.value else 6;
    HaikuOutcomeParts(g, k);
  }

  /**
   * For a Haiku model the label holds the turn phrase exactly when the topic-detection rule
   * is the first to fire: no other Haiku label, the `isnewtopic` one included, starts a turn.
   */
  lemma HaikuTurnMarkerIff(g: Glyphs, body: Body, userMsg: string, resp: Option<Response>)
    requires ResponseWellTyped(resp)
    requires GlyphsWellFormed(g)
    requires IsHaiku(body)
    ensures Contains(ClassifyMessagePurpose(g, body, userMsg, resp), DetectPhrase)
            <==> HaikuFiring(g, body, userMsg) == Some(DetectTopicRule)
  {
    var r := ClassifyMessagePurpose(g, body, userMsg, resp);
    var k := HaikuPosition(g, body, userMsg, resp);
    if k == DetectTopicRule {
      assert r == (g.detectTopic + " ") + DetectPhrase;
      ContainsSuffix(g.detectTopic + " ", DetectPhrase);
    } else {
      TextsLackCapitalD();
      MoreTextsLackCapitalD();
      GlyphTextLacks(HaikuGlyphs(g)[k], HaikuTexts[k], 'D');
      LacksNotContained(r, DetectPhrase, 0);
    }
  }

  /** request_flow.py's test for a label that goes on the unknown-pattern list. */
  predicate ReportsUnknown(purpose: string) {
    Contains(Lower(purpose), "unknown pattern") || Contains(Lower(purpose), "unknown model")
  }

  /** A label whose lower-cased form lacks `k` or `w` is never reported as unknown. */
  lemma NotReportedUnknown(s: string)
    requires Lacks(Lower(s), 'k') || Lacks(Lower(s), 'w')
    ensures !ReportsUnknown(s)
  {
    if Lacks(Lower(s), 'k') {
      LacksNotContained(Lower(s), "unknown pattern", 2);
      LacksNotContained(Lower(s), "unknown model", 2);
    } else {
      LacksNotContained(Lower(s), "unknown pattern", 5);
      LacksNotContained(Lower(s), "unknown model", 5);
    }
  }

  /** A word occurs lower-cased in the lower-cased text of any string holding it. */
  lemma LowerKeepsWord(s: string, pre: string, w: string, post: string)
    requires s == pre + w + post
    ensures Contains(Lower(s), Lower(w))
  {
    LowerConcat(pre + w, post);
    LowerConcat(pre, w);
    ContainsSuffix(Lower(pre), Lower(w));
    ContainsConcat(Lower(pre) + Lower(w), Lower(post), Lower(w));
  }

  /** Lower-casing leaves a text without capitals unchanged. */
  lemma LowerNoCapitals(s: string)
    requires forall i :: 0 <= i < |s| ==> !('A' <= s[i] <= 'Z')
    ensures Lower(s) == s
  {
  }

  lemma LowerUnknownModel(w: string)
    requires w == "Unknown model"
    ensures Lower(w) == "unknown model"
  {
    assert Lower(w)[0] == 'u';
    assert Lower(w)[1..] == w[1..] by {
      LowerConcat(w[..1], w[1..]);
      assert w == w[..1] + w[1..];
      LowerNoCapitals(w[1..]);
    }
  }

  lemma HaikuFallbackReported(g: Glyphs, w: string)
    requires w == "unknown pattern"
    ensures ReportsUnknown(HaikuUnknownLabel(g))
  {
    var r := HaikuUnknownLabel(g);
    assert r == (g.haikuUnknown + " Haiku processing (") + w + ")";
    LowerKeepsWord(r, g.haikuUnknown + " Haiku processing (", w, ")");
    LowerNoCapitals(w);
  }

  lemma HaikuRuleLabelNotReported(g: Glyphs, k: nat)
    requires GlyphsWellFormed(g)
    requires k < 6
    ensures !ReportsUnknown(HaikuGlyphs(g)[k] + HaikuTexts[k])
  {
    if k == 0 {
      MoreTextsLackK();
      GlyphTextLowerLacks(g.quota, QuotaText, 'w');
    } else {
      TextsLackK();
      MoreTextsLackK();
      GlyphTextLowerLacks(HaikuGlyphs(g)[k], HaikuTexts[k], 'k');
    }
    NotReportedUnknown(HaikuGlyphs(g)[k] + HaikuTexts[k]);
  }

  /** For a Haiku model the label is reported as unknown exactly when no rule fires. */
  lemma HaikuReportsUnknownIff(g: Glyphs, body: Body, userMsg: string, resp: Option<Response>)
    requires ResponseWellTyped(resp)
    requires GlyphsWellFormed(g)
    requires IsHaiku(body)
    ensures ReportsUnknown(ClassifyMessagePurpose(g, body, userMsg, resp))
            <==> HaikuFiring(g, body, userMsg).None?
  {
    var k := HaikuPosition(g, body, userMsg, resp);
    if k == 6 {
      HaikuFallbackReported(g, "unknown pattern");
    } else {
      HaikuRuleLabelNotReported(g, k);
    }
  }

  /** A model that is neither Haiku nor Sonnet is always reported as unknown. */
  lemma UnknownModelReported(g: Glyphs, body: Body, userMsg: string, resp: Option<Response>)
    requires ResponseWellTyped(resp)
    requires !IsHaiku(body) && !IsSonnet(body)
    ensures ReportsUnknown(ClassifyMessagePurpose(g, body, userMsg, resp))
  {
    var r := ClassifyMessagePurpose(g, body, userMsg, resp);
    assert r == (g.unknownModel + " ") + "Unknown model" + (": " + ModelName(body));
    LowerKeepsWord(r, g.unknownModel + " ", "Unknown model", ": " + ModelName(body));
    LowerUnknownModel("Unknown model");
  }

  /** The part of the generic Sonnet label after its glyph holds no capital D and no `k`. */
  lemma TurnTailLacks(n: nat, b: bool, c: char)
    requires c == 'D' || c == 'k' || c == 'K'
    ensures Lacks(SonnetTurnTail(n, b), c)
  {
    MoreTextsLackCapitalD();
    MoreTextsLackK();
    var digits := NatToString(n);
    assert Lacks(digits, c);
    assert Lacks(PyBool(b), c);
  }

  /** A label whose text lacks a capital D and a `k` in either case neither starts a turn
      nor is reported as unknown. */
  lemma QuietLabel(glyph: string, text: string)
    requires NonAscii(glyph)
    requires Lacks(text, 'D') && Lacks(text, 'k') && Lacks(text, 'K')
    ensures !Contains(glyph + text, DetectPhrase)
    ensures !ReportsUnknown(glyph + text)
  {
    GlyphTextLacks(glyph, text, 'D');
    LacksNotContained(glyph + text, DetectPhrase, 0);
    GlyphTextLowerLacks(glyph, text, 'k');
    NotReportedUnknown(glyph + text);
  }

  /**
   * A Sonnet label that names no tool call (the warmup label or the generic turn label)
   * neither starts a turn nor is reported as unknown.
   */
  lemma SonnetQuietLabels(g: Glyphs, body: Body, userMsg: string, resp: Option<Response>)
    requires ResponseWellTyped(resp)
    requires GlyphsWellFormed(g)
    requires !IsHaiku(body) && IsSonnet(body)
    requires SonnetFiring(g, body, userMsg).Some? || ExtractToolCalls(resp) == []
    ensures !Contains(ClassifyMessagePurpose(g, body, userMsg, resp), DetectPhrase)
    ensures !ReportsUnknown(ClassifyMessagePurpose(g, body, userMsg, resp))
  {
    if SonnetFiring(g, body, userMsg).Some? {
      MoreTextsLackCapitalD();
      MoreTextsLackK();
      QuietLabel(g.sonnetWarmup, SonnetWarmupText);
    } else {
      var n, b := |body.messages|, Truthy(body.system);
      TurnTailLacks(n, b, 'D');
      TurnTailLacks(n, b, 'k');
      TurnTailLacks(n, b, 'K');
      QuietLabel(g.sonnetTurn, SonnetTurnTail(n, b));
    }
  }

  /** Haiku rules are tried in order: a user text mentioning "quota" gets the quota label
      whatever other keywords it or the system prompt holds. */
  lemma QuotaTakesPrecedence(g: Glyphs, body: Body, userMsg: string, resp: Option<Response>)
    requires ResponseWellTyped(resp)
    requires IsHaiku(body)
    requires Contains(Lower(userMsg), "quota")
    ensures ClassifyMessagePurpose(g, body, userMsg, resp) == g.quota + QuotaText
  {
    assert Fires(HaikuRules(g)[0], userMsg, SystemText(body.system));
  }

  /** A Sonnet reply calling Read then Bash is labelled with both names in call order. */
  lemma SonnetCallingReadBash(g: Glyphs, body: Body, userMsg: string, resp: Option<Response>)
    requires !IsHaiku(body) && IsSonnet(body)
    requires !Contains(Lower(userMsg), "warmup")
    requires resp == Some(Response([ToolUse(Some("Read")), ToolUse(Some("Bash"))]))
    ensures ResponseWellTyped(resp)
    ensures ClassifyMessagePurpose(g, body, userMsg, resp) == g.sonnetCalling + "  Sonnet calling: Read, Bash"
  {
    ReadThenBash();
    assert SonnetFiring(g, body, userMsg).None? by {
      assert !Fires(SonnetRules(g)[0], userMsg, SystemText(body.system));
    }
    JoinTwo(", ", "Read", "Bash");
  }

  /** For a Sonnet model, "warmup" in the user text decides the label before any tool call
      in the response is looked at. */
  lemma SonnetWarmupWins(g: Glyphs, body: Body, userMsg: string, resp: Option<Response>)
    requires ResponseWellTyped(resp)
    requires !IsHaiku(body) && IsSonnet(body)
    requires Contains(Lower(userMsg), WarmupKey)
    ensures ClassifyMessagePurpose(g, body, userMsg, resp) == g.sonnetWarmup + SonnetWarmupText
  {
    assert Fires(SonnetRules(g)[0], userMsg, SystemText(body.system));
  }

  /** A Sonnet request without "warmup" whose response calls tools is labelled with every
      called tool's name, in call order, separated by ", ". */
  lemma SonnetCallingLists(g: Glyphs, body: Body, userMsg: string, resp: Option<Response>)
    requires ResponseWellTyped(resp)
    requires !IsHaiku(body) && IsSonnet(body)
    requires !Contains(Lower(userMsg), WarmupKey)
    requires ExtractToolCalls(resp) != []
    ensures ClassifyMessagePurpose(g, body, userMsg, resp)
            == g.sonnetCalling + "  Sonnet calling: " + Join(", ", ExtractToolCalls(resp))
  {
    assert !Fires(SonnetRules(g)[0], userMsg, SystemText(body.system));
  }

  /** A Sonnet request that neither warms up nor calls a tool is labelled with its message
      count and whether it carries a system prompt. */
  lemma SonnetTurnFormat(g: Glyphs, body: Body, userMsg: string, resp: Option<Response>)
    requires ResponseWellTyped(resp)
    requires !IsHaiku(body) && IsSonnet(body)
    requires !Contains(Lower(userMsg), "warmup")
    requires ExtractToolCalls(resp) == []
    ensures ClassifyMessagePurpose(g, body, userMsg, resp)
            == g.sonnetTurn + (" Sonnet turn (msgs:" + NatToString(|body.messages|) + ", sys:"
                               + (if Truthy(body.system) then "True" else "False") + ")")
  {
    assert !Fires(SonnetRules(g)[0], userMsg, SystemText(body.system));
  }
}

=== FILE: report.dfy ===
/**
 * The report layout request_flow.py and detailed_flow.py share: the numbered header line
 * of every entry, its indented detail lines, the response and tool-call lines, and the
 * closing summary with its unknown-endpoint and unknown-pattern sections.
 *
 * A report is modelled as the list of strings the scripts append before joining them with
 * newlines; a detail string may itself hold newlines.
 */
module Report {
  import opened Wrappers
  import opened Text
  import opened Seqs
  import opened Format
  import opened Trace
  import opened Purpose

  /** Python `"=" * 120`. */
  const RuleLine := Repeat("=", 120)

  /** Python `f"{s:>w}"` for a string: right-justified in `w` columns. */
  function PadLeft(s: string, w: nat): (r: string)
    ensures EndsWith(r, s)
    ensures |r| == if |s| < w then w else |s|
    ensures forall i :: 0 <= i < |r| - |s| ==> r[i] == ' '
  {
    if |s| < w then Spaces(w - |s|) + s else s
  }

  /** Python `f"{s:10s}"`: left-justified in `w` columns. */
  function PadRight(s: string, w: nat): (r: string)
    ensures StartsWith(r, s)
    ensures |r| == if |s| < w then w else |s|
    ensures forall i :: |s| <= i < |r| ==> r[i] == ' '
  {
    if |s| < w then s + Spaces(w - |s|) else s
  }

  // ---------------------------------------------------------------- per-entry lines

  const HeaderLead := "  ["

  /** `f"  [{idx:2d}] {req_type:10s} | {purpose}"`. */
  function HeaderLine(idx: nat, tag: string, purpose: string): (r: string)
    ensures StartsWith(r, HeaderLead)
    ensures EndsWith(r, " | " + purpose)
  {
    var r := HeaderLead + PadLeft(NatToString(idx), 2) + "] " + PadRight(tag, 10) + " | " + purpose;
    assert r == (HeaderLead + PadLeft(NatToString(idx), 2) + "] " + PadRight(tag, 10)) + (" | " + purpose);
    r
  }

  /** The mark by which an entry's header is told apart from every other report line. */
  predicate IsHeaderLine(l: string) {
    StartsWith(l, HeaderLead)
  }

  const DetailIndent := "       "

  function DetailLine(d: string): string {
    DetailIndent + d
  }

  /** A line whose first character is ASCII, or the empty line. */
  predicate AsciiLead(l: string) {
    |l| == 0 || l[0] < '\U{80}'
  }

  /** The details of an entry, each indented by seven spaces under its header. */
  function DetailLines(details: seq<string>): (r: seq<string>)
    ensures |r| == |details|
    ensures forall i :: 0 <= i < |r| ==> StartsWith(r[i], DetailIndent) && EndsWith(r[i], details[i])
    ensures forall i :: 0 <= i < |r| ==> !IsHeaderLine(r[i]) && AsciiLead(r[i])
  {
    var r := Map(DetailLine, details);
    assert forall i :: 0 <= i < |r| ==> r[i][0] == ' ' && r[i][2] == ' ';
    assert HeaderLead[2] == '[';
    r
  }

  /** The lines one entry adds to a report: an optional banner, the header, the indented
      details and a blank line. */
  function EntryBlock(banner: seq<string>, header: string, details: seq<string>): seq<string> {
    banner + [header] + DetailLines(details) + [""]
  }

  /** An entry's lines open with its banner. */
  lemma EntryBlockBanner(banner: seq<string>, header: string, details: seq<string>)
    ensures |EntryBlock(banner, header, details)| > |banner|
    ensures forall i :: 0 <= i < |banner| ==> EntryBlock(banner, header, details)[i] == banner[i]
  {
  }

  /** An entry without details prints its banner, its header and a blank line. */
  lemma EntryBlockNoDetails(banner: seq<string>, header: string)
    ensures EntryBlock(banner, header, []) == banner + [header, ""]
  {
    assert DetailLines([]) == [];
  }

  /** Of the lines an entry adds, only its header is a header line. */
  lemma EntryBlockHeaders(banner: seq<string>, header: string, details: seq<string>)
    requires IsHeaderLine(header)
    requires forall i :: 0 <= i < |banner| ==> !IsHeaderLine(banner[i])
    ensures Filter(IsHeaderLine, EntryBlock(banner, header, details)) == [header]
  {
    var d := DetailLines(details);
    NoneKept(IsHeaderLine, banner);
    NoneKept(IsHeaderLine, d);
    NoneKept(IsHeaderLine, [""]);
    FilterConcat(IsHeaderLine, banner, [header]);
    FilterConcat(IsHeaderLine, banner + [header], d);
    FilterConcat(IsHeaderLine, banner + [header] + d, [""]);
    assert [header][1..] == [];
  }

  lemma {:induction false} NoneKept(keep: string -> bool, s: seq<string>)
    requires forall i :: 0 <= i < |s| ==> !keep(s[i])
    ensures Filter(keep, s) == []
  {
    if |s| > 0 {
      NoneKept(keep, s[1..]);
    }
  }

  /** Every line an entry adds starts with an ASCII character or is empty. */
  lemma EntryBlockAsciiLead(banner: seq<string>, header: string, details: seq<string>)
    requires forall i :: 0 <= i < |banner| ==> AsciiLead(banner[i])
    requires AsciiLead(header)
    ensures forall i :: 0 <= i < |EntryBlock(banner, header, details)| ==> AsciiLead(EntryBlock(banner, header, details)[i])
  {
  }

  /** The first two details of a message entry: its model, then its message count and whether
      it carries a system prompt and tools. */
  function BodyLines(body: Body): seq<string> {
    [ "Model: " + ModelName(body),
      "Msgs: " + NatToString(|body.messages|) + ", System: " + PyBool(Truthy(body.system))
      + ", Tools: " + PyBool(|body.tools| > 0) ]
  }

  /** The "Tools called" line, present when the response called any tool. */
  function ToolsLines(glyph: string, calls: seq<string>): (r: seq<string>)
    ensures |r| <= 1
    ensures r == [] <==> calls == []
    ensures r != [] ==> r[0] == glyph + " Tools called: " + Join(", ", calls)
    ensures r != [] ==> StartsWith(r[0], glyph + " Tools called: ") && EndsWith(r[0], calls[|calls| - 1])
  {
    if |calls| == 0 then []
    else
      var prefix := glyph + " Tools called: ";
      if |calls| == 1 then
        [prefix + calls[0]]
      else
        var init := calls[..|calls| - 1];
        assert calls == init + [calls[|calls| - 1]];
        JoinAppend(", ", init, calls[|calls| - 1]);
        assert prefix + Join(", ", calls) == (prefix + Join(", ", init) + ", ") + calls[|calls| - 1];
        [prefix + Join(", ", calls)]
  }

  /** The "Response" line: the whole text below 150 characters, else its first 100 followed
      by the truncation marker; nothing for an empty text. */
  function ResponseLines(glyph: string, text: string): (r: seq<string>)
    ensures |r| <= 1
    ensures r == [] <==> text == []
    ensures r != [] ==> StartsWith(r[0], glyph + " Response: ")
    ensures 0 < |text| < 150 ==> r[0][|glyph + " Response: "|..] == text
    ensures |text| >= 150 ==>
              var shown := r[0][|glyph + " Response: "|..];
              |shown| == 100 + |TruncationMarker(|text|)|
              && StartsWith(text, shown[..100])
              && EndsWith(shown, TruncationMarker(|text|))
  {
    var prefix := glyph + " Response: ";
    if |text| == 0 then []
    else if |text| < 150 then
      assert (prefix + text)[|prefix|..] == text;
      [prefix + text]
    else
      var shown := Take(text, 100) + TruncationMarker(|text|);
      assert (prefix + shown)[|prefix|..] == shown;
      assert shown[..100] == Take(text, 100);
      [prefix + shown]
  }

  // ---------------------------------------------------------------- summary

  /** The two glyphs of a summary: the warning sign of its unknown sections and the mark
      of its all-clear line. */
  datatype Notices = Notices(warning: string, allClear: string)

  const EndpointsHeading := "  UNKNOWN ENDPOINTS DETECTED:"
  const MessagesHeading := "  UNKNOWN MESSAGE PATTERNS DETECTED:"
  const NoteIndent := "   "
  const EndpointsNote := NoteIndent + "(These are new and not yet categorized)"
  const MessagesNote := NoteIndent + "(These may be new features or usage patterns)"

  function AllClearLine(n: Notices): string {
    n.allClear + " All request types recognized"
  }

  /** Both marks open with a non-ASCII character, and neither warning heading spells the all-clear
      line. */
  predicate NoticesWellFormed(n: Notices) {
    && |n.allClear| > 0 && n.allClear[0] >= '\U{80}'
    && |n.warning| > 0 && n.warning[0] >= '\U{80}'
    && n.warning + EndpointsHeading != AllClearLine(n)
    && n.warning + MessagesHeading != AllClearLine(n)
  }

  function EndpointLine(u: (string, string)): string {
    "   - " + u.0 + " " + u.1
  }

  function MessageLine(u: (string, string)): string {
    "   - " + u.0 + ": " + u.1 + "..."
  }

  /**
   * The distinct unknown endpoints in the order `set()` yields them. That order is not
   * determined by the program, so a listing is any duplicate-free sequence holding exactly
   * the recorded pairs.
   */
  ghost predicate IsListingOf(listing: seq<(string, string)>, found: seq<(string, string)>) {
    && (forall i, j :: 0 <= i < j < |listing| ==> listing[i] != listing[j])
    && (forall x :: x in listing ==> x in found)
    && (forall x :: x in found ==> x in listing)
  }

  function EndpointSection(n: Notices, listing: seq<(string, string)>): seq<string> {
    if |listing| == 0 then []
    else ["", n.warning + EndpointsHeading] + Map(EndpointLine, listing) + [EndpointsNote]
  }

  function MessageSection(n: Notices, messages: seq<(string, string)>): seq<string> {
    if |messages| == 0 then []
    else ["", n.warning + MessagesHeading] + Map(MessageLine, messages) + [MessagesNote]
  }

  function AllClearSection(n: Notices, clear: bool): seq<string> {
    if clear then ["", AllClearLine(n)] else []
  }

  function SummaryHead(total: nat, counterLine: string): seq<string> {
    [RuleLine, "ANALYSIS SUMMARY", RuleLine, "Total requests: " + NatToString(total), counterLine]
  }

  /** The note both scripts print under their title. It is split after a short head: the proof
      that the line is plain reads its first characters, which the verifier sees in a short
      literal but not in a long one. */
  const NoteLine := "NOTE:" + " This analysis auto-detects request types and handles unknowns gracefully."

  const SummaryFoot := ["", RuleLine, "END OF FLOW", RuleLine]

  /**
   * The closing summary: the request total and the script's own counter line, one line per
   * distinct unknown endpoint, one line per unknown message in the order met, and the
   * all-clear line exactly when nothing unknown was met.
   */
  function Summary(n: Notices, total: nat, counterLine: string, endpoints: seq<(string, string)>,
                   listing: seq<(string, string)>, messages: seq<(string, string)>): (r: seq<string>)
    requires NoticesWellFormed(n) && Plain(counterLine)
    requires IsListingOf(listing, endpoints)
    ensures |r| > 4 && r[3] == "Total requests: " + NatToString(total) && r[4] == counterLine
    ensures forall x :: x in endpoints ==> EndpointLine(x) in r
    ensures forall i :: 0 <= i < |messages| ==> MessageLine(messages[i]) in r
    ensures listing != [] ==> 7 + |listing| <= |r| && r[7..7 + |listing|] == Map(EndpointLine, listing)
    ensures var k := 5 + |EndpointSection(n, listing)| + (if messages == [] then 0 else 2);
            k + |messages| <= |r| && r[k..k + |messages|] == Map(MessageLine, messages)
    ensures IsInfix(Map(MessageLine, messages), r)
    ensures AllClearLine(n) in r <==> endpoints == [] && messages == []
    ensures forall i :: 0 <= i < |r| ==> !IsHeaderLine(r[i])
  {
    var clear := endpoints == [] && messages == [];
    var r := SummaryHead(total, counterLine) + EndpointSection(n, listing) + MessageSection(n, messages)
             + AllClearSection(n, clear) + SummaryFoot;
    SummaryInOrder(n, SummaryHead(total, counterLine), listing, messages, AllClearSection(n, clear) + SummaryFoot, r);
    SummaryListsAll(n, total, counterLine, endpoints, listing, messages, clear, r);
    SummaryAllClear(n, total, counterLine, endpoints, listing, messages, clear, r);
    r
  }

  /** The endpoint lines follow the listing, and the message lines follow the unknown
      messages one for one, in order and with their repeats. */
  lemma SummaryInOrder(n: Notices, head: seq<string>, listing: seq<(string, string)>,
                       messages: seq<(string, string)>, rest: seq<string>, r: seq<string>)
    requires |head| == 5
    requires r == head + EndpointSection(n, listing) + MessageSection(n, messages) + rest
    ensures listing != [] ==> 7 + |listing| <= |r| && r[7..7 + |listing|] == Map(EndpointLine, listing)
    ensures var k := 5 + |EndpointSection(n, listing)| + (if messages == [] then 0 else 2);
            k + |messages| <= |r| && r[k..k + |messages|] == Map(MessageLine, messages)
    ensures IsInfix(Map(MessageLine, messages), r)
  {
    var es, ms := EndpointSection(n, listing), MessageSection(n, messages);
    if listing != [] {
      SectionSlice(head, es, ms + rest, Map(EndpointLine, listing));
    }
    var k := 5 + |es| + (if messages == [] then 0 else 2);
    if messages != [] {
      SectionSlice(head + es, ms, rest, Map(MessageLine, messages));
    }
    assert RunAt(Map(MessageLine, messages), r, k);
  }

  /** A section whose lines after its two opening lines are `items`, placed between `before`
      and `after`, shows `items` two lines after its start. */
  lemma SectionSlice(before: seq<string>, section: seq<string>, after: seq<string>, items: seq<string>)
    requires 2 + |items| <= |section| && section[2..2 + |items|] == items
    ensures (before + section + after)[|before| + 2..|before| + 2 + |items|] == items
  {
    assert (before + section + after)[|before| + 2..|before| + 2 + |items|] == section[2..2 + |items|];
  }

  lemma SummaryListsAll(n: Notices, total: nat, counterLine: string, endpoints: seq<(string, string)>,
                        listing: seq<(string, string)>, messages: seq<(string, string)>, clear: bool, r: seq<string>)
    requires IsListingOf(listing, endpoints)
    requires r == SummaryHead(total, counterLine) + EndpointSection(n, listing) + MessageSection(n, messages)
                  + AllClearSection(n, clear) + SummaryFoot
    ensures forall x :: x in endpoints ==> EndpointLine(x) in r
    ensures forall i :: 0 <= i < |messages| ==> MessageLine(messages[i]) in r
  {
    var head, es, ms := SummaryHead(total, counterLine), EndpointSection(n, listing), MessageSection(n, messages);
    forall x | x in endpoints
      ensures EndpointLine(x) in r
    {
      var i :| 0 <= i < |listing| && listing[i] == x;
      assert es[2 + i] == EndpointLine(x);
      assert r[|head| + 2 + i] == es[2 + i];
    }
    forall i | 0 <= i < |messages|
      ensures MessageLine(messages[i]) in r
    {
      assert ms[2 + i] == MessageLine(messages[i]);
      assert r[|head| + |es| + 2 + i] == ms[2 + i];
    }
  }

  lemma SummaryAllClear(n: Notices, total: nat, counterLine: string, endpoints: seq<(string, string)>,
                        listing: seq<(string, string)>, messages: seq<(string, string)>, clear: bool, r: seq<string>)
    requires NoticesWellFormed(n) && Plain(counterLine)
    requires IsListingOf(listing, endpoints)
    requires clear == (endpoints == [] && messages == [])
    requires r == SummaryHead(total, counterLine) + EndpointSection(n, listing) + MessageSection(n, messages)
                  + AllClearSection(n, clear) + SummaryFoot
    ensures AllClearLine(n) in r <==> clear
    ensures forall i :: 0 <= i < |r| ==> !IsHeaderLine(r[i])
  {
    var head, es, ms := SummaryHead(total, counterLine), EndpointSection(n, listing), MessageSection(n, messages);
    if endpoints != [] {
      assert endpoints[0] in listing;
    }
    HeadQuiet(n, total, counterLine);
    EndpointSectionQuiet(n, listing);
    MessageSectionQuiet(n, messages);
    FootQuiet(n);
    assert AllClearLine(n)[0] == n.allClear[0];
    if clear {
      assert r[|head| + |es| + |ms| + 1] == AllClearLine(n);
    }
    forall i | 0 <= i < |r|
      ensures !IsHeaderLine(r[i])
    {
      assert r[i] in head || r[i] in es || r[i] in ms || r[i] in AllClearSection(n, clear) || r[i] in SummaryFoot;
    }
  }

  /** A summary line that is neither the all-clear line nor a header line. */
  predicate Quiet(n: Notices, l: string) {
    l != AllClearLine(n) && !IsHeaderLine(l)
  }

  /** Opens with an ASCII character other than a header's: its third character is not `[`. */
  predicate Plain(l: string) {
    AsciiLead(l) && (|l| < 3 || l[2] != '[')
  }

  /** A plain line is no header: a header's third character is `[`. */
  lemma PlainNotHeader(l: string)
    requires Plain(l)
    ensures !IsHeaderLine(l) && AsciiLead(l)
  {
    if |l| >= 3 {
      assert HeaderLead[2] == '[';
    }
  }

  /** A plain line is quiet: the all-clear line opens with its non-ASCII mark, a header line
      with `  [`. */
  lemma PlainQuiet(n: Notices, l: string)
    requires NoticesWellFormed(n) && Plain(l)
    ensures Quiet(n, l)
  {
    assert AllClearLine(n)[0] == n.allClear[0];
    if |l| >= 3 {
      assert l[..3] != HeaderLead by {
        assert HeaderLead[2] == '[';
      }
    }
  }

  lemma HeadQuiet(n: Notices, total: nat, counterLine: string)
    requires NoticesWellFormed(n) && Plain(counterLine)
    ensures forall l :: l in SummaryHead(total, counterLine) ==> Quiet(n, l)
  {
    var h := SummaryHead(total, counterLine);
    assert RuleLine[0] == '=' && RuleLine[2] == '=';
    forall l | l in h
      ensures Quiet(n, l)
    {
      PlainQuiet(n, l);
    }
  }

  lemma EndpointSectionQuiet(n: Notices, listing: seq<(string, string)>)
    requires NoticesWellFormed(n)
    ensures forall l :: l in EndpointSection(n, listing) ==> Quiet(n, l)
  {
    forall l | l in EndpointSection(n, listing)
      ensures Quiet(n, l)
    {
      if l == n.warning + EndpointsHeading {
        assert l[0] == n.warning[0] && HeaderLead[0] == ' ';
      } else {
        assert l == "" || l == EndpointsNote || (l[0] == ' ' && l[2] == ' ');
        PlainQuiet(n, l);
      }
    }
  }

  lemma MessageSectionQuiet(n: Notices, messages: seq<(string, string)>)
    requires NoticesWellFormed(n)
    ensures forall l :: l in MessageSection(n, messages) ==> Quiet(n, l)
  {
    forall l | l in MessageSection(n, messages)
      ensures Quiet(n, l)
    {
      if l == n.warning + MessagesHeading {
        assert l[0] == n.warning[0] && HeaderLead[0] == ' ';
      } else {
        assert l == "" || l == MessagesNote || (l[0] == ' ' && l[2] == ' ');
        PlainQuiet(n, l);
      }
    }
  }

  lemma FootQuiet(n: Notices)
    requires NoticesWellFormed(n)
    ensures forall l :: l in SummaryFoot ==> Quiet(n, l)
  {
    assert RuleLine[0] == '=' && RuleLine[2] == '=';
    forall l | l in SummaryFoot
      ensures Quiet(n, l)
    {
      PlainQuiet(n, l);
    }
  }

  // ---------------------------------------------------------------- whole report

  /** A summary counter: its caption followed by the count in decimal. */
  function CounterLine(caption: string, n: nat): (r: string)
    requires |caption| >= 3 && Plain(caption)
    ensures Plain(r)
  {
    var r := caption + NatToString(n);
    assert r[0] == caption[0] && r[2] == caption[2];
    r
  }

  /**
   * A report: the opening lines, the lines of the pass over the entries, and the summary.
   * Its header lines are those of the pass, it names the request total and the counter
   * line, lists every unknown endpoint, lists the unknown messages in the order met with
   * their repeats, and holds the all-clear line exactly when nothing unknown was met.
   */
  function Assemble(opening: seq<string>, lines: seq<string>, n: Notices, total: nat, counterLine: string,
                    endpoints: seq<(string, string)>, listing: seq<(string, string)>,
                    messages: seq<(string, string)>): (r: seq<string>)
    requires forall i :: 0 <= i < |opening| ==> Plain(opening[i])
    requires forall i :: 0 <= i < |lines| ==> AsciiLead(lines[i])
    requires NoticesWellFormed(n) && Plain(counterLine)
    requires IsListingOf(listing, endpoints)
    ensures "Total requests: " + NatToString(total) in r && counterLine in r
    ensures Filter(IsHeaderLine, r) == Filter(IsHeaderLine, lines)
    ensures forall x :: x in endpoints ==> EndpointLine(x) in r
    ensures forall x :: x in messages ==> MessageLine(x) in r
    ensures IsInfix(Map(MessageLine, messages), r)
    ensures AllClearLine(n) in r <==> endpoints == [] && messages == []
  {
    var summary := Summary(n, total, counterLine, endpoints, listing, messages);
    var r := opening + lines + summary;
    InfixExtend(Map(MessageLine, messages), summary, opening + lines, []);
    assert opening + lines + summary + [] == r;
    AssembleFacts(opening, lines, summary, AllClearLine(n));
    assert summary[3] in summary && summary[4] in summary;
    forall x | x in messages
      ensures MessageLine(x) in summary
    {
      var i :| 0 <= i < |messages| && messages[i] == x;
    }
    r
  }

  /** How the three parts of a report combine: headers come from the pass alone, and the
      non-ASCII all-clear line can only come from the summary. */
  lemma AssembleFacts(opening: seq<string>, lines: seq<string>, summary: seq<string>, clear: string)
    requires forall i :: 0 <= i < |opening| ==> Plain(opening[i])
    requires forall i :: 0 <= i < |lines| ==> AsciiLead(lines[i])
    requires forall i :: 0 <= i < |summary| ==> !IsHeaderLine(summary[i])
    requires |clear| > 0 && clear[0] >= '\U{80}'
    ensures Filter(IsHeaderLine, opening + lines + summary) == Filter(IsHeaderLine, lines)
    ensures clear in opening + lines + summary <==> clear in summary
    ensures forall x :: x in summary ==> x in opening + lines + summary
  {
    assert HeaderLead[2] == '[';
    forall i | 0 <= i < |opening|
      ensures !IsHeaderLine(opening[i])
    {
      if |opening[i]| >= 3 {
        assert opening[i][..3] != HeaderLead;
      }
    }
    NoneKept(IsHeaderLine, opening);
    NoneKept(IsHeaderLine, summary);
    FilterConcat(IsHeaderLine, opening, lines);
    FilterConcat(IsHeaderLine, opening + lines, summary);
    assert forall x :: x in opening + lines ==> x in opening || x in lines;
  }
}

=== FILE: request_flow.dfy ===
/**
 * `analyze_request_flow` of request_flow.py: one pass over the captured entries that
 * numbers every request, opens a new turn at every message whose purpose is "Detect if new
 * topic", records the unknown endpoints and unknown message patterns met on the way, and
 * closes with a summary.
 *
 * The pass is modelled as a fold over prefixes of the entry list, so that the state after
 * any prefix can be named; the lemmas below relate that state to independent descriptions
 * of the whole list.
 */
module RequestFlow {
  import opened Wrappers
  import opened Text
  import opened Trace
  import opened Seqs
  import opened Extract
  import opened Format
  import opened Endpoint
  import opened Purpose
  import opened Report

  // ---------------------------------------------------------------- glyphs of this script

  /** The box-drawing character of the turn banners, as the file's text has it. */
  const Box := "\U{E2}\U{201D}\U{20AC}"
  const BoxLine := "  " + Repeat(Box, 116)
  const InitGlyph := "\U{F0}\U{178}\U{17D}\U{AC}"
  const TurnGlyph := "\U{F0}\U{178}\U{2019}\U{AC}"
  const ToolGlyph := "\U{F0}\U{178}\U{201D}\U{A7}"
  const UserGlyph := "\U{F0}\U{178}\U{201C}\U{A5}"
  /** The assistant role and the conversation heading share the turn glyph. */
  const AssistantGlyph := TurnGlyph
  const ResponseGlyph := "\U{F0}\U{178}\U{2019}\U{AD}"
  const FlowNotices := Notices("\U{E2}\U{161}\U{A0}\U{EF}\U{B8}", "\U{E2}\U{153}\U{2026}")

  // ---------------------------------------------------------------- turn banners

  /** A line break shown as a space. */
  function Flatten(c: char): char {
    if c == '\n' || c == '\r' then ' ' else c
  }

  /** `user_msg.replace('\n', ' ').replace('\r', ' ')`. */
  function OneLine(s: string): (r: string)
    ensures |r| == |s|
    ensures forall i :: 0 <= i < |s| ==> r[i] == Flatten(s[i])
  {
    ReplaceChar(ReplaceChar(s, '\n', ' '), '\r', ' ')
  }

  /**
   * The prompt shown in a turn banner: the user message on one line, whole when it fits in
   * 80 characters, else its first 77 characters and an ellipsis.
   */
  function TurnPrompt(userMsg: string): (r: string)
    ensures |r| <= 80
    ensures '\n' !in r && '\r' !in r
    ensures |userMsg| <= 80 ==> |r| == |userMsg| && forall i :: 0 <= i < |r| ==> r[i] == Flatten(userMsg[i])
    ensures |userMsg| > 80 ==>
              && |r| == 80 && EndsWith(r, "...")
              && forall i :: 0 <= i < 77 ==> r[i] == Flatten(userMsg[i])
  {
    var p := OneLine(userMsg);
    if |p| <= 80 then p
    else
      var r := Take(p, 77) + "...";
      assert r[77..] == "...";
      r
  }

  function TurnLine(glyph: string, turn: nat, text: string): string {
    "  " + glyph + " Turn " + NatToString(turn) + " - " + text
  }

  function TurnBanner(glyph: string, turn: nat, text: string): seq<string> {
    ["", BoxLine, TurnLine(glyph, turn, text), BoxLine, ""]
  }

  /** A banner's lines open with spaces, and their third character is a glyph. */
  lemma TurnBannerPlain(glyph: string, turn: nat, text: string)
    requires |glyph| > 0 && glyph[0] != '['
    ensures |TurnBanner(glyph, turn, text)| == 5
    ensures forall i :: 0 <= i < 5 ==> Plain(TurnBanner(glyph, turn, text)[i])
  {
    assert BoxLine[0] == ' ' && BoxLine[2] == Box[0];
    assert TurnLine(glyph, turn, text)[0] == ' ' && TurnLine(glyph, turn, text)[2] == glyph[0];
  }

  // ---------------------------------------------------------------- entry details

  function RoleName(role: string): string {
    if role == ToolResultRole then "Tool" else if role == UserRole then "User" else "Assistant"
  }

  function RoleGlyph(role: string): string {
    if role == ToolResultRole then ToolGlyph else if role == UserRole then UserGlyph else AssistantGlyph
  }

  function SinglePrefix(role: string): string {
    RoleGlyph(role) + " " + RoleName(role) + ": "
  }

  function NumberedPrefix(k: nat, role: string): string {
    "       [" + NatToString(k) + "] " + RoleName(role) + ": "
  }

  /**
   * The conversation display: a lone chain entry inline under its role (cut at 200
   * characters), several under a count heading, each numbered from 1 (cut at 150). Every
   * message below its cut can be read back from its line by removing the indentation; a
   * longer one shows its first 100 characters and the truncation marker.
   */
  function ChainLines(chain: seq<(string, string)>): (r: seq<string>)
    ensures |chain| == 0 ==> r == []
    ensures |chain| == 1 ==> |r| == 1 && Shows(r[0], SinglePrefix(chain[0].0), chain[0].1, 200)
    ensures |chain| > 1 ==>
              && |r| == |chain| + 1
              && r[0] == AssistantGlyph + " Conversation (" + NatToString(|chain|) + " messages in chain):"
              && forall i :: 0 <= i < |chain| ==> Shows(r[i + 1], NumberedPrefix(i + 1, chain[i].0), chain[i].1, 150)
  {
    if |chain| == 0 then []
    else if |chain| == 1 then
      [FormatMessageWithIndent(chain[0].1, SinglePrefix(chain[0].0), 200)]
    else
      [AssistantGlyph + " Conversation (" + NatToString(|chain|) + " messages in chain):"]
      + seq(|chain|, i requires 0 <= i < |chain| =>
              FormatMessageWithIndent(chain[i].1, NumberedPrefix(i + 1, chain[i].0), 150))
  }

  /** The detail strings of a message request with a body. */
  function MessageDetails(body: Body, resp: Option<Response>): seq<string>
    requires ResponseWellTyped(resp)
  {
    BodyLines(body)
    + ChainLines(ExtractConversationChain(body.messages))
    + ToolsLines(ToolGlyph, ExtractToolCalls(resp))
    + ResponseLines(ResponseGlyph, ExtractResponseText(resp))
  }

  // ---------------------------------------------------------------- the pass

  /** A MESSAGE request with a body: the only entries whose response is read. */
  predicate IsMessageEntry(e: Entry) {
    ClassifyRequestFlow(e.request.url, e.request.verb).0 == MessageTag && e.request.body.Some?
  }

  /** The response of a message entry can be scanned without raising. */
  predicate EntryWellTyped(e: Entry) {
    IsMessageEntry(e) ==> ResponseWellTyped(e.response)
  }

  /** An entry the script analyses without raising. */
  type Traced = e: Entry | EntryWellTyped(e) witness Entry(Request("", "", None), None)

  function MessagePurpose(e: Traced): string
    requires IsMessageEntry(e)
  {
    var body := e.request.body.value;
    ClassifyMessagePurpose(RequestFlowGlyphs, body, ExtractUserMessage(body.messages), e.response)
  }

  /** What the header of an entry shows after the tag. */
  function Shown(e: Traced): string {
    if IsMessageEntry(e) then MessagePurpose(e) else ClassifyRequestFlow(e.request.url, e.request.verb).1
  }

  function HeaderOf(idx: nat, e: Traced): string {
    HeaderLine(idx, ClassifyRequestFlow(e.request.url, e.request.verb).0, Shown(e))
  }

  /** The entries that open a turn. */
  predicate StartsTurn(e: Traced) {
    IsMessageEntry(e) && Contains(MessagePurpose(e), DetectPhrase)
  }

  /** The (method, URL) pair an UNKNOWN entry adds to the unknown endpoints. */
  function UnknownEndpointKey(e: Traced): Option<(string, string)> {
    if ClassifyRequestFlow(e.request.url, e.request.verb).0 == Unknown then Some((e.request.verb, e.request.url))
    else None
  }

  /** The (model, first 50 characters of the user message) pair a message entry whose purpose
      reports an unknown pattern or model adds to the unknown message types. */
  function UnknownMessageKey(e: Traced): Option<(string, string)> {
    if IsMessageEntry(e) && ReportsUnknown(MessagePurpose(e)) then
      var body := e.request.body.value;
      Some((ModelName(body), Take(ExtractUserMessage(body.messages), 50)))
    else None
  }

  datatype FlowState = FlowState(
    turn: nat,
    unknownEndpoints: seq<(string, string)>,
    unknownMessages: seq<(string, string)>,
    lines: seq<string>)

  const Initial := FlowState(0, [], [], [])

  /** The prompt a turn banner shows for a message entry. */
  function PromptOf(e: Traced): string {
    if e.request.body.Some? then TurnPrompt(ExtractUserMessage(e.request.body.value.messages)) else ""
  }

  /** The banner an entry prints when it opens turn `turn`, and nothing otherwise. */
  function Banner(turn: nat, e: Traced): seq<string> {
    if StartsTurn(e) then TurnBanner(TurnGlyph, turn, PromptOf(e)) else []
  }

  /** The details of a message entry; other entries have none. */
  function Details(e: Traced): seq<string> {
    if IsMessageEntry(e) then MessageDetails(e.request.body.value, e.response) else []
  }

  /** The lines the loop prints for the entry at index `idx`: the turn banner when it opens
      turn `turn`, the header, and the details of a message entry. */
  function EntryLines(turn: nat, idx: nat, e: Traced): seq<string> {
    EntryBlock(Banner(turn, e), HeaderOf(idx, e), Details(e))
  }

  /** One iteration of the loop over entries, for the entry at index `idx`. */
  function Step(st: FlowState, idx: nat, e: Traced): FlowState {
    var (tag, description) := ClassifyRequestFlow(e.request.url, e.request.verb);
    var endpoints := st.unknownEndpoints + (if tag == Unknown then [(e.request.verb, e.request.url)] else []);
    if tag == MessageTag && e.request.body.Some? then
      var body := e.request.body.value;
      var userMsg := ExtractUserMessage(body.messages);
      var purpose := ClassifyMessagePurpose(RequestFlowGlyphs, body, userMsg, e.response);
      var turn := if Contains(purpose, DetectPhrase) then st.turn + 1 else st.turn;
      var messages := st.unknownMessages
                      + (if ReportsUnknown(purpose) then [(ModelName(body), Take(userMsg, 50))] else []);
      FlowState(turn, endpoints, messages, st.lines + EntryLines(turn, idx, e))
    else
      FlowState(st.turn, endpoints, st.unknownMessages, st.lines + EntryLines(st.turn, idx, e))
  }

  /** The state after the loop has run over `es`. */
  function Flow(es: seq<Traced>): FlowState {
    FoldIndexed(Step, Initial, es)
  }

  // ---------------------------------------------------------------- one iteration

  /** An iteration raises the turn counter by one exactly when its entry opens a turn. */
  lemma StepTurn(st: FlowState, idx: nat, e: Traced)
    ensures Step(st, idx, e).turn == st.turn + (if StartsTurn(e) then 1 else 0)
  {
  }

  /** An iteration records its entry's pair when, and only when, the entry is UNKNOWN. */
  lemma StepEndpoints(st: FlowState, idx: nat, e: Traced)
    ensures Step(st, idx, e).unknownEndpoints
            == st.unknownEndpoints + (if UnknownEndpointKey(e).Some? then [UnknownEndpointKey(e).value] else [])
  {
  }

  /** An iteration records its entry's pair when, and only when, the entry's purpose reports
      an unknown pattern or model. */
  lemma StepMessages(st: FlowState, idx: nat, e: Traced)
    ensures Step(st, idx, e).unknownMessages
            == st.unknownMessages + (if UnknownMessageKey(e).Some? then [UnknownMessageKey(e).value] else [])
  {
  }

  lemma HeaderOfFacts(idx: nat, e: Traced)
    ensures IsHeaderLine(HeaderOf(idx, e)) && AsciiLead(HeaderOf(idx, e))
  {
    assert HeaderLead[0] == ' ';
  }

  /** A banner holds no header line. */
  lemma BannerPlain(turn: nat, e: Traced)
    ensures forall i :: 0 <= i < |Banner(turn, e)| ==> !IsHeaderLine(Banner(turn, e)[i]) && AsciiLead(Banner(turn, e)[i])
  {
    var banner := Banner(turn, e);
    TurnBannerPlain(TurnGlyph, turn, PromptOf(e));
    forall i | 0 <= i < |banner| ensures !IsHeaderLine(banner[i]) && AsciiLead(banner[i]) {
      PlainNotHeader(banner[i]);
    }
  }

  /** Any entry prints exactly one header line, its own, and only lines opening with ASCII. */
  lemma EntryLinesFacts(turn: nat, idx: nat, e: Traced)
    ensures Filter(IsHeaderLine, EntryLines(turn, idx, e)) == [HeaderOf(idx, e)]
    ensures forall k :: 0 <= k < |EntryLines(turn, idx, e)| ==> AsciiLead(EntryLines(turn, idx, e)[k])
  {
    BannerPlain(turn, e);
    HeaderOfFacts(idx, e);
    EntryBlockHeaders(Banner(turn, e), HeaderOf(idx, e), Details(e));
    EntryBlockAsciiLead(Banner(turn, e), HeaderOf(idx, e), Details(e));
  }

  /** An iteration appends the lines of its entry, with the counter it leaves. */
  lemma StepAppends(st: FlowState, idx: nat, e: Traced)
    ensures Step(st, idx, e).lines == st.lines + EntryLines(Step(st, idx, e).turn, idx, e)
  {
  }

  /** An iteration appends lines holding exactly one header, its own, all opening with ASCII. */
  lemma StepLines(st: FlowState, idx: nat, e: Traced)
    ensures var r := Step(st, idx, e).lines;
            && |st.lines| <= |r| && r[..|st.lines|] == st.lines
            && Filter(IsHeaderLine, r[|st.lines|..]) == [HeaderOf(idx, e)]
            && forall k :: |st.lines| <= k < |r| ==> AsciiLead(r[k])
  {
    var block := EntryLines(Step(st, idx, e).turn, idx, e);
    StepAppends(st, idx, e);
    EntryLinesFacts(Step(st, idx, e).turn, idx, e);
    assert Step(st, idx, e).lines[|st.lines|..] == block;
  }

  // ---------------------------------------------------------------- the whole pass

  /** The turn counter counts exactly the entries that open a turn. */
  lemma TurnCount(es: seq<Traced>)
    ensures Flow(es).turn == |Filter(StartsTurn, es)|
  {
    forall st, idx, e ensures Step(st, idx, e).turn == st.turn + (if StartsTurn(e) then 1 else 0) {
      StepTurn(st, idx, e);
    }
    FoldCounts(Step, Initial, es, (st: FlowState) => st.turn, StartsTurn);
  }

  /** The turn counter never goes down: after any prefix it is at most its final value, and
      the entries after the prefix raise it by at most their number. */
  lemma TurnsMonotone(es: seq<Traced>, k: nat)
    requires k <= |es|
    ensures Flow(es[..k]).turn <= Flow(es).turn <= Flow(es[..k]).turn + (|es| - k)
  {
    forall st, idx, e ensures Step(st, idx, e).turn == st.turn + (if StartsTurn(e) then 1 else 0) {
      StepTurn(st, idx, e);
    }
    FoldCountsMonotone(Step, Initial, es, k, (st: FlowState) => st.turn, StartsTurn);
  }

  /** The third line of an entry opening a turn is the turn line of its banner. */
  lemma TurnBlockLine(turn: nat, prompt: string, header: string, details: seq<string>)
    ensures var block := EntryBlock(TurnBanner(TurnGlyph, turn, prompt), header, details);
            |block| > 2 && block[2] == TurnLine(TurnGlyph, turn, prompt)
  {
    EntryBlockBanner(TurnBanner(TurnGlyph, turn, prompt), header, details);
  }

  /** An entry opening a turn prints the banner of that turn, with its prompt. */
  lemma StepShowsTurn(st: FlowState, idx: nat, e: Traced)
    requires StartsTurn(e)
    ensures TurnLine(TurnGlyph, st.turn + 1, PromptOf(e)) in Step(st, idx, e).lines
  {
    StepTurn(st, idx, e);
    StepAppends(st, idx, e);
    var block := EntryLines(st.turn + 1, idx, e);
    TurnBlockLine(st.turn + 1, PromptOf(e), HeaderOf(idx, e), Details(e));
    assert block == EntryBlock(TurnBanner(TurnGlyph, st.turn + 1, PromptOf(e)), HeaderOf(idx, e), Details(e));
    assert (st.lines + block)[|st.lines| + 2] == block[2];
  }

  function LinesOf(st: FlowState): seq<string> { st.lines }

  /** The loop only ever appends lines. */
  lemma StepsAppendOnly()
    ensures AppendsOnly(Step, LinesOf)
  {
    forall st, idx, e
      ensures var r := Step(st, idx, e).lines; |st.lines| <= |r| && r[..|st.lines|] == st.lines
    {
      StepLines(st, idx, e);
    }
  }

  /** The lines printed for a prefix of the stream begin the lines printed for all of it. */
  lemma FlowKeepsLines(es: seq<Traced>, k: nat)
    requires k <= |es|
    ensures var p := Flow(es[..k]).lines; |p| <= |Flow(es).lines| && Flow(es).lines[..|p|] == p
  {
    StepsAppendOnly();
    FoldPrefixLines(Step, Initial, es, k, LinesOf);
  }

  /** The unknown endpoints are recorded once per UNKNOWN entry, in stream order. */
  lemma UnknownEndpointsInOrder(es: seq<Traced>)
    ensures Flow(es).unknownEndpoints == FilterMap(UnknownEndpointKey, es)
  {
    forall st, idx, e
      ensures Step(st, idx, e).unknownEndpoints
              == st.unknownEndpoints + (if UnknownEndpointKey(e).Some? then [UnknownEndpointKey(e).value] else [])
    {
      StepEndpoints(st, idx, e);
    }
    FoldCollects(Step, Initial, es, (st: FlowState) => st.unknownEndpoints, UnknownEndpointKey);
  }

  /** The unknown message types are recorded once per message entry whose purpose reports an
      unknown pattern or model, in stream order. */
  lemma UnknownMessagesInOrder(es: seq<Traced>)
    ensures Flow(es).unknownMessages == FilterMap(UnknownMessageKey, es)
  {
    forall st, idx, e
      ensures Step(st, idx, e).unknownMessages
              == st.unknownMessages + (if UnknownMessageKey(e).Some? then [UnknownMessageKey(e).value] else [])
    {
      StepMessages(st, idx, e);
    }
    FoldCollects(Step, Initial, es, (st: FlowState) => st.unknownMessages, UnknownMessageKey);
  }

  /** The header lines of the pass are the entries' headers, one per entry, numbered from 0
      in stream order; every line opens with ASCII. */
  lemma FlowHeaders(es: seq<Traced>)
    ensures Filter(IsHeaderLine, Flow(es).lines) == Marks(HeaderOf, es)
    ensures forall k :: 0 <= k < |Flow(es).lines| ==> AsciiLead(Flow(es).lines[k])
  {
    var lines := (st: FlowState) => st.lines;
    forall st, idx, e
      ensures var r := Step(st, idx, e).lines;
              && |st.lines| <= |r| && r[..|st.lines|] == st.lines
              && Filter(IsHeaderLine, r[|st.lines|..]) == [HeaderOf(idx, e)]
              && forall k :: |st.lines| <= k < |r| ==> AsciiLead(r[k])
    {
      StepLines(st, idx, e);
    }
    FoldAppends(Step, Initial, es, lines, AsciiLead);
    FoldMarks(Step, Initial, es, lines, IsHeaderLine, HeaderOf);
  }

  // ---------------------------------------------------------------- the report

  // Split after a short head: the proof that the opening lines are plain reads their first
  // characters, which the verifier sees in a short literal but not in a long one.
  const TitleLead := "REQUEST" + " FLOW - Claude Code v"
  const TurnsNoteLine := "   " + "   Turns are marked by 'Detect if new topic' Haiku calls (user interactions)."

  function Preamble(version: string): seq<string> {
    [RuleLine, TitleLead + version, RuleLine, "", NoteLine, TurnsNoteLine, "", RuleLine]
  }

  /** The lines before the first entry: the title and the banner of turn 0. */
  function Opening(version: string): (r: seq<string>)
    ensures forall i :: 0 <= i < |r| ==> Plain(r[i])
  {
    var p := Preamble(version);
    assert RuleLine[0] == '=' && RuleLine[2] == '=';
    assert p[1][0] == 'R' && p[1][2] == 'Q';
    assert p[4][0] == 'N' && p[4][2] == 'T';
    assert p[5][0] == ' ' && p[5][2] == ' ';
    TurnBannerPlain(InitGlyph, 0, "Initialization");
    p + TurnBanner(InitGlyph, 0, "Initialization")
  }

  const TurnsLabel := "Total turns: "

  lemma TurnsLabelPlain()
    ensures |TurnsLabel| >= 3 && Plain(TurnsLabel)
  {
  }

  lemma FlowNoticesWellFormed()
    ensures NoticesWellFormed(FlowNotices)
  {
  }

  /** The report built from the state the pass ends in. */
  function FinalReport(st: FlowState, total: nat, version: string, listing: seq<(string, string)>): (r: seq<string>)
    requires IsListingOf(listing, st.unknownEndpoints)
    requires forall k :: 0 <= k < |st.lines| ==> AsciiLead(st.lines[k])
    ensures "Total requests: " + NatToString(total) in r
    ensures TurnsLabel + NatToString(st.turn) in r
    ensures Filter(IsHeaderLine, r) == Filter(IsHeaderLine, st.lines)
    ensures forall x :: x in st.unknownEndpoints ==> EndpointLine(x) in r
    ensures forall x :: x in st.unknownMessages ==> MessageLine(x) in r
    ensures IsInfix(Map(MessageLine, st.unknownMessages), r)
    ensures AllClearLine(FlowNotices) in r <==> st.unknownEndpoints == [] && st.unknownMessages == []
  {
    FlowNoticesWellFormed();
    TurnsLabelPlain();
    var counter := CounterLine(TurnsLabel, st.turn);
    Assemble(Opening(version), st.lines, FlowNotices, total, counter, st.unknownEndpoints, listing, st.unknownMessages)
  }

  /**
   * The report of `analyze_request_flow`, as the list of strings it joins with newlines.
   * `listing` is the order in which `set()` yields the distinct unknown endpoints.
   *
   * It counts every entry, reports as turns exactly the entries that open one, carries one
   * header per entry in stream order, lists every unknown endpoint, lists the unknown
   * messages in stream order with their repeats, and says that all request types were
   * recognised exactly when it lists none.
   */
  function ReportLines(es: seq<Traced>, version: string, listing: seq<(string, string)>): (r: seq<string>)
    requires IsListingOf(listing, FilterMap(UnknownEndpointKey, es))
    ensures "Total requests: " + NatToString(|es|) in r
    ensures TurnsLabel + NatToString(|Filter(StartsTurn, es)|) in r
    ensures Filter(IsHeaderLine, r) == Marks(HeaderOf, es)
    ensures forall x :: x in FilterMap(UnknownEndpointKey, es) ==> EndpointLine(x) in r
    ensures forall x :: x in FilterMap(UnknownMessageKey, es) ==> MessageLine(x) in r
    ensures IsInfix(Map(MessageLine, FilterMap(UnknownMessageKey, es)), r)
    ensures AllClearLine(FlowNotices) in r
            <==> FilterMap(UnknownEndpointKey, es) == [] && FilterMap(UnknownMessageKey, es) == []
  {
    TurnCount(es);
    UnknownEndpointsInOrder(es);
    UnknownMessagesInOrder(es);
    FlowHeaders(es);
    FinalReport(Flow(es), |es|, version, listing)
  }

  /** `analyze_request_flow`'s returned text. */
  function AnalyzeRequestFlow(es: seq<Traced>, version: string, listing: seq<(string, string)>): string
    requires IsListingOf(listing, FilterMap(UnknownEndpointKey, es))
  {
    Join("\n", ReportLines(es, version, listing))
  }
}

=== FILE: selection.dfy ===
/**
 * What the two extractor scripts share when they scan one trace for the request to
 * copy: the `/v1/messages` filter, the Sonnet test on `body.get('model', '')`, the
 * first user message, and a loop that returns at the first entry it decides on.
 */
module Selection {
  import opened Wrappers
  import opened Text
  import opened Trace
  import opened Seqs
  import opened Versions

  /** Only requests whose URL contains this path are considered. */
  const MessagesPath := "/v1/messages"

  /** `body.get('model', '')`: an absent model is the empty string. */
  function ModelOf(body: Body): string {
    body.model.GetOr("")
  }

  /** `'sonnet' in model.lower()`. */
  predicate MentionsSonnet(body: Body) {
    Contains(Lower(ModelOf(body)), "sonnet")
  }

  /** The entry is a Messages API call that carries a body. */
  predicate IsMessagesCall(e: Entry) {
    Contains(e.request.url, MessagesPath) && e.request.body.Some?
  }

  predicate IsUser(m: Message) {
    m.role == "user"
  }

  /** The message the extractors read: the first one whose role is "user" (their loop
      breaks after it). */
  function FirstUserMessage(msgs: seq<Message>): (r: Option<Message>)
    ensures r.None? <==> forall j :: 0 <= j < |msgs| ==> msgs[j].role != "user"
    ensures r.Some? ==> exists i :: 0 <= i < |msgs| && msgs[i] == r.value && r.value.role == "user"
                                    && forall j :: 0 <= j < i ==> msgs[j].role != "user"
  {
    var i := FirstIndex(IsUser, msgs);
    if i.Some? then Some(msgs[i.value]) else None
  }

  /** Every block of every message is an object, so no `block.get` of a scan can raise. */
  predicate MessagesWellTyped(msgs: seq<Message>) {
    forall i :: 0 <= i < |msgs| && msgs[i].content.Blocks? ==> AllDicts(msgs[i].content.blocks)
  }

  /** A trace file: its name, its stem, and its already-parsed lines. */
  datatype TraceFile = TraceFile(name: string, stem: string, entries: seq<Entry>)

  /** The version a trace file is keyed by: what follows the last "_" of its stem. */
  function FileVersion(f: TraceFile): string {
    VersionOf(f.stem)
  }

  /**
   * A `for idx, entry in enumerate(entries)` loop that returns from inside: the verdict
   * of the first entry that is not `NothingFound` (a record to return, or an exception),
   * or `NothingFound` when every entry passes.
   */
  function FirstDecided<V>(vs: seq<Processed<V>>): (r: Processed<V>)
    ensures r.NothingFound? <==> forall j :: 0 <= j < |vs| ==> vs[j].NothingFound?
    ensures !r.NothingFound? ==>
              exists i :: 0 <= i < |vs| && vs[i] == r && forall j :: 0 <= j < i ==> vs[j].NothingFound?
  {
    if |vs| == 0 then NothingFound
    else if !vs[0].NothingFound? then vs[0]
    else
      var r := FirstDecided(vs[1..]);
      assert forall j :: 1 <= j < |vs| ==> vs[j] == vs[1..][j - 1];
      r
  }

  /** The loop ends in an exception exactly when an entry raises before any entry yields a record. */
  lemma FirstDecidedRaised<V>(vs: seq<Processed<V>>)
    ensures FirstDecided(vs).Raised? <==>
              exists i :: 0 <= i < |vs| && vs[i].Raised? && forall j :: 0 <= j < i ==> !vs[j].Extracted?
  {
    var r := FirstDecided(vs);
    if exists i :: 0 <= i < |vs| && vs[i].Raised? && forall j :: 0 <= j < i ==> !vs[j].Extracted? {
      var i :| 0 <= i < |vs| && vs[i].Raised? && forall j :: 0 <= j < i ==> !vs[j].Extracted?;
      var k :| 0 <= k < |vs| && vs[k] == r && forall j :: 0 <= j < k ==> vs[j].NothingFound?;
      assert k <= i;
    }
  }

  /** When each record carries the index of the entry it came from, a record the loop
      returns comes from the first entry that is decided, and every earlier entry passes. */
  lemma FirstDecidedAt<V>(vs: seq<Processed<V>>, idx: V -> nat)
    requires forall i :: 0 <= i < |vs| && vs[i].Extracted? ==> idx(vs[i].value) == i
    ensures FirstDecided(vs).Extracted? ==>
              && idx(FirstDecided(vs).value) < |vs|
              && vs[idx(FirstDecided(vs).value)] == FirstDecided(vs)
              && forall j :: 0 <= j < idx(FirstDecided(vs).value) ==> vs[j].NothingFound?
  {
    var r := FirstDecided(vs);
    if r.Extracted? {
      var k :| 0 <= k < |vs| && vs[k] == r && forall j :: 0 <= j < k ==> vs[j].NothingFound?;
      assert idx(r.value) == k;
    }
  }
}

=== FILE: seqs.dfy ===
/** Order-preserving selection over sequences. */
module Seqs {
  import opened Wrappers

  /** `a` can be obtained from `b` by deleting elements, without reordering. */
  predicate IsSubsequence<T(==)>(a: seq<T>, b: seq<T>)
    decreases |b|
  {
    |a| == 0
    || (|b| > 0 && ((a[0] == b[0] && IsSubsequence(a[1..], b[1..])) || IsSubsequence(a, b[1..])))
  }

  /** `a` occurs in `b` from position `k` on, as one contiguous run. */
  ghost predicate RunAt<T>(a: seq<T>, b: seq<T>, k: int) {
    0 <= k <= |b| - |a| && b[k..k + |a|] == a
  }

  /** `a` occurs in `b` as one contiguous run, in order and with its repeats. */
  ghost predicate IsInfix<T>(a: seq<T>, b: seq<T>) {
    exists k :: RunAt(a, b, k)
  }

  /** A run inside `b` stays a run when `b` is extended on either side. */
  lemma InfixExtend<T>(a: seq<T>, b: seq<T>, pre: seq<T>, post: seq<T>)
    requires IsInfix(a, b)
    ensures IsInfix(a, pre + b + post)
  {
    var k :| RunAt(a, b, k);
    assert (pre + b + post)[|pre| + k..|pre| + k + |a|] == a;
    assert RunAt(a, pre + b + post, |pre| + k);
  }

  /** Python `[x for x in s if keep(x)]`. */
  function Filter<T(!new)>(keep: T -> bool, s: seq<T>): (r: seq<T>)
    ensures |r| <= |s|
    ensures forall x :: x in r <==> x in s && keep(x)
  {
    if |s| == 0 then []
    else if keep(s[0]) then [s[0]] + Filter(keep, s[1..])
    else Filter(keep, s[1..])
  }

  lemma {:induction false} FilterIsSubsequence<T(!new)>(keep: T -> bool, s: seq<T>)
    ensures IsSubsequence(Filter(keep, s), s)
  {
    if |s| > 0 {
      FilterIsSubsequence(keep, s[1..]);
      if keep(s[0]) {
        assert Filter(keep, s)[1..] == Filter(keep, s[1..]);
      }
    }
  }

  /** Every element lands in exactly one of the two halves of a partition. */
  lemma {:induction false} FilterPartition<T(!new)>(keep: T -> bool, s: seq<T>)
    ensures |Filter(keep, s)| + |Filter(x => !keep(x), s)| == |s|
  {
    if |s| > 0 {
      FilterPartition(keep, s[1..]);
    }
  }

  /** Filtering by a predicate and by its negation splits a list between the two results. */
  lemma {:induction false} FilterComplement<T(!new)>(keep: T -> bool, drop: T -> bool, s: seq<T>)
    requires forall x :: drop(x) == !keep(x)
    ensures |Filter(keep, s)| + |Filter(drop, s)| == |s|
  {
    if |s| > 0 {
      FilterComplement(keep, drop, s[1..]);
    }
  }

  lemma {:induction false} FilterConcat<T(!new)>(keep: T -> bool, a: seq<T>, b: seq<T>)
    ensures Filter(keep, a + b) == Filter(keep, a) + Filter(keep, b)
  {
    if |a| > 0 {
      assert (a + b)[1..] == a[1..] + b;
      FilterConcat(keep, a[1..], b);
    } else {
      assert a + b == b;
    }
  }

  /** Python `[f(x) for x in s]`. */
  function Map<T, U>(f: T -> U, s: seq<T>): (r: seq<U>)
    ensures |r| == |s|
    ensures forall i :: 0 <= i < |s| ==> r[i] == f(s[i])
  {
    seq(|s|, i requires 0 <= i < |s| => f(s[i]))
  }

  /** Python `[v for x in s if (v := f(x)) is not None]`: the present results, in order. */
  function FilterMap<T, U>(f: T -> Option<U>, s: seq<T>): (r: seq<U>)
    ensures |r| <= |s|
  {
    if |s| == 0 then []
    else (if f(s[0]).Some? then [f(s[0]).value] else []) + FilterMap(f, s[1..])
  }

  lemma {:induction false} FilterMapConcat<T, U>(f: T -> Option<U>, a: seq<T>, b: seq<T>)
    ensures FilterMap(f, a + b) == FilterMap(f, a) + FilterMap(f, b)
  {
    if |a| > 0 {
      assert (a + b)[1..] == a[1..] + b;
      FilterMapConcat(f, a[1..], b);
    } else {
      assert a + b == b;
    }
  }

  /** Appending one element to a list built by filtering is filtering the extended list. */
  lemma FilterMapSnoc<T, U>(f: T -> Option<U>, a: seq<T>, x: T)
    ensures FilterMap(f, a + [x]) == FilterMap(f, a) + (if f(x).Some? then [f(x).value] else [])
  {
    FilterMapConcat(f, a, [x]);
    assert [x][1..] == [];
  }

  lemma FilterSnoc<T(!new)>(keep: T -> bool, a: seq<T>, x: T)
    ensures Filter(keep, a + [x]) == Filter(keep, a) + (if keep(x) then [x] else [])
  {
    FilterConcat(keep, a, [x]);
    assert [x][1..] == [];
  }

  /** A left-to-right loop over `es` that also sees each element's index, as
      `for idx, x in enumerate(es)` does. */
  function FoldIndexed<S, T>(step: (S, nat, T) -> S, start: S, es: seq<T>): S
    decreases |es|
  {
    if |es| == 0 then start
    else step(FoldIndexed(step, start, es[..|es| - 1]), |es| - 1, es[|es| - 1])
  }

  /** A counter the loop body raises by one exactly at the elements satisfying `p` ends up
      counting them. */
  lemma {:induction false} FoldCounts<S, T(!new)>(step: (S, nat, T) -> S, start: S, es: seq<T>,
                                                 count: S -> nat, p: T -> bool)
    requires forall s, i, x :: count(step(s, i, x)) == count(s) + (if p(x) then 1 else 0)
    ensures count(FoldIndexed(step, start, es)) == count(start) + |Filter(p, es)|
    decreases |es|
  {
    if |es| > 0 {
      var init, x := es[..|es| - 1], es[|es| - 1];
      FoldCounts(step, start, init, count, p);
      assert es == init + [x];
      FilterSnoc(p, init, x);
    }
  }

  /** Such a counter never goes down: after a prefix it is at most its final value, and the
      elements after the prefix raise it by at most their number. */
  lemma FoldCountsMonotone<S, T(!new)>(step: (S, nat, T) -> S, start: S, es: seq<T>, k: nat,
                                       count: S -> nat, p: T -> bool)
    requires forall s, i, x :: count(step(s, i, x)) == count(s) + (if p(x) then 1 else 0)
    requires k <= |es|
    ensures count(FoldIndexed(step, start, es[..k])) <= count(FoldIndexed(step, start, es))
            <= count(FoldIndexed(step, start, es[..k])) + (|es| - k)
  {
    assert Filter(p, es) == Filter(p, es[..k]) + Filter(p, es[k..]) by {
      assert es == es[..k] + es[k..];
      FilterConcat(p, es[..k], es[k..]);
    }
    assert |Filter(p, es[k..])| <= |es| - k;
    FoldCounts(step, start, es[..k], count, p);
    FoldCounts(step, start, es, count, p);
  }

  /** A list the loop body extends by the present `key` of each element ends up holding
      those keys in order. */
  lemma {:induction false} FoldCollects<S, T, U>(step: (S, nat, T) -> S, start: S, es: seq<T>,
                                                items: S -> seq<U>, key: T -> Option<U>)
    requires forall s, i, x :: items(step(s, i, x)) == items(s) + (if key(x).Some? then [key(x).value] else [])
    ensures items(FoldIndexed(step, start, es)) == items(start) + FilterMap(key, es)
    decreases |es|
  {
    if |es| > 0 {
      var init, x := es[..|es| - 1], es[|es| - 1];
      FoldCollects(step, start, init, items, key);
      assert es == init + [x];
      FilterMapSnoc(key, init, x);
    }
  }

  /** The loop body only appends to `lines`. */
  ghost predicate AppendsOnly<S(!new), T(!new)>(step: (S, nat, T) -> S, lines: S -> seq<string>) {
    forall s, i, x :: |lines(s)| <= |lines(step(s, i, x))| && lines(step(s, i, x))[..|lines(s)|] == lines(s)
  }

  /** Lines appended by an append-only loop body that are all `good` stay good. */
  lemma {:induction false} FoldAppends<S(!new), T(!new)>(step: (S, nat, T) -> S, start: S, es: seq<T>,
                                                        lines: S -> seq<string>, good: string -> bool)
    requires AppendsOnly(step, lines)
    requires forall s, i, x :: forall k :: |lines(s)| <= k < |lines(step(s, i, x))| ==> good(lines(step(s, i, x))[k])
    ensures var r := lines(FoldIndexed(step, start, es));
            && |lines(start)| <= |r| && r[..|lines(start)|] == lines(start)
            && forall k :: |lines(start)| <= k < |r| ==> good(r[k])
    decreases |es|
  {
    if |es| > 0 {
      var n := |es| - 1;
      FoldAppends(step, start, es[..n], lines, good);
      var s := FoldIndexed(step, start, es[..n]);
      var r := lines(step(s, n, es[n]));
      assert r[..|lines(start)|] == lines(s)[..|lines(start)|];
    }
  }

  /** An append-only loop never takes back a line: the lines after any prefix of the input
      begin the final lines. */
  lemma {:induction false} FoldPrefixLines<S(!new), T(!new)>(step: (S, nat, T) -> S, start: S, es: seq<T>,
                                                            k: nat, lines: S -> seq<string>)
    requires AppendsOnly(step, lines)
    requires k <= |es|
    ensures var p, r := lines(FoldIndexed(step, start, es[..k])), lines(FoldIndexed(step, start, es));
            |p| <= |r| && r[..|p|] == p
    decreases |es|
  {
    if k == |es| {
      assert es[..k] == es;
    } else {
      var n := |es| - 1;
      assert es[..n][..k] == es[..k];
      FoldPrefixLines(step, start, es[..n], k, lines);
      var p := lines(FoldIndexed(step, start, es[..k]));
      var s := FoldIndexed(step, start, es[..n]);
      var r := lines(step(s, n, es[n]));
      assert r[..|p|] == lines(s)[..|p|];
    }
  }

  /** `mark(i, es[i])` for every index, in order. */
  function Marks<T>(mark: (nat, T) -> string, es: seq<T>): (r: seq<string>)
    ensures |r| == |es|
    decreases |es|
  {
    if |es| == 0 then [] else Marks(mark, es[..|es| - 1]) + [mark(|es| - 1, es[|es| - 1])]
  }

  /** If every iteration appends lines of which exactly one, `mark(i, x)`, is kept by `keep`,
      then the kept lines of the result are the marks of the elements in order. */
  lemma {:induction false} FoldMarks<S(!new), T(!new)>(step: (S, nat, T) -> S, start: S, es: seq<T>,
                                                      lines: S -> seq<string>, keep: string -> bool, mark: (nat, T) -> string)
    requires AppendsOnly(step, lines)
    requires forall s, i, x :: Filter(keep, lines(step(s, i, x))[|lines(s)|..]) == [mark(i, x)]
    ensures Filter(keep, lines(FoldIndexed(step, start, es))) == Filter(keep, lines(start)) + Marks(mark, es)
    decreases |es|
  {
    if |es| > 0 {
      var n := |es| - 1;
      var init, x := es[..n], es[n];
      FoldMarks(step, start, init, lines, keep, mark);
      var s := FoldIndexed(step, start, init);
      assert es[..n] == init;
      var r := lines(step(s, n, x));
      var added := r[|lines(s)|..];
      assert r == lines(s) + added;
      assert Filter(keep, added) == [mark(n, x)];
      FilterConcat(keep, lines(s), added);
    }
  }

  /** Index of the first element satisfying `p`: a Python `for` loop returning at its
      first hit. */
  function FirstIndex<T>(p: T -> bool, s: seq<T>): (r: Option<nat>)
    ensures r.Some? ==> r.value < |s| && p(s[r.value]) && forall j :: 0 <= j < r.value ==> !p(s[j])
    ensures r.None? <==> forall j :: 0 <= j < |s| ==> !p(s[j])
  {
    if |s| == 0 then None
    else if p(s[0]) then Some(0)
    else
      var r := FirstIndex(p, s[1..]);
      assert forall j :: 1 <= j < |s| ==> s[j] == s[1..][j - 1];
      if r.Some? then Some(r.value + 1) else None
  }

  /** Two scans that answer alike position by position stop at the same place. */
  lemma {:induction false} FirstIndexAgree<T, U>(p: T -> bool, a: seq<T>, q: U -> bool, b: seq<U>)
    requires |a| == |b|
    requires forall j :: 0 <= j < |a| ==> p(a[j]) == q(b[j])
    ensures FirstIndex(p, a) == FirstIndex(q, b)
  {
    if |a| > 0 {
      FirstIndexAgree(p, a[1..], q, b[1..]);
    }
  }
}

=== FILE: sorting.dfy ===
/**
 * Python's ordering of `str` values and `sorted()` over a list of strings, as used to
 * order the version keys of both metadata files.
 */
module Sorting {

  /** Python `a <= b` on `str`: code points compared left to right, a proper prefix first. */
  predicate LessOrEqual(a: string, b: string)
    decreases |a|
  {
    |a| == 0 || (|b| > 0 && (a[0] < b[0] || (a[0] == b[0] && LessOrEqual(a[1..], b[1..]))))
  }

  lemma {:induction false} LessOrEqualReflexive(a: string)
    ensures LessOrEqual(a, a)
    decreases |a|
  {
    if |a| > 0 {
      LessOrEqualReflexive(a[1..]);
    }
  }

  lemma {:induction false} LessOrEqualTotal(a: string, b: string)
    ensures LessOrEqual(a, b) || LessOrEqual(b, a)
    decreases |a|
  {
    if |a| > 0 && |b| > 0 && a[0] == b[0] {
      LessOrEqualTotal(a[1..], b[1..]);
    }
  }

  lemma {:induction false} LessOrEqualTransitive(a: string, b: string, c: string)
    requires LessOrEqual(a, b) && LessOrEqual(b, c)
    ensures LessOrEqual(a, c)
    decreases |a|
  {
    if |a| > 0 && a[0] == b[0] && b[0] == c[0] {
      LessOrEqualTransitive(a[1..], b[1..], c[1..]);
    }
  }

  lemma {:induction false} LessOrEqualAntisymmetric(a: string, b: string)
    requires LessOrEqual(a, b) && LessOrEqual(b, a)
    ensures a == b
    decreases |a|
  {
    if |a| > 0 {
      LessOrEqualAntisymmetric(a[1..], b[1..]);
      assert a == [a[0]] + a[1..] && b == [b[0]] + b[1..];
    }
  }

  /** Ascending under Python's string order. */
  predicate Sorted(s: seq<string>) {
    forall i, j :: 0 <= i < j < |s| ==> LessOrEqual(s[i], s[j])
  }

  /** `y` sorts no later than any element of `s`. */
  predicate Below(y: string, s: seq<string>) {
    forall j :: 0 <= j < |s| ==> LessOrEqual(y, s[j])
  }

  lemma BelowByMembers(y: string, s: seq<string>)
    requires forall z :: z in multiset(s) ==> LessOrEqual(y, z)
    ensures Below(y, s)
  {
    forall j | 0 <= j < |s|
      ensures LessOrEqual(y, s[j])
    {
      assert s[j] in multiset(s);
    }
  }

  /** A sorted sequence whose head is `y` lies entirely at or above `y`. */
  lemma ConsSorted(y: string, s: seq<string>)
    requires Sorted(s) && Below(y, s)
    ensures Sorted([y] + s)
  {
    var r := [y] + s;
    forall i, j | 0 <= i < j < |r|
      ensures LessOrEqual(r[i], r[j])
    {
      if i > 0 {
        assert r[i] == s[i - 1] && r[j] == s[j - 1];
      }
    }
  }

  /** Inserting `x` into a sorted sequence keeps it sorted and adds exactly `x`. */
  function Insert(x: string, s: seq<string>): (r: seq<string>)
    requires Sorted(s)
    ensures Sorted(r)
    ensures multiset(r) == multiset(s) + multiset{x}
  {
    if |s| == 0 then [x]
    else if LessOrEqual(x, s[0]) then
      assert Below(x, s) by {
        forall j | 0 < j < |s|
          ensures LessOrEqual(x, s[j])
        {
          LessOrEqualTransitive(x, s[0], s[j]);
        }
      }
      ConsSorted(x, s);
      [x] + s
    else
      var t := Insert(x, s[1..]);
      assert s == [s[0]] + s[1..];
      assert Below(s[0], t) by {
        LessOrEqualTotal(x, s[0]);
        forall z | z in multiset(t)
          ensures LessOrEqual(s[0], z)
        {
          if z != x {
            var k :| 0 <= k < |s[1..]| && s[1..][k] == z;
            assert s[k + 1] == z;
          }
        }
        BelowByMembers(s[0], t);
      }
      ConsSorted(s[0], t);
      [s[0]] + t
  }

  /** Python `sorted(s)` for a list of strings. */
  function Sort(s: seq<string>): (r: seq<string>)
    ensures Sorted(r)
    ensures multiset(r) == multiset(s)
  {
    if |s| == 0 then []
    else
      assert s == [s[0]] + s[1..];
      Insert(s[0], Sort(s[1..]))
  }

  /** The head of a sorted sequence is at or below every string it holds. */
  lemma HeadBelowMembers(a: seq<string>, z: string)
    requires Sorted(a) && z in a
    ensures LessOrEqual(a[0], z)
  {
    var i :| 0 <= i < |a| && a[i] == z;
    if i == 0 {
      LessOrEqualReflexive(z);
    }
  }

  /** Two sorted arrangements of the same strings start with the same string. */
  lemma SortedSameHead(a: seq<string>, b: seq<string>)
    requires Sorted(a) && Sorted(b) && multiset(a) == multiset(b) && |a| > 0
    ensures |b| > 0 && a[0] == b[0]
  {
    assert |b| == |multiset(b)| == |a|;
    assert a[0] in multiset(b) && b[0] in multiset(a);
    HeadBelowMembers(b, a[0]);
    HeadBelowMembers(a, b[0]);
    LessOrEqualAntisymmetric(a[0], b[0]);
  }

  /** Dropping the head of a sorted sequence leaves a sorted sequence of the other strings. */
  lemma SortedTail(a: seq<string>)
    requires Sorted(a) && |a| > 0
    ensures Sorted(a[1..]) && multiset(a[1..]) == multiset(a) - multiset{a[0]}
  {
    assert a == [a[0]] + a[1..];
    forall i, j | 0 <= i < j < |a| - 1
      ensures LessOrEqual(a[1..][i], a[1..][j])
    {
      assert a[1..][i] == a[i + 1] && a[1..][j] == a[j + 1];
    }
  }

  /** Two sorted arrangements of the same strings are the same sequence: `sorted` has one answer. */
  lemma {:induction false} SortedUnique(a: seq<string>, b: seq<string>)
    requires Sorted(a) && Sorted(b) && multiset(a) == multiset(b)
    ensures a == b
    decreases |a|
  {
    assert |a| == |multiset(a)| == |b|;
    if |a| > 0 {
      SortedSameHead(a, b);
      SortedTail(a);
      SortedTail(b);
      SortedUnique(a[1..], b[1..]);
    }
  }

  /** No string occurs twice. */
  predicate NoDuplicates(s: seq<string>) {
    forall i, j :: 0 <= i < j < |s| ==> s[i] != s[j]
  }

  /** A sequence without repeats holds each of its strings once. */
  lemma {:induction false} NoDuplicatesMultiset(s: seq<string>)
    ensures NoDuplicates(s) <==> forall z :: multiset(s)[z] <= 1
  {
    if |s| > 0 {
      NoDuplicatesMultiset(s[1..]);
      assert s == [s[0]] + s[1..];
      assert multiset(s) == multiset{s[0]} + multiset(s[1..]);
      if NoDuplicates(s) {
        assert s[0] !in s[1..];
        assert NoDuplicates(s[1..]) by {
          forall i, j | 0 <= i < j < |s[1..]|
            ensures s[1..][i] != s[1..][j]
          {
            assert s[1..][i] == s[i + 1] && s[1..][j] == s[j + 1];
          }
        }
      } else {
        var i, j :| 0 <= i < j < |s| && s[i] == s[j];
        if i == 0 {
          assert s[0] in s[1..] by { assert s[1..][j - 1] == s[j]; }
          assert multiset(s)[s[0]] >= 2;
        } else {
          assert s[1..][i - 1] == s[1..][j - 1];
          assert !NoDuplicates(s[1..]);
          var z :| multiset(s[1..])[z] > 1;
          assert multiset(s)[z] > 1;
        }
      }
    }
  }

  /** Sorting keeps exactly the same strings, and introduces no repeat. */
  lemma SortKeepsDistinct(s: seq<string>)
    requires NoDuplicates(s)
    ensures NoDuplicates(Sort(s)) && (set z | z in Sort(s)) == (set z | z in s)
  {
    NoDuplicatesMultiset(s);
    NoDuplicatesMultiset(Sort(s));
    assert forall z :: z in Sort(s) <==> z in multiset(Sort(s));
  }
}

=== FILE: text.dfy ===
/**
 * The small slice of Python's `str` API the trace analysers rely on, over `seq<char>`:
 * `startswith`, `in`, ASCII `lower`/`strip`, slicing with `[:n]`, `split` on one
 * character, `join`, `replace` of one character and `str()` of a natural number.
 */
module Text {

  /** Python `s.startswith(p)`. */
  predicate StartsWith(s: string, p: string) {
    |p| <= |s| && s[..|p|] == p
  }

  /** Python `s.endswith(p)`: `p` is a suffix of `s`. */
  predicate EndsWith(s: string, p: string) {
    |p| <= |s| && s[|s| - |p|..] == p
  }

  /** `needle` sits in `s` starting at position `i`. */
  predicate OccursAt(s: string, needle: string, i: int) {
    0 <= i && i + |needle| <= |s| && s[i..i + |needle|] == needle
  }

  /** Python `needle in s`, computed by scanning `s` from the left. */
  predicate Contains(s: string, needle: string)
    decreases |s|
  {
    StartsWith(s, needle) || (|s| > 0 && Contains(s[1..], needle))
  }

  /** The scan agrees with the positional definition of substring containment. */
  lemma {:induction false} ContainsIff(s: string, needle: string)
    ensures Contains(s, needle) <==> exists i :: OccursAt(s, needle, i)
    decreases |s|
  {
    if Contains(s, needle) {
      if StartsWith(s, needle) {
        assert OccursAt(s, needle, 0);
      } else {
        ContainsIff(s[1..], needle);
        var i :| OccursAt(s[1..], needle, i);
        assert s[1..][i..i + |needle|] == s[i + 1..i + 1 + |needle|];
        assert OccursAt(s, needle, i + 1);
      }
    }
    if exists i :: OccursAt(s, needle, i) {
      var i :| OccursAt(s, needle, i);
      if i == 0 {
        assert StartsWith(s, needle);
      } else {
        assert s[1..][i - 1..i - 1 + |needle|] == s[i..i + |needle|];
        assert OccursAt(s[1..], needle, i - 1);
        ContainsIff(s[1..], needle);
      }
    }
  }

  lemma ContainsAt(s: string, needle: string, i: int)
    requires OccursAt(s, needle, i)
    ensures Contains(s, needle)
  {
    ContainsIff(s, needle);
  }

  /** Containment survives putting text in front of or behind the haystack. */
  lemma ContainsConcat(a: string, b: string, needle: string)
    ensures Contains(a, needle) ==> Contains(a + b, needle)
    ensures Contains(b, needle) ==> Contains(a + b, needle)
  {
    ContainsIff(a, needle);
    ContainsIff(b, needle);
    if Contains(a, needle) {
      var i :| OccursAt(a, needle, i);
      assert (a + b)[i..i + |needle|] == a[i..i + |needle|];
      ContainsAt(a + b, needle, i);
    }
    if Contains(b, needle) {
      var i :| OccursAt(b, needle, i);
      assert (a + b)[|a| + i..|a| + i + |needle|] == b[i..i + |needle|];
      ContainsAt(a + b, needle, |a| + i);
    }
  }

  lemma ContainsSelf(s: string)
    ensures Contains(s, s)
  {
    assert StartsWith(s, s);
  }

  lemma ContainsSuffix(a: string, b: string)
    ensures Contains(a + b, b)
  {
    ContainsSelf(b);
    ContainsConcat(a, b, b);
  }

  /** A needle holding a character the haystack lacks does not occur in it. */
  lemma MissingCharNotContained(s: string, needle: string, k: nat)
    requires k < |needle| && needle[k] !in s
    ensures !Contains(s, needle)
  {
    ContainsIff(s, needle);
  }

  /** Python's `str.lower()` restricted to ASCII letters. */
  function LowerChar(c: char): char {
    if 'A' <= c <= 'Z' then (c as int + 32) as char else c
  }

  function Lower(s: string): (r: string)
    ensures |r| == |s|
    ensures forall i :: 0 <= i < |s| ==> r[i] == LowerChar(s[i])
  {
    if |s| == 0 then [] else [LowerChar(s[0])] + Lower(s[1..])
  }

  /** `c` occurs nowhere in `s`. */
  predicate Lacks(s: string, c: char) {
    forall i :: 0 <= i < |s| ==> s[i] != c
  }

  /** A needle holding a character the haystack lacks does not occur in it. */
  lemma LacksNotContained(s: string, needle: string, k: nat)
    requires k < |needle| && Lacks(s, needle[k])
    ensures !Contains(s, needle)
  {
    MissingCharNotContained(s, needle, k);
  }

  /** A lower-case letter missing from `s` in both cases is missing from `Lower(s)`. */
  lemma LowerLacks(s: string, c: char)
    requires 'a' <= c <= 'z'
    requires Lacks(s, c) && Lacks(s, (c as int - 32) as char)
    ensures Lacks(Lower(s), c)
  {
  }

  lemma LowerConcat(a: string, b: string)
    ensures Lower(a + b) == Lower(a) + Lower(b)
  {
    assert forall i :: 0 <= i < |a + b| ==> Lower(a + b)[i] == (Lower(a) + Lower(b))[i];
  }

  /** The characters Python's `str.isspace()` accepts below U+0080. */
  predicate IsSpace(c: char) {
    c == ' ' || '\t' <= c <= '\r' || '\U{1C}' <= c <= '\U{1F}'
  }

  function StripLeft(s: string): (r: string)
    ensures EndsWith(s, r)
    ensures r == [] || !IsSpace(r[0])
    ensures forall i :: 0 <= i < |s| - |r| ==> IsSpace(s[i])
  {
    if |s| > 0 && IsSpace(s[0]) then StripLeft(s[1..]) else s
  }

  function StripRight(s: string): (r: string)
    ensures StartsWith(s, r)
    ensures r == [] || !IsSpace(r[|r| - 1])
    ensures forall i :: |r| <= i < |s| ==> IsSpace(s[i])
  {
    if |s| > 0 && IsSpace(s[|s| - 1]) then StripRight(s[..|s| - 1]) else s
  }

  /** Python `s.strip()` with ASCII whitespace. */
  function Strip(s: string): string {
    StripRight(StripLeft(s))
  }

  /** Every character of `s` is white space. */
  predicate AllSpace(s: string) {
    forall i :: 0 <= i < |s| ==> IsSpace(s[i])
  }

  /** Stripping leaves nothing exactly when the string is all white space. */
  lemma StripEmptyIff(s: string)
    ensures Strip(s) == [] <==> AllSpace(s)
  {
  }

  /** Python `s * n`. */
  function Repeat(s: string, n: nat): (r: string)
    ensures |r| == n * |s|
    ensures forall i :: 0 <= i < |r| ==> r[i] == s[i % |s|]
  {
    if |s| == 0 then "" else seq(n * |s|, i requires 0 <= i < n * |s| => s[i % |s|])
  }

  /** Python `s[:n]`. */
  function Take(s: string, n: nat): (r: string)
    ensures StartsWith(s, r)
    ensures |r| == if n < |s| then n else |s|
  {
    if n < |s| then s[..n] else s
  }

  /** Python `sep.join(parts)`. */
  function Join(sep: string, parts: seq<string>): string
  {
    if |parts| == 0 then ""
    else if |parts| == 1 then parts[0]
    else parts[0] + sep + Join(sep, parts[1..])
  }

  lemma JoinTwo(sep: string, a: string, b: string)
    ensures Join(sep, [a, b]) == a + sep + b
  {
    assert [a, b][1..] == [b];
  }

  lemma JoinAppend(sep: string, parts: seq<string>, last: string)
    requires |parts| > 0
    ensures Join(sep, parts + [last]) == Join(sep, parts) + sep + last
  {
    if |parts| > 1 {
      assert (parts + [last])[1..] == parts[1..] + [last];
      JoinAppend(sep, parts[1..], last);
    }
  }

  /** Position of the first occurrence of `c` in `s`. */
  function IndexOf(s: string, c: char): (i: nat)
    requires c in s
    ensures i < |s| && s[i] == c && c !in s[..i]
  {
    if s[0] == c then 0
    else
      var j := IndexOf(s[1..], c);
      assert s[..j + 1] == [s[0]] + s[1..][..j];
      j + 1
  }

  /** Python `s.split(c)` for a one-character separator: never empty, and no piece holds `c`. */
  function Split(s: string, c: char): (parts: seq<string>)
    ensures |parts| >= 1
    ensures forall k :: 0 <= k < |parts| ==> c !in parts[k]
    decreases |s|
  {
    if c !in s then [s]
    else
      var i := IndexOf(s, c);
      [s[..i]] + Split(s[i + 1..], c)
  }

  /** Joining the pieces of a split with the separator rebuilds the string. */
  lemma {:induction false} JoinSplit(s: string, c: char)
    ensures Join([c], Split(s, c)) == s
    decreases |s|
  {
    if c in s {
      var i := IndexOf(s, c);
      var rest := s[i + 1..];
      JoinSplit(rest, c);
      SplitAfterFirst(s, c);
      var parts := Split(s, c);
      assert parts[0] == s[..i];
      assert Join([c], parts) == parts[0] + [c] + Join([c], parts[1..]);
      Around(s, i);
    }
  }

  /** A string is what comes before position `i`, the character there, and what follows. */
  lemma Around(s: string, i: nat)
    requires i < |s|
    ensures s == s[..i] + [s[i]] + s[i + 1..]
  {
  }

  /** A suffix of a suffix is a suffix, at the same distance from the end. */
  lemma SuffixOfSuffix(s: string, i: nat, j: string)
    requires i <= |s| && EndsWith(s[i..], j)
    ensures EndsWith(s, j) && s[|s| - |j|..] == s[i..][|s[i..]| - |j|..]
  {
  }

  /** The pieces after the first one are the pieces of the text after the first separator. */
  lemma SplitAfterFirst(s: string, c: char)
    requires c in s
    ensures Split(s, c)[1..] == Split(s[IndexOf(s, c) + 1..], c)
  {
  }

  /**
   * Joining any tail of the pieces gives a suffix of the string, and unless the tail is
   * everything, the character in front of that suffix is the separator.
   */
  lemma {:induction false} SplitTailIsSuffix(s: string, c: char, k: nat)
    requires k < |Split(s, c)|
    ensures EndsWith(s, Join([c], Split(s, c)[k..]))
    ensures k > 0 ==> (|Join([c], Split(s, c)[k..])| < |s|
                       && s[|s| - |Join([c], Split(s, c)[k..])| - 1] == c)
    decreases |s|
  {
    if k == 0 {
      JoinSplit(s, c);
      assert Split(s, c)[0..] == Split(s, c);
    } else {
      var i := IndexOf(s, c);
      var rest := s[i + 1..];
      var j := Join([c], Split(rest, c)[k - 1..]);
      assert Join([c], Split(s, c)[k..]) == j by {
        SplitAfterFirst(s, c);
        assert Split(s, c)[k..] == Split(rest, c)[k - 1..];
      }
      SplitTailIsSuffix(rest, c, k - 1);
      SuffixOfSuffix(s, i + 1, j);
      if k == 1 {
        assert j == rest by {
          JoinSplit(rest, c);
          assert Split(rest, c)[0..] == Split(rest, c);
        }
      } else {
        assert s[|s| - |j| - 1] == rest[|rest| - |j| - 1];
      }
    }
  }

  /** Python `s.replace(a, b)` for single characters. */
  function ReplaceChar(s: string, a: char, b: char): (r: string)
    ensures |r| == |s|
    ensures forall i :: 0 <= i < |s| ==> r[i] == (if s[i] == a then b else s[i])
  {
    if |s| == 0 then [] else [if s[0] == a then b else s[0]] + ReplaceChar(s[1..], a, b)
  }

  /** The decimal digit for `d`. */
  function DigitChar(d: nat): (r: char)
    requires d < 10
    ensures '0' <= r <= '9' && r as int - '0' as int == d
  {
    ('0' as int + d) as char
  }

  /** Python `str(n)` for a natural number. */
  function NatToString(n: nat): (r: string)
    ensures |r| >= 1
    ensures forall i :: 0 <= i < |r| ==> '0' <= r[i] <= '9'
  {
    if n < 10 then [DigitChar(n)] else NatToString(n / 10) + [DigitChar(n % 10)]
  }

  /** Reads a string of decimal digits back as a number. */
  function DigitsValue(s: string): nat
    requires forall i :: 0 <= i < |s| ==> '0' <= s[i] <= '9'
  {
    if |s| == 0 then 0 else 10 * DigitsValue(s[..|s| - 1]) + (s[|s| - 1] as int - '0' as int)
  }

  /** The decimal rendering loses nothing: reading it back gives the number. */
  lemma {:induction false} NatToStringRoundTrip(n: nat)
    ensures DigitsValue(NatToString(n)) == n
  {
    if n >= 10 {
      NatToStringRoundTrip(n / 10);
      var r := NatToString(n);
      assert r[..|r| - 1] == NatToString(n / 10);
    }
  }
}

=== FILE: trace.dfy ===
/**
 * The already-parsed shape of one captured trace line: a request with `url`, `method`
 * and `body`, and a response whose `body_raw` has been JSON-decoded (or failed to).
 *
 * Missing keys are folded into their `dict.get` defaults where every call site uses
 * the same default (`url` "", `method` (field `verb`) "UNKNOWN", block `text` "", `messages` [],
 * `system` "", `tools` []); where call sites disagree (`model`, tool `name`) the field
 * stays optional.
 */
module Trace {
  import opened Wrappers

  /** One element of a content array. `OtherBlock` is a dict of another or missing
      `type`; `NonDict` is an array element that is not a JSON object at all. */
  datatype Block =
    | Text(text: string)
    | ToolUse(name: Option<string>)
    | ToolResult
    | OtherBlock
    | NonDict

  /** A `content` or `system` value: a plain string, an array of blocks, or neither
      (JSON null). A missing key is `Str("")`. */
  datatype Content = Str(s: string) | Blocks(blocks: seq<Block>) | NoContent

  /** A message; a missing `role` behaves like any role other than "user"/"assistant". */
  datatype Message = Message(role: string, content: Content)

  datatype Tool = Tool(name: Option<string>)

  /** A request body that is a non-empty JSON object. */
  datatype Body = Body(model: Option<string>, messages: seq<Message>, system: Content, tools: seq<Tool>)

  /** `body` is None for a missing, null or empty-object body: every reader tests the
      body for truthiness before looking inside it. */
  datatype Request = Request(url: string, verb: string, body: Option<Body>)

  /** A decoded `body_raw` object; a missing `content` key is the empty array. */
  datatype Response = Response(content: seq<Block>)

  /** `response` is None when `body_raw` is missing or does not decode. */
  datatype Entry = Entry(request: Request, response: Option<Response>)

  /** Python `bool(value)` of a `system` value. */
  predicate Truthy(c: Content) {
    match c
    case Str(s) => |s| > 0
    case Blocks(bs) => |bs| > 0
    case NoContent => false
  }

  /** Python `str(b)` of a boolean. */
  function PyBool(b: bool): string {
    if b then "True" else "False"
  }

  /** No element of `bs` is a non-object: `block.get(...)` is safe on all of them. */
  predicate AllDicts(bs: seq<Block>) {
    forall i :: 0 <= i < |bs| ==> !bs[i].NonDict?
  }

  /** The decoded response can be scanned with `block.get` without raising. */
  predicate ResponseWellTyped(resp: Option<Response>) {
    resp.Some? ==> AllDicts(resp.value.content)
  }
}

=== FILE: versions.dfy ===
/**
 * The per-version bookkeeping both extractor scripts share: the version taken from a
 * trace file's name, the first-occurrence loop of `main` that fills `versions_info`,
 * and the `metadata.json` record built from it.
 *
 * A Python dict is an insertion-ordered sequence of (key, value) pairs here.
 */
module Versions {
  import opened Wrappers
  import opened Text
  import opened Sorting

  /** `stem.split('_')[-1]`: the text after the last underscore, or the whole stem. */
  function VersionOf(stem: string): (v: string)
    ensures '_' !in v
    ensures EndsWith(stem, v)
    ensures '_' !in stem ==> v == stem
    ensures '_' in stem ==> |v| < |stem| && stem[|stem| - |v| - 1] == '_'
  {
    var parts := Split(stem, '_');
    SplitTailIsSuffix(stem, '_', |parts| - 1);
    assert parts[|parts| - 1..] == [parts[|parts| - 1]];
    if '_' in stem then
      assert |parts| > 1;
      parts[|parts| - 1]
    else
      parts[|parts| - 1]
  }

  /** Whatever precedes the last underscore, the version is what follows it. */
  lemma VersionAfterLastUnderscore(prefix: string, v: string)
    requires '_' !in v
    ensures VersionOf(prefix + "_" + v) == v
  {
    var stem := prefix + "_" + v;
    var w := VersionOf(stem);
    assert '_' in stem by { assert stem[|prefix|] == '_'; }
    assert stem[|stem| - |v|..] == v;
    assert stem[|stem| - |v| - 1] == '_';
    assert stem[|stem| - |w| - 1] == '_';
    assert stem[|stem| - |w|..] == w;
    assert |w| == |v|;
  }

  /** Keys of an insertion-ordered dict, in insertion order. */
  function Keys<V>(d: seq<(string, V)>): (r: seq<string>)
    ensures |r| == |d| && forall k :: 0 <= k < |d| ==> r[k] == d[k].0
  {
    seq(|d|, k requires 0 <= k < |d| => d[k].0)
  }

  /** What processing one trace file yields: its record, nothing, or an uncaught exception. */
  datatype Processed<V> = Extracted(value: V) | NothingFound | Raised

  /** The outcome of `main`'s loop: `versions_info`, or the index of the file that raised. */
  datatype Run<V> = Completed(info: seq<(string, V)>) | Aborted(at: nat)

  /**
   * `main`'s loop over the first `n` files: a file whose version is already a key is
   * skipped without being read; otherwise its record, if any, is stored under its version.
   */
  function Collect<V>(versions: seq<string>, outcomes: seq<Processed<V>>, n: nat): Run<V>
    requires |versions| == |outcomes| && n <= |versions|
  {
    if n == 0 then Completed([])
    else
      match Collect(versions, outcomes, n - 1)
      case Aborted(a) => Aborted(a)
      case Completed(d) =>
        if versions[n - 1] in Keys(d) then Completed(d)
        else
          match outcomes[n - 1]
          case Raised => Aborted(n - 1)
          case NothingFound => Completed(d)
          case Extracted(x) => Completed(d + [(versions[n - 1], x)])
  }

  /** An earlier file with the same version already produced a record. */
  predicate Shadowed<V>(versions: seq<string>, outcomes: seq<Processed<V>>, i: nat)
    requires |versions| == |outcomes| && i < |versions|
  {
    exists j :: 0 <= j < i && versions[j] == versions[i] && outcomes[j].Extracted?
  }

  /** The files the loop reads, that is, those not shadowed, all complete without raising. */
  predicate NoneRaise<V>(versions: seq<string>, outcomes: seq<Processed<V>>, n: nat)
    requires |versions| == |outcomes| && n <= |versions|
  {
    forall i :: 0 <= i < n && !Shadowed(versions, outcomes, i) ==> !outcomes[i].Raised?
  }

  /** The reference definition: each version with the record of its first file that has one, in file order. */
  function Firsts<V>(versions: seq<string>, outcomes: seq<Processed<V>>, n: nat): seq<(string, V)>
    requires |versions| == |outcomes| && n <= |versions|
  {
    if n == 0 then []
    else
      Firsts(versions, outcomes, n - 1)
      + (if outcomes[n - 1].Extracted? && !Shadowed(versions, outcomes, n - 1)
         then [(versions[n - 1], outcomes[n - 1].value)] else [])
  }

  /** A version is a key of the reference dict exactly when some file of that version has a record. */
  lemma {:induction false} FirstsKeys<V>(versions: seq<string>, outcomes: seq<Processed<V>>, n: nat)
    requires |versions| == |outcomes| && n <= |versions|
    ensures forall v :: v in Keys(Firsts(versions, outcomes, n)) <==>
                          exists j :: 0 <= j < n && versions[j] == v && outcomes[j].Extracted?
  {
    if n > 0 {
      FirstsKeys(versions, outcomes, n - 1);
      var before := Firsts(versions, outcomes, n - 1);
      var added := outcomes[n - 1].Extracted? && !Shadowed(versions, outcomes, n - 1);
      var extra := if added then [(versions[n - 1], outcomes[n - 1].value)] else [];
      assert Keys(Firsts(versions, outcomes, n)) == Keys(before) + Keys(extra);
      forall v
        ensures v in Keys(Firsts(versions, outcomes, n)) <==>
                exists j :: 0 <= j < n && versions[j] == v && outcomes[j].Extracted?
      {
        if v in Keys(Firsts(versions, outcomes, n)) {
          if v in Keys(before) {
            var j :| 0 <= j < n - 1 && versions[j] == v && outcomes[j].Extracted?;
          } else {
            assert v in Keys(extra);
            assert added && v == versions[n - 1];
          }
        }
        if exists j :: 0 <= j < n && versions[j] == v && outcomes[j].Extracted? {
          var j :| 0 <= j < n && versions[j] == v && outcomes[j].Extracted?;
          if j < n - 1 {
            assert v in Keys(before);
          } else if added {
            assert Keys(extra) == [v];
          } else {
            var i :| 0 <= i < n - 1 && versions[i] == versions[n - 1] && outcomes[i].Extracted?;
            assert v in Keys(before);
          }
        }
      }
    }
  }

  /** The loop completes exactly when no file it reads raises, and then it builds the reference dict. */
  lemma {:induction false} CollectMatchesFirsts<V>(versions: seq<string>, outcomes: seq<Processed<V>>, n: nat)
    requires |versions| == |outcomes| && n <= |versions|
    ensures Collect(versions, outcomes, n).Completed? <==> NoneRaise(versions, outcomes, n)
    ensures Collect(versions, outcomes, n).Completed? ==>
              Collect(versions, outcomes, n).info == Firsts(versions, outcomes, n)
  {
    if n > 0 {
      CollectMatchesFirsts(versions, outcomes, n - 1);
      if Collect(versions, outcomes, n - 1).Completed? {
        FirstsKeys(versions, outcomes, n - 1);
        assert versions[n - 1] in Keys(Firsts(versions, outcomes, n - 1))
               <==> Shadowed(versions, outcomes, n - 1);
      } else {
        assert !NoneRaise(versions, outcomes, n);
      }
    }
  }

  /** Every entry of the reference dict is the record of a file no earlier file of its version shadows. */
  lemma {:induction false} FirstsAreFirstOccurrences<V>(versions: seq<string>, outcomes: seq<Processed<V>>, n: nat)
    requires |versions| == |outcomes| && n <= |versions|
    ensures forall k :: 0 <= k < |Firsts(versions, outcomes, n)| ==>
              exists i :: 0 <= i < n && outcomes[i].Extracted? && !Shadowed(versions, outcomes, i)
                          && Firsts(versions, outcomes, n)[k] == (versions[i], outcomes[i].value)
  {
    if n > 0 {
      FirstsAreFirstOccurrences(versions, outcomes, n - 1);
      var before := Firsts(versions, outcomes, n - 1);
      var after := Firsts(versions, outcomes, n);
      forall k | 0 <= k < |after|
        ensures exists i :: 0 <= i < n && outcomes[i].Extracted? && !Shadowed(versions, outcomes, i)
                            && after[k] == (versions[i], outcomes[i].value)
      {
        if k < |before| {
          assert after[k] == before[k];
          var i :| 0 <= i < n - 1 && outcomes[i].Extracted? && !Shadowed(versions, outcomes, i)
                   && before[k] == (versions[i], outcomes[i].value);
        } else {
          assert after[k] == (versions[n - 1], outcomes[n - 1].value);
        }
      }
    } else {
      assert Firsts(versions, outcomes, n) == [];
    }
  }

  /** Every file no earlier file of its version shadows has its record in the reference dict. */
  lemma {:induction false} FirstsHoldFirstOccurrences<V>(versions: seq<string>, outcomes: seq<Processed<V>>, n: nat)
    requires |versions| == |outcomes| && n <= |versions|
    ensures forall i :: 0 <= i < n && outcomes[i].Extracted? && !Shadowed(versions, outcomes, i) ==>
              (versions[i], outcomes[i].value) in Firsts(versions, outcomes, n)
  {
    if n > 0 {
      FirstsHoldFirstOccurrences(versions, outcomes, n - 1);
      var before := Firsts(versions, outcomes, n - 1);
      var after := Firsts(versions, outcomes, n);
      forall i | 0 <= i < n && outcomes[i].Extracted? && !Shadowed(versions, outcomes, i)
        ensures (versions[i], outcomes[i].value) in after
      {
        if i < n - 1 {
          var k :| 0 <= k < |before| && before[k] == (versions[i], outcomes[i].value);
          assert after[k] == before[k];
        } else {
          assert after[|before|] == (versions[i], outcomes[i].value);
        }
      }
    }
  }

  /** No version is stored twice: later files of a version already stored are skipped. */
  lemma {:induction false} FirstsDistinct<V>(versions: seq<string>, outcomes: seq<Processed<V>>, n: nat)
    requires |versions| == |outcomes| && n <= |versions|
    ensures NoDuplicates(Keys(Firsts(versions, outcomes, n)))
  {
    if n > 0 {
      FirstsDistinct(versions, outcomes, n - 1);
      FirstsKeys(versions, outcomes, n - 1);
      var before := Firsts(versions, outcomes, n - 1);
      if outcomes[n - 1].Extracted? && !Shadowed(versions, outcomes, n - 1) {
        assert versions[n - 1] !in Keys(before);
        assert Keys(Firsts(versions, outcomes, n)) == Keys(before) + [versions[n - 1]];
      }
    }
  }

  /** The `metadata.json` contents: per-version records and the version order. */
  datatype Metadata<V> = Metadata(versions: map<string, V>, order: seq<string>)

  /** Assigning each pair of `d` into a dict in turn; a later pair overwrites an earlier one. */
  function MapOf<V>(d: seq<(string, V)>): (m: map<string, V>)
    ensures m.Keys == set k | k in Keys(d)
  {
    if |d| == 0 then map[]
    else
      var m := MapOf(d[..|d| - 1]);
      assert Keys(d) == Keys(d[..|d| - 1]) + [d[|d| - 1].0];
      m[d[|d| - 1].0 := d[|d| - 1].1]
  }

  /** With distinct keys, the dict maps each key to its own pair's value. */
  lemma {:induction false} MapOfLookup<V>(d: seq<(string, V)>)
    requires NoDuplicates(Keys(d))
    ensures forall k :: 0 <= k < |d| ==> d[k].0 in MapOf(d) && MapOf(d)[d[k].0] == d[k].1
  {
    if |d| > 0 {
      var init, last := d[..|d| - 1], d[|d| - 1];
      assert Keys(init) == Keys(d)[..|d| - 1];
      MapOfLookup(init);
      assert MapOf(d) == MapOf(init)[last.0 := last.1];
      forall k | 0 <= k < |d| - 1
        ensures d[k].0 in MapOf(d) && MapOf(d)[d[k].0] == d[k].1
      {
        assert d[k] == init[k];
        assert Keys(d)[k] != Keys(d)[|d| - 1];
      }
    }
  }

  /** `save_metadata` of the tools extractor: records keyed by version, versions in sorted order. */
  function FreshMetadata<V>(d: seq<(string, V)>): (m: Metadata<V>)
    requires NoDuplicates(Keys(d))
    ensures Sorted(m.order) && NoDuplicates(m.order)
    ensures multiset(m.order) == multiset(Keys(d))
    ensures m.versions.Keys == set v | v in m.order
    ensures forall k :: 0 <= k < |d| ==> d[k].0 in m.versions && m.versions[d[k].0] == d[k].1
  {
    MapOfLookup(d);
    SortKeepsDistinct(Keys(d));
    Metadata(MapOf(d), Sort(Keys(d)))
  }

  /** Appending each key not yet present, in turn: the `extraction_order` update. */
  function AppendMissing(order: seq<string>, keys: seq<string>): (r: seq<string>)
    ensures forall v :: v in r <==> v in order || v in keys
    ensures NoDuplicates(order) ==> NoDuplicates(r)
    ensures |order| <= |r| && r[..|order|] == order
    decreases |keys|
  {
    if |keys| == 0 then order
    else if keys[0] in order then AppendMissing(order, keys[1..])
    else AppendMissing(order + [keys[0]], keys[1..])
  }

  /** The merged `extraction_order`, sorted: the earlier versions and the new ones, with no
      repeat unless the earlier order had one. */
  lemma MergedOrder(prior: seq<string>, keys: seq<string>)
    ensures forall v :: v in Sort(AppendMissing(prior, keys)) <==> v in prior || v in keys
    ensures (set v | v in Sort(AppendMissing(prior, keys))) == (set v | v in prior) + (set v | v in keys)
    ensures NoDuplicates(prior) ==> NoDuplicates(Sort(AppendMissing(prior, keys)))
  {
    var order := AppendMissing(prior, keys);
    assert forall v :: v in Sort(order) <==> v in multiset(Sort(order));
    if NoDuplicates(prior) {
      SortKeepsDistinct(order);
    }
  }

  /**
   * `m` is `base` with the records of `d` merged in: its order is sorted and holds exactly
   * the earlier versions and the new ones, with no repeat unless the earlier order had one;
   * its records are the earlier ones, overwritten by those of `d`.
   */
  ghost predicate MergedInto<V>(m: Metadata<V>, base: Metadata<V>, d: seq<(string, V)>) {
    && Sorted(m.order)
    && (forall v :: v in m.order <==> v in base.order || v in Keys(d))
    && (NoDuplicates(base.order) ==> NoDuplicates(m.order))
    && (forall v :: v in m.versions <==> v in base.versions || v in Keys(d))
    && (forall k :: 0 <= k < |d| ==> d[k].0 in m.versions && m.versions[d[k].0] == d[k].1)
    && (forall v :: v in base.versions && v !in Keys(d) ==> v in m.versions && m.versions[v] == base.versions[v])
  }

  /** `save_metadata` of the system-prompt extractor, without the file I/O: the metadata
      already on disk (None when there is no file) merged with this run's records. */
  function MergeMetadata<V>(stored: Option<Metadata<V>>, d: seq<(string, V)>): (m: Metadata<V>)
    requires NoDuplicates(Keys(d))
    ensures MergedInto(m, stored.GetOr(Metadata(map[], [])), d)
  {
    var base := stored.GetOr(Metadata(map[], []));
    MergeHolds(base, d);
    Metadata(base.versions + MapOf(d), Sort(AppendMissing(base.order, Keys(d))))
  }

  /** The merge of `save_metadata` has the properties `MergedInto` names. */
  lemma MergeHolds<V>(base: Metadata<V>, d: seq<(string, V)>)
    requires NoDuplicates(Keys(d))
    ensures MergedInto(Metadata(base.versions + MapOf(d), Sort(AppendMissing(base.order, Keys(d)))), base, d)
  {
    var m := Metadata(base.versions + MapOf(d), Sort(AppendMissing(base.order, Keys(d))));
    MergedOrder(base.order, Keys(d));
    MapOfLookup(d);
    assert m.versions.Keys == base.versions.Keys + MapOf(d).Keys;
    forall v | v in base.versions && v !in Keys(d)
      ensures v in m.versions && m.versions[v] == base.versions[v]
    {
      assert v !in MapOf(d);
    }
  }

  /** The tools extractor's metadata after a run: none when the run aborts or collects
      nothing, otherwise a fresh file holding exactly this run's records. */
  function RunFreshMetadata<V>(run: Run<V>): (m: Option<Metadata<V>>)
    requires run.Completed? ==> NoDuplicates(Keys(run.info))
    ensures m.None? <==> run.Aborted? || |run.info| == 0
    ensures m.Some? ==>
              && run.Completed?
              && Sorted(m.value.order) && NoDuplicates(m.value.order)
              && multiset(m.value.order) == multiset(Keys(run.info))
              && (forall v :: v in m.value.versions <==> v in m.value.order)
              && forall k :: 0 <= k < |run.info| ==>
                   run.info[k].0 in m.value.versions && m.value.versions[run.info[k].0] == run.info[k].1
  {
    match run
    case Aborted(_) => None
    case Completed(info) => if |info| == 0 then None else Some(FreshMetadata(info))
  }

  /** The system-prompt extractor's metadata after a run: what was stored when the run
      aborts or collects nothing, otherwise this run's records merged into it. */
  function RunMergedMetadata<V>(stored: Option<Metadata<V>>, run: Run<V>): (m: Option<Metadata<V>>)
    requires run.Completed? ==> NoDuplicates(Keys(run.info))
    ensures run.Aborted? || |run.info| == 0 ==> m == stored
    ensures run.Completed? && |run.info| > 0 ==>
              m.Some? && MergedInto(m.value, stored.GetOr(Metadata(map[], [])), run.info)
  {
    match run
    case Aborted(_) => stored
    case Completed(info) => if |info| == 0 then stored else Some(MergeMetadata(stored, info))
  }
}

=== FILE: wrappers.dfy ===
/** The optional-value datatype used for absent JSON fields and "no match" results. */
module Wrappers {

  datatype Option<+T> = None | Some(value: T) {

    /** Returns the value encapsulated in Some, or `default` when None (Python's `d.get(k, default)`). */
    function GetOr(default: T): T {
      match this
      case Some(v) => v
      case None => default
    }
  }
}
